=== FILE: README.md ===
# OutfielderEnvironment core, modelled in Dafny

OutfielderEnvironment is a Unity platform for fly-ball catching experiments.
A ball is launched at a subject, or at a robot catcher. The subject moves a
catcher by leaning or with a joystick. Optical interception strategies
predict where the ball can be caught, and a trial runner works through a
shuffled schedule of test cases. A configuration layer reads settings and test
lists from text files and checks them against declared ranges.

This project models the logic of that system as pure Dafny functions and
small methods, and proves what the code does:

- **Strategies.**
  - LOT (`Lot`), with its plus and minus 30 degree pre-rotation.
  - GOAC (`Goac`).
  - The robot catcher's helpers in `WorldLogic/OAC.cs` (`Oac`): the throttled
    approach speed, the update skip, circular projection and the alpha position
    and radius.
- **Test cases.**
  - The three `TestCase` constructors, `ToConfigFormat` and `ToCSVLine`
    (`TestCases`).
  - The eight-target layout of `TestBuilder` (`TestBuilder`).
- **Trials.**
  - The manager's Ready → CountingDown → TrialInProgress → Ready cycle, with
    `StartTrial` as a resumable step machine (`TrialsManager`).
  - The two runners' schedule fill, swap shuffles and runner loops
    (`TrialRunner`, `AutoTrialRunner`).
  - The catch counter of the result panel (`LastResult`).
- **Configuration.**
  - The `Variable<T>` Default/Unchecked/Checked machine and its range check
    (`Variable`).
  - `CVector` and `Configurable<T>`.
  - The newer manager's `DefineVariables` table, line reader, `Load`
    dispatch, `TryMakeTest` and Pull/Check/Push cycle (`ConfigurationManager`).
  - The older UI manager's `CheckConfig`, `LoadConfig`, `SaveConfig` and
    `ParseVector` (`UIConfigurationManager`).
  - The ball-preset table (`BallPreset`).
- **Input shaping.** The input curves, the modulus sigmoid, the lean
  calibration and its normalisation (`Controller`).
- **Utilities.**
  - The CSV line builder and the per-trial data paths (`CsvLine`,
    `DataManager`).
  - The Vector3 plane projections (`Vector3Extensions`).
  - The graph auto-rescaling and the low-pass filter (`Grapher`).

Floats are modelled as `real`. Engine maths is an oracle value
`UnityMath.Maths` passed as a parameter: `Mathf.Sqrt`, `Mathf.Pow`, cosine and
sine in degrees, `Vector3.Angle`, and the value of a float division by zero.
The predicates `SqrtSound`, `PowSound` and `TrigSound` state the only facts
about these that the proofs use. In the same way, number rendering and parsing
(`ToString`, `int/float/bool.TryParse`, the `Vector3.TryParse` extension) is an
oracle `Strings.Format`. `SoundFormat` states that every rendering holds no
`,`, `=`, space or `/` and parses again; that integers and booleans come back
exactly; that a real comes back as its rounding (`Strings.Rounded`), since C#
prints a float with about seven significant digits; and that the vector parser
reads a comma-separated triple as the three component parses.
`Strings.SoundFormatExists` exhibits a format that meets it. A real that comes
back as itself is `Strings.Exact`. An
exception is an `Err` of `Wrappers.Result`, and `System.Random.Next(0, i)` is a
nondeterministic choice in `[0, max(i, 1))`.

The model follows the code as written. Several of its behaviours differ from
the comments or the evident design, and the lemmas prove the actual behaviour:

- The `TrialRunner` fill uses the stride `trialRuns`, so the copies of
  neighbouring tests overlap. The last test also fills the practice slots, and
  the unwritten tail stays at test 0 (`TrialRunner.FillCounts`).
- The trial shuffle draws from the whole prefix, so it can move entries into
  the practice part (`TrialRunner.TrialSwapReachesPractice`).
- `AutoTrialRunner.Runner` has these behaviours:
  - It never advances its index, which stays 0
    (`AutoTrialRunner.PassesStayAtFirst`).
  - It calls `StartTrial` without starting the coroutine, so no trial begins.
  - With the manager Ready the wait after `StartTrial` is skipped, so the loop
    never yields. A runner started from Running or Paused then spins for ever
    inside one frame. With the manager not Ready the wait never ends.
  - It is started before the status is set, so a runner started from Stopped
    ends at once.
- `DefineVariables` gives `lot_start_time` a null container, so the
  `Variable` constructor throws (`ConfigurationManager.DefineVariablesThrows`).
  The C# text of `DefineVariables` would not compile as written. It passes
  plain arguments and `null` to `ref` parameters (Variable.cs:31), and it
  instantiates `Variable<CVector>` although `Variable<T>` requires
  `T : struct` (Variable.cs:5) and `CVector` is a class (CVector.cs:6). The
  throw is the evident reading of the text, not an observed behaviour.
- A failed `Load` or `Check` in `LoadButton` returns with `loading` still
  set, so every later `Pull` is skipped. The variables and tests parsed before
  the failing line are kept (`ConfigurationManager.FailedLoadKeepsEarlierValue`).
- The `TrialRunner` runner clears the highlight at index `CurrentIndex - 1`
  after showing the total. At index 0 this throws, so an empty schedule (the
  newer loader accepts `number_of_tests = 0`) or a stop before the first run
  ends with an exception, and the start button stays locked
  (`TrialRunner.Finish`).
- `Refresh` pushes even after `Check` fails.
- `Load` reports every illegal value as one for `ball_friction`.
- A `P` test is written as speed, angle, deviation but read as speed,
  deviation, angle. A `T` test is written as target x, y, z but read as x, z
  and height (`ConfigurationManager.Rebuilt`).
- The velocity and parameter constructors store `vy^2 g / 2 + 1` as the
  height. The parameter constructor's local `target` hides the field, so the
  field stays zero.
- In the older UI manager:
  - The undefined-name message quotes the value token.
  - A failed `TryParse` zeroes the field.
  - Empty lines are kept.
  - `CheckConfig` rejects preset 0.
  - The test-list branch of `SaveConfig` is unreachable.
- The sinusoid input curve is identically 0, because of integer division.
  `ModulusSigmoid` ignores its parameter after the first call.
- The low-pass filter sums the oldest sample and omits the newest old one.
- The growth loop of `AddToLine` ends only from a positive scale.

The flight time is `(vy + sqrt(vy^2 + 2 g)) / -g` with `g = -9.81`, as in
`Trials/TestCase.cs:36`.

## Model

| member | source | states |
|---|---|---|
| Vector3Extensions.ToCSVFormat | Assets/Scripts/WorldLogic/Vector3Extensions.cs:15-18 | with comma-free renderings the text splits at commas into exactly the three rendered coordinates; under a sound format a vector parser reads it as the rounded coordinates, and as the vector itself when they print exactly |
| Vector3Extensions.ProjectionsKeepTwoCoordinates | Assets/Scripts/WorldLogic/Vector3Extensions.cs:28-47 | XZ, XY and YZ each zero exactly one coordinate and keep the other two, so adding the dropped component back gives the vector |
| Vector3Extensions.ProjectionsIdempotent | Assets/Scripts/WorldLogic/Vector3Extensions.cs:28-47 | projecting twice onto the same plane is projecting once |
| Vector3Extensions.ProjectionsCommute | Assets/Scripts/WorldLogic/Vector3Extensions.cs:28-39 | XZ and XY commute and both orders leave (x, 0, 0) |
| Vector3Extensions.XZDeterminedByGround | Assets/Scripts/WorldLogic/Vector3Extensions.cs:28-31 | two vectors have the same ground projection iff they agree on x and z |
| UnityMath.Quot | Assets/Scripts/Strategies/LOT.cs:20-24 | float division: for a nonzero divisor the quotient times the divisor is the dividend |
| UnityMath.Sign | Assets/Scripts/Trials/TestCase.cs:45 | Mathf.Sign is 1 exactly for nonnegative values and -1 exactly for negative ones |
| UnityMath.Clamp | Assets/Scripts/Controller/Controller.cs:112-113 | Mathf.Clamp lands in [lo, hi] when lo <= hi and leaves a value already inside unchanged |
| UnityMath.Clamp01 | Assets/Scripts/Controller/Controller.cs:58 | the result is in [0, 1], and a value in [0, 1] is kept |
| UnityMath.RotateY | Assets/Scripts/Strategies/LOT.cs:78-86 | a rotation about the vertical axis keeps the height |
| UnityMath.RotateYInverse | Assets/Scripts/Strategies/LOT.cs:78-86 | rotating by -deg undoes a rotation by deg |
| UnityMath.RotateYKeepsHorizontalLength | Assets/Scripts/Controller/Controller.cs:127 | a rotation about y keeps x^2 + z^2 |
| UnityMath.NormalizedIsUnit | Assets/Scripts/WorldLogic/OAC.cs:144 | a vector longer than kEpsilon normalises to length 1 |
| UnityMath.MagnitudeNonNegative | Assets/Scripts/Strategies/GOAC.cs:22 | a magnitude is nonnegative and squares to the squared norm |
| UnityMath.MagnitudeOfScale | Assets/Scripts/WorldLogic/OAC.cs:144 | scaling by k >= 0 scales the magnitude by k |
| Lot.Predict | Assets/Scripts/Strategies/LOT.cs:27-42 | the inner prediction is a ground point (y = 0) |
| Lot.PredictIgnoresTime | Assets/Scripts/Strategies/LOT.cs:27-42 | the inner prediction depends only on the ball position, never on t |
| Lot.PredictIs | Assets/Scripts/Strategies/LOT.cs:32-39 | when the numerators fit (cx, cz) against a nonzero denominator, the prediction is exactly (cx, 0, cz) |
| Lot.FixConstants | Assets/Scripts/Strategies/LOT.cs:17-25 | for a regular snapshot (catcher and ball differ in x and z, the ball is off the ground, and the two derived divisors are nonzero) the fixed p and q solve the two equations Initialise is built from |
| Lot.ConstantsPredictCatcher | Assets/Scripts/Strategies/LOT.cs:20-39 | any p and q solving those equations make the prediction's numerators fit the catcher's ground point |
| Lot.FixationIdentity | Assets/Scripts/Strategies/LOT.cs:17-42 | fed the very ball position the constants were fixed from, the inner prediction returns the catcher's initial x and z |
| Lot.ShiftRoundTrip | Assets/Scripts/Strategies/LOT.cs:78-86 | ShiftBack undoes Shift, and both keep y |
| Lot.NewStrategy | Assets/Scripts/Strategies/LOT.cs:11-15 | a new component is not ready and starts after 1 s |
| Lot.Initialise | Assets/Scripts/Strategies/LOT.cs:45-49 | the public Initialise makes the strategy ready and keeps its start time and position |
| Lot.UpdatePrediction | Assets/Scripts/Strategies/LOT.cs:51-56 | nothing happens unless ready; otherwise only the position changes, to a ground point |
| Lot.Terminate | Assets/Scripts/Strategies/LOT.cs:68-71 | only the ready flag changes, to false |
| Lot.PublicFixation | Assets/Scripts/Strategies/LOT.cs:45-56 | through the public interface, at any time, the shifted-back prediction for the fixation ball position is the catcher's starting (x, 0, z) |
| Lot.ReadyLifecycle | Assets/Scripts/Strategies/LOT.cs:45-71 | Initialise sets ready, Terminate clears it, and an update changes neither the flag nor the constants (and nothing at all when not ready) |
| Goac.DeltaNonNegative | Assets/Scripts/Strategies/GOAC.cs:22 | deltaP0 is a magnitude, so never negative |
| Goac.Offset | Assets/Scripts/Strategies/GOAC.cs:47-61 | the offset from the ball is horizontal (y = 0) |
| Goac.Predict | Assets/Scripts/Strategies/GOAC.cs:41-65 | the prediction is a ground point |
| Goac.LineNormPositive | Assets/Scripts/Strategies/GOAC.cs:60 | sqrt((H t)^2 + 1) is positive and squares to (H t)^2 + 1 |
| Goac.OffsetGeometry | Assets/Scripts/Strategies/GOAC.cs:49-62 | the offset lies on the circle of radius r (x^2 + z^2 = r^2) and on the line z = H t x, and its x has the sign of r |
| Goac.PredictOnCircle | Assets/Scripts/Strategies/GOAC.cs:52-64 | the prediction is a ground point whose squared horizontal distance from the ball is r^2 |
| Goac.StartRadius | Assets/Scripts/Strategies/GOAC.cs:52-53 | at t = 0 with the ball at its snapshot height (nonzero), r = deltaP0 |
| Goac.PredictAtStart | Assets/Scripts/Strategies/GOAC.cs:17-64 | at t = 0 with the ball back at its snapshot position, the prediction is the ball's ground point moved deltaP0 along x |
| Goac.NewStrategy | Assets/Scripts/Strategies/GOAC.cs:11-15 | a new component is not ready and starts after 0.5 s |
| Goac.Initialise | Assets/Scripts/Strategies/GOAC.cs:67-71 | the strategy becomes ready with the snapshot's ball position recorded, start time and position kept |
| Goac.UpdatePrediction | Assets/Scripts/Strategies/GOAC.cs:73-78 | nothing unless ready; otherwise only the position changes, to a ground point |
| Goac.Terminate | Assets/Scripts/Strategies/GOAC.cs:90-93 | only the ready flag changes, to false |
| Goac.PublicStart | Assets/Scripts/Strategies/GOAC.cs:67-78 | initialising and updating initialTime later with the ball unmoved predicts the ball's ground point moved deltaP0 along x |
| Goac.ReadyLifecycle | Assets/Scripts/Strategies/GOAC.cs:67-93 | Initialise sets ready; after Terminate the flag is clear and an update changes nothing |
| Oac.NewCatcher | Assets/Scripts/WorldLogic/OAC.cs:14-31 | the declared defaults: unlimited, 5 skipped updates, top speed 7 from distance 10, growth 3, angular modifier 0.3 |
| Oac.Start | Assets/Scripts/WorldLogic/OAC.cs:57-64 | with nonnegative skips and a positive step, timeToSkip is positive and the squared top speed nonnegative; nothing else changes |
| Oac.SkipWindow | Assets/Scripts/WorldLogic/OAC.cs:63-75 | a step count is inside the skip window exactly when it is at most skippedUpdates |
| Oac.SendHome | Assets/Scripts/WorldLogic/OAC.cs:89-93 | position becomes home and velocity zero, nothing else changes |
| Oac.RobotButton | Assets/Scripts/WorldLogic/OAC.cs:100-130 | with no loaded test nothing changes; otherwise only K, H and the starting time (now plus the countdown) change |
| Oac.RobotConstants | Assets/Scripts/WorldLogic/OAC.cs:107-124 | (K - vy) times the catcher start x is the ground launch speed, and H times the catcher x is the angular modifier times 360 times abs(vz) |
| Oac.SpeedBounds | Assets/Scripts/WorldLogic/OAC.cs:138-141 | for d >= 0, D > 0 and growth >= 0 the speed is in [0, maxVelocity], and it is maxVelocity from D on, so both branches meet at d = D |
| Oac.MoveTowards | Assets/Scripts/WorldLogic/OAC.cs:136-148 | only the velocity changes |
| Oac.MoveTowardsVelocity | Assets/Scripts/WorldLogic/OAC.cs:138-144 | beyond kEpsilon the applied velocity has the throttled speed as its length and points from the catcher to the target |
| Oac.Move | Assets/Scripts/WorldLogic/OAC.cs:66-87 | nothing changes inside the skip window; afterwards an unlimited catcher is placed on the point and a limited one is driven by MoveTowards, which keeps its position and sets a velocity |
| Oac.MoveAfterStart | Assets/Scripts/WorldLogic/OAC.cs:57-87 | after Start the first skippedUpdates + 1 steps leave the catcher alone, and every later step puts an unlimited catcher on the point |
| Oac.CircularProjectionSpec | Assets/Scripts/WorldLogic/OAC.cs:243-246 | for p2 longer than kEpsilon the projection is a nonnegative multiple of p2 with the length of p1; otherwise it is zero |
| Oac.RotateIntoXYSpec | Assets/Scripts/WorldLogic/OAC.cs:224-234 | the result is (length of v.XZ, v.y, 0) |
| Oac.AlphaXSpec | Assets/Scripts/WorldLogic/OAC.cs:200-207 | the x of the alpha position uses the ball's ground range and height |
| Oac.AlphaPositionOnRay | Assets/Scripts/WorldLogic/OAC.cs:196-217 | the alpha position is a ground point on the ray through the ball's ground point at distance abs(x), or the origin when the ball is on the vertical axis |
| Oac.AlphaRadiusSpec | Assets/Scripts/WorldLogic/OAC.cs:184-189 | the alpha radius is nonnegative and, off the vertical axis, is the distance between abs(x) and the ball's ground range |
| TestCases.FromTarget | Assets/Scripts/Trials/TestCase.cs:30-52 | build type Target, target and height stored verbatim, duration the flight time of vy, horizontal speeds covering the target in that time, launch speed the magnitude |
| TestCases.FromVelocity | Assets/Scripts/Trials/TestCase.cs:58-79 | build type InitialVelocity, velocity stored, target (t vx, 0, t vz), duration t, height vy^2 g / 2 + 1 |
| TestCases.FromParameters | Assets/Scripts/Trials/TestCase.cs:84-105 | build type InitialParameters, speed/angle/deviation stored, velocity Euler(0, dev, angle) * right * speed, target field left zero |
| TestCases.ParametersVelocity | Assets/Scripts/Trials/TestCase.cs:88 | the parameter velocity rises at speed sin(angle) and its ground part has squared length (speed cos(angle))^2 |
| TestCases.TargetVelocityRoundTrip | Assets/Scripts/Trials/TestCase.cs:36-75 | a velocity case built from a target case's velocity has the same duration and, for a nonzero duration, the target's ground point as its target |
| TestCases.VelocityHeightAsWritten | Assets/Scripts/Trials/TestCase.cs:35-76 | that velocity case's height is 1 - (h - 1) g^2, not the peak height h |
| TestCases.Marker | Assets/Scripts/Trials/TestCase.cs:164-177 | each build type's marker is one character holding no '=' or '@' |
| TestCases.ToConfigFormat | Assets/Scripts/Trials/TestCase.cs:160-185 | under a sound format the line splits at '=' into "@" plus the marker and the three values, which a vector parser reads as the rounded values, and as the values themselves when they print exactly |
| TestCases.CsvValues | Assets/Scripts/Trials/TestCase.cs:153-156 | one value per test-list column |
| TestCases.ToCSVLine | Assets/Scripts/Trials/TestCase.cs:151-158 | with comma-free renderings the row splits into exactly its ten test-list values; under a sound format the first reads the test number and the fifth and sixth the target's rounded x and z, which are x and z when they print exactly |
| TestBuilder.Start | Assets/Scripts/Trials/TestBuilder.cs:11-42 | exactly 8 Target cases, one per neighbour position, each with a ground target, the given peak height and test number 2 |
| TestBuilder.OffsetsShape | Assets/Scripts/Trials/TestBuilder.cs:17-27 | every step moves at most one unit per axis, and at least one unit in some axis, and no two steps repeat |
| TestBuilder.ChebyshevDistance | Assets/Scripts/Trials/TestBuilder.cs:17-27 | every target is a ground point at Chebyshev distance abs(d) from the catcher's start |
| TestBuilder.TargetsDistinct | Assets/Scripts/Trials/TestBuilder.cs:17-27 | for d != 0 the targets are pairwise distinct and none is the start's ground point; for d = 0 all are |
| TrialsManager.FixedUpdate | Assets/Scripts/Trials/TrialsManager.cs:64-70 | the catcher moves exactly when a trial is in progress, and nothing else changes |
| TrialsManager.SetTestCases | Assets/Scripts/Trials/TrialsManager.cs:52-56 | assigning the tests raises testsChanged and changes nothing else |
| TrialsManager.ResetTests | Assets/Scripts/Trials/TrialsManager.cs:148-151 | the tests become null and the change flag is raised |
| TrialsManager.LoadTest | Assets/Scripts/Trials/TrialsManager.cs:138-141 | the loaded case is set and nothing else changes |
| TrialsManager.UnloadTest | Assets/Scripts/Trials/TrialsManager.cs:143-146 | the loaded case is cleared and nothing else changes |
| TrialsManager.LoadUnload | Assets/Scripts/Trials/TrialsManager.cs:138-146 | load then unload is unload alone, and a second load overrides the first |
| TrialsManager.Launch | Assets/Scripts/Trials/TrialsManager.cs:99-115 | after the countdown the status is TrialInProgress, the writer starts for the loaded case, time and frame are recorded and the ball gets the loaded velocity; an unloaded case faults after the status update |
| TrialsManager.Resume | Assets/Scripts/Trials/TrialsManager.cs:72-97 | one resumption: with no test only the message changes; otherwise CountingDown with the catcher placed and the countdown begun, and each wait lowers the countdown by 0.01 |
| TrialsManager.Prepared | Assets/Scripts/Trials/TrialsManager.cs:81-84 | the status is CountingDown and the catcher is at its start position |
| TrialsManager.Ceil | Assets/Scripts/Trials/TrialsManager.cs:91-97 | the least integer not below a positive x |
| TrialsManager.StartTrial | Assets/Scripts/Trials/TrialsManager.cs:72-116 | with no test only "No test loaded" is shown and the status is kept; otherwise the coroutine waits pause/0.01 rounded up times (none for a pause <= 0), then the trial is in progress with the catcher placed, the loaded velocity applied, time, frame and writer started |
| TrialsManager.Countdown | Assets/Scripts/Trials/TrialsManager.cs:91-97 | the countdown loop ends in the launched state after exactly CountdownTicks waits |
| TrialsManager.EntryState | Assets/Scripts/Trials/TrialsManager.cs:74-92 | entering with a test loaded either starts counting or, for a pause <= 0, launches at once |
| TrialsManager.CountdownStep | Assets/Scripts/Trials/TrialsManager.cs:92-97 | one resumption during the countdown either keeps counting, one wait more, or launches |
| TrialsManager.LaunchedFields | Assets/Scripts/Trials/TrialsManager.cs:105-115 | what a launch from the prepared state sets |
| TrialsManager.StillWaiting | Assets/Scripts/Trials/TrialsManager.cs:92 | while the countdown is still positive after n waits, n is below the tick count |
| TrialsManager.TicksExact | Assets/Scripts/Trials/TrialsManager.cs:91-97 | the first n after which pause - 0.01 n is no longer positive is CountdownTicks |
| TrialsManager.CountdownHoldsCatcher | Assets/Scripts/Trials/TrialsManager.cs:64-95 | while the countdown waits, FixedUpdate leaves the catcher where StartTrial placed it |
| TrialsManager.CompleteTrial | Assets/Scripts/Trials/TrialsManager.cs:118-136 | whatever the prior status: Ready, lastResult = caught, no test loaded, catcher home, ball frozen at home with zero velocity, writer off and the result written |
| TrialsManager.TrialCycle | Assets/Scripts/Trials/TrialsManager.cs:64-136 | after launch and completion the result row reads 1 iff caught, the rounded time since launch and the frames since launch |
| TrialsManager.TrialSettles | Assets/Scripts/Trials/TrialsManager.cs:64-136 | after launch and completion the catcher no longer moves and no test is loaded, for every format |
| TrialRunner.Fill | Assets/Scripts/Trials/TrialRunner.cs:204-213 | the schedule has (trialRuns + practiceRuns) * numTests entries, each the overlapping fill's entry and a test index |
| TrialRunner.WriteInBounds | Assets/Scripts/Trials/TrialRunner.cs:211-213 | every position the fill writes lies inside the schedule |
| TrialRunner.EntryIsTest | Assets/Scripts/Trials/TrialRunner.cs:211-213 | every entry after the fill is in [0, numTests) |
| TrialRunner.PartialStep | Assets/Scripts/Trials/TrialRunner.cs:211-213 | one pass of the inner loop turns the fill after test i - 1 into the fill after test i |
| TrialRunner.Blocks | Assets/Scripts/Trials/TrialRunner.cs:211-213 | the trial blocks have n * d entries |
| TrialRunner.BlocksEntry | Assets/Scripts/Trials/TrialRunner.cs:211-213 | position k of the blocks holds k / d |
| TrialRunner.BlocksCount | Assets/Scripts/Trials/TrialRunner.cs:211-213 | each test index appears d times in the blocks, any other value never |
| TrialRunner.FillShape | Assets/Scripts/Trials/TrialRunner.cs:208-213 | the fill is the trialRuns-blocks, then practiceRuns copies of the last test, then zeros |
| TrialRunner.FillCounts | Assets/Scripts/Trials/TrialRunner.cs:208-213 | each test appears trialRuns times, plus practiceRuns for the last test, plus the unwritten tail for test 0 |
| TrialRunner.Swap | Assets/Scripts/Trials/TrialRunner.cs:219-221 | a swap exchanges positions i and j, keeps every other entry and the multiset |
| TrialRunner.ShuffleDown | Assets/Scripts/Trials/TrialRunner.cs:217-230 | the shuffle loop permutes the entries and leaves the positions from hi on untouched |
| TrialRunner.TrialSwapReachesPractice | Assets/Scripts/Trials/TrialRunner.cs:224-229 | a trial-range swap with a drawn practice position brings the trial entry into the practice part |
| TrialRunner.StartExperiment | Assets/Scripts/Trials/TrialRunner.cs:202-246 | numTrials and numPractices are the runs times the tests; the schedule has their sum of entries, each a test index, with the fill's counts kept by the shuffles |
| TrialRunner.InRangeKept | Assets/Scripts/Trials/TrialRunner.cs:216-230 | a permutation of test indexes holds only test indexes |
| TrialRunner.PauseButton | Assets/Scripts/Trials/TrialRunner.cs:79-100 | Running becomes Paused with the pausing flag, Paused becomes Running, any other state is unchanged; index and panel kept |
| TrialRunner.StopButton | Assets/Scripts/Trials/TrialRunner.cs:102-107 | the status becomes Stopped from any state, the text says "Stopping..." and the index is kept |
| TrialRunner.TypeAt | Assets/Scripts/Trials/TrialRunner.cs:154-158 | a position runs as Practice iff it is below numPractices, as Trial otherwise |
| TrialRunner.Iteration | Assets/Scripts/Trials/TrialRunner.cs:137-174 | a paused pass keeps the index and lowers the pausing flag; a running pass advances by exactly one and records the outcome on the panel |
| TrialRunner.Finish | Assets/Scripts/Trials/TrialRunner.cs:176-192 | Finished iff the whole schedule ran, "Finished OK" or "Stopped at n+1", the panel shows the total and resets, and the highlight clearing throws an index exception exactly when currentIndex is 0 |
| TrialRunner.Recorded | Assets/Scripts/Trials/TrialRunner.cs:154-170 | the k-th recorded result is the k-th outcome with its position's trial type |
| TrialRunner.Run | Assets/Scripts/Trials/TrialRunner.cs:134-195 | with no button pressed the runner finishes the whole schedule and shows the caught Trials over numTrials; it ends with the index exception exactly when the schedule is empty |
| TrialRunner.PauseResume | Assets/Scripts/Trials/TrialRunner.cs:79-100 | pause then resume returns to Running at the same index with the same panel |
| TrialRunner.PausedStaysPut | Assets/Scripts/Trials/TrialRunner.cs:140-149 | however many paused passes run, the index and panel do not change |
| AutoTrialRunner.ExitsOnlyWhenStopped | Assets/Scripts/Trials/AutoTrialRunner.cs:33 | the loop ends exactly when the status is Stopped |
| AutoTrialRunner.Pause | Assets/Scripts/Trials/AutoTrialRunner.cs:103-106 | the status becomes Paused from any state |
| AutoTrialRunner.StartPractice | Assets/Scripts/Trials/AutoTrialRunner.cs:93-97 | the status becomes Running |
| AutoTrialRunner.Stop | Assets/Scripts/Trials/AutoTrialRunner.cs:111-117 | only Paused becomes Stopped; any other status is kept |
| AutoTrialRunner.StopNeedsPause | Assets/Scripts/Trials/AutoTrialRunner.cs:103-117 | Stop changes only a paused runner, pausing then stopping stops, and a running runner ignores Stop |
| AutoTrialRunner.StartExperiment | Assets/Scripts/Trials/AutoTrialRunner.cs:62-87 | the schedule has numTests * trialRuns entries, each test exactly trialRuns times and nothing else; the status ends Running, and the runner ends at once iff it was started from Stopped; started from Running with a Ready manager and a non-empty schedule, the source call never returns (see Left out) |
| AutoTrialRunner.RunningPass | Assets/Scripts/Trials/AutoTrialRunner.cs:40-51 | a running pass loads the test at schedule position currentIndex, never moves currentIndex, leaves everything else in the manager as it was, and yields exactly when the manager is not Ready; an index outside the schedule or the tests is an error |
| AutoTrialRunner.PassesStayAtFirst | Assets/Scripts/Trials/AutoTrialRunner.cs:32-52 | from currentIndex 0, however many passes run, currentIndex stays 0, the manager's status is unchanged, the loaded test is always the first scheduled one, and with the manager Ready no pass yields |
| LastResult.Initial | Assets/Scripts/UI/LastResult.cs:17 | the total starts at 0 |
| LastResult.UpdateResult | Assets/Scripts/UI/LastResult.cs:20-34 | the text says CATCH or MISS, and the total grows by one exactly for a caught Trial and is otherwise unchanged |
| LastResult.ShowTotal | Assets/Scripts/UI/LastResult.cs:36-41 | the text is total "/" runs and the total resets to 0 |
| LastResult.UpdateAll | Assets/Scripts/UI/LastResult.cs:20-34 | after a list of results the total has grown by exactly the caught Trials among them |
| LastResult.NoCatches | Assets/Scripts/UI/LastResult.cs:22-33 | misses and practices never count |
| LastResult.CatchesAtMost | Assets/Scripts/UI/LastResult.cs:20-34 | the count never exceeds the number of results |
| Variable.NumberRanges | Assets/Scripts/Configuration/Variable.cs:174-190 | for numbers Closed, Open, LeftOpen and RightOpen are the four intervals |
| Variable.VectorRanges | Assets/Scripts/Configuration/Variable.cs:174-190 | for CVector a closed range is the componentwise box, an open one the box without its two corners |
| Variable.New | Assets/Scripts/Configuration/Variable.cs:31-59 | construction succeeds iff the default is in range and the container present, with the range error checked first, and the new variable is Default |
| Variable.ForceSet | Assets/Scripts/Configuration/Variable.cs:61-68 | the value is stored, the state becomes Unchecked, and nothing else changes |
| Variable.TryParse | Assets/Scripts/Configuration/Variable.cs:74-95 | a conversion stores the value as Unchecked and reports true; NotSupported reports false and changes nothing; other exceptions escape |
| Variable.Pull | Assets/Scripts/Configuration/Variable.cs:131-134 | the container's text is parsed: a conversion stores it Unchecked and reports true with nothing else changed, NotSupported reports false with the variable unchanged, and another exception escapes with its message |
| Variable.Check | Assets/Scripts/Configuration/Variable.cs:140-153 | a Default variable passes unchanged; otherwise the answer is the range check, and a pass marks it Checked |
| Variable.Push | Assets/Scripts/Configuration/Variable.cs:101-125 | Push succeeds iff the variable is not Unchecked, handing on the default or the checked value and showing it in the container; otherwise it throws |
| Variable.ToString | Assets/Scripts/Configuration/Variable.cs:155-161 | name "=" and the default while Default, the value otherwise |
| Variable.NewPushesDefault | Assets/Scripts/Configuration/Variable.cs:31-125 | a new variable checks unchanged and pushes its default |
| Variable.ForceSetBlocksPush | Assets/Scripts/Configuration/Variable.cs:61-117 | a Push right after ForceSet throws |
| Variable.CheckGuardsPush | Assets/Scripts/Configuration/Variable.cs:101-153 | after a passing Check, Push succeeds and hands on an in-range value; after a failing one, Push throws |
| Variable.ParseCheckPush | Assets/Scripts/Configuration/Variable.cs:74-161 | a parsed value passes Check iff it is in range, is then what Push hands on, and is what ToString writes |
| CVector.CompareToVector | Assets/Scripts/Configuration/CVector.cs:55-63 | 0 iff equal, -1 iff strictly below in every component, 1 otherwise |
| CVector.CompareTo | Assets/Scripts/Configuration/CVector.cs:65-73 | 0 iff equal, -1 iff different and componentwise at most, 1 otherwise |
| CVector.Antisymmetry | Assets/Scripts/Configuration/CVector.cs:65-83 | -1 never comes back both ways, 0 is symmetric and agrees with Equals |
| CVector.OverloadsDisagree | Assets/Scripts/Configuration/CVector.cs:55-73 | the overloads differ exactly on different vectors that are below but share a component, where one says -1 and the other 1 |
| CVector.FromString | Assets/Scripts/Configuration/CVector.cs:15-19 | the string constructor succeeds iff the text parses, and otherwise throws its message |
| CVector.Implicit | Assets/Scripts/Configuration/CVector.cs:36-43 | the implicit conversion gives a vector iff the text parses, null otherwise |
| CVector.ConversionsAgree | Assets/Scripts/Configuration/CVector.cs:15-43 | both conversions accept the same strings with the same vector, and a rendered triple reads back as its rounded components, which are the components when they print exactly |
| Configurable.Set | Assets/Scripts/Configuration/Configurable.cs:11-14 | Get after Set gives the value set |
| Configurable.SetGet | Assets/Scripts/Configuration/Configurable.cs:11-19 | a second Set overrides the first, and setting the current value changes nothing |
| Configurable.ComparisonsAgree | Assets/Scripts/Configuration/Configurable.cs:26-51 | both Equals and both == overloads are value equality, and each != is the negation of its == |
| ConfigurationManager.Define | Assets/Scripts/Configuration/ConfigurationManager.cs:41-68 | the array is made iff every entry constructs, and then holds each constructed variable in order |
| ConfigurationManager.DefineFirstFailure | Assets/Scripts/Configuration/ConfigurationManager.cs:41-68 | the first failing entry's exception is the one thrown |
| ConfigurationManager.DefineAfterPrefix | Assets/Scripts/Configuration/ConfigurationManager.cs:41-68 | after a prefix that constructs, the first entry of the rest decides a failure |
| ConfigurationManager.DefaultsInRange | Assets/Scripts/Configuration/ConfigurationManager.cs:42-67 | every default lies in its declared range |
| ConfigurationManager.ContainerDefaultsInRange | Assets/Scripts/Configuration/ConfigurationManager.cs:42-60 | the defaults of the entries with a container are in range |
| ConfigurationManager.OtherDefaultsInRange | Assets/Scripts/Configuration/ConfigurationManager.cs:61-67 | the defaults of the entries without a container are in range |
| ConfigurationManager.WithContainerBuilds | Assets/Scripts/Configuration/ConfigurationManager.cs:42-60 | every entry with a container constructs without an exception |
| ConfigurationManager.NamesDistinct | Assets/Scripts/Configuration/ConfigurationManager.cs:42-67 | the table's names are pairwise distinct |
| ConfigurationManager.DefineVariablesThrows | Assets/Scripts/Configuration/ConfigurationManager.cs:61 | the definition as written throws "Null container reference. (lot_start_time)", because the Variable constructor rejects a null container (Variable.cs:37-38) |
| ConfigurationManager.Find | Assets/Scripts/Configuration/ConfigurationManager.cs:340-347 | the first variable with the name, or none iff no variable has it |
| ConfigurationManager.FindUnique | Assets/Scripts/Configuration/ConfigurationManager.cs:340-347 | with distinct names Find answers i iff position i holds the name |
| ConfigurationManager.CleanLine | Assets/Scripts/Configuration/ConfigurationManager.cs:299-316 | comment lines are dropped; a kept line is nonempty, holds no space and no "//", and only characters of the input |
| ConfigurationManager.CutHasNoComment | Assets/Scripts/Configuration/ConfigurationManager.cs:310-312 | cutting at the first "//" leaves none |
| ConfigurationManager.ReadConfig | Assets/Scripts/Configuration/ConfigurationManager.cs:288-338 | a missing file fails; otherwise every line is cleaned in order, each kept line nonempty without spaces or "//" |
| ConfigurationManager.AssignSplit | Assets/Scripts/Configuration/ConfigurationManager.cs:214-238 | a line with '=' splits into the text before the first '=' and the text up to the next one |
| ConfigurationManager.TryMakeTest | Assets/Scripts/Configuration/ConfigurationManager.cs:349-372 | an unparsable vector or unknown specifier appends nothing; T, V and P append one test numbered count + 1; T reads (x, y, z) as target (x, 0, y) and height z |
| ConfigurationManager.LoadLine | Assets/Scripts/Configuration/ConfigurationManager.cs:200-246 | a line without '=' stops with its message; a "$" line needs a known name, stores a converted value Unchecked, stops on NotSupported and throws on any other exception; an "@" line loads iff its test is made; other lines are ignored; a line that does not load changes nothing |
| ConfigurationManager.LoadStopsAtFailure | Assets/Scripts/Configuration/ConfigurationManager.cs:200-209 | the first line that stops or throws ends the load with that outcome and the state reached |
| ConfigurationManager.LoadKeepsNamesAndTests | Assets/Scripts/Configuration/ConfigurationManager.cs:194-250 | a load, whether it finishes, stops or throws, keeps the variables' names and only appends tests |
| ConfigurationManager.ConfigLineRoundTrip | Assets/Scripts/Configuration/ConfigurationManager.cs:233-367 | a test's own config line appends one test rebuilt from its rounded values, with the same build type and the next number (T and P with fields exchanged), and rebuilt from its own values when they print exactly, for the line written by TestCase.ToConfigFormat (TestCase.cs:160-185) |
| ConfigurationManager.PullAll | Assets/Scripts/Configuration/ConfigurationManager.cs:141-150 | a successful pull has pulled every variable in order |
| ConfigurationManager.CheckAll | Assets/Scripts/Configuration/ConfigurationManager.cs:156-171 | Check stops at the first failure; every variable before it is checked and not Unchecked, and those after it are untouched |
| ConfigurationManager.PushAll | Assets/Scripts/Configuration/ConfigurationManager.cs:177-184 | Push succeeds iff no variable is Unchecked, handing on each pushed value; otherwise it throws at the first Unchecked variable |
| ConfigurationManager.CheckedPushes | Assets/Scripts/Configuration/ConfigurationManager.cs:156-184 | after a passing Check the following Push cannot throw and pushes every variable |
| ConfigurationManager.Refresh | Assets/Scripts/Configuration/ConfigurationManager.cs:86-99 | Refresh throws iff a pull throws (never while loading); it keeps the variables' number and names; when Check passes, every variable is pushed, none Unchecked, with no exception |
| ConfigurationManager.RefreshPushesAfterFailedCheck | Assets/Scripts/Configuration/ConfigurationManager.cs:94-99 | when Check fails at an Unchecked variable, Refresh still pushes the variables before it and then throws |
| ConfigurationManager.LoadButton | Assets/Scripts/Configuration/ConfigurationManager.cs:101-135 | loading stays set unless the file reads, loads and checks; a converter exception escapes leaving loadedOk and the status as they were; otherwise loadedOk iff success; only success pushes every variable; a failed load keeps the variables and tests it reached |
| ConfigurationManager.Conclude | Assets/Scripts/Configuration/ConfigurationManager.cs:106-134 | after Load's outcome: loading is lowered only by a load that finishes and checks, which alone pushes and reports success; a stop or failed Check lowers loadedOk; an exception leaves loadedOk and the status; the variables and tests reached are kept |
| ConfigurationManager.FailedLoadKeepsEarlierValue | Assets/Scripts/Configuration/ConfigurationManager.cs:211-227 | a "$" line parsed before a line that stops leaves its variable Unchecked with the parsed value, loadedOk lowered and loading still set |
| UIConfigurationManager.CheckConfig | Assets/Scripts/UI/ConfigurationManager.cs:241-282 | passes iff all checks pass; the shared ranges, then the auto ranges, then the preset range decide the message in that order; preset 0 always fails |
| UIConfigurationManager.ManualIgnoresLayout | Assets/Scripts/UI/ConfigurationManager.cs:257-264 | in manual mode height, radius and layout do not affect the verdict |
| UIConfigurationManager.DefaultsAccepted | Assets/Scripts/UI/ConfigurationManager.cs:241-282 | the initial settings pass in auto mode with no test list and fail with one test, with the defaults of lines 21-34 |
| UIConfigurationManager.KeyOf | Assets/Scripts/UI/ConfigurationManager.cs:342-446 | the switch recognises a token iff it is "$" plus a field name, and then names that field |
| UIConfigurationManager.NamesDistinct | Assets/Scripts/UI/ConfigurationManager.cs:342-446 | distinct fields have distinct case labels |
| UIConfigurationManager.KeyOfName | Assets/Scripts/UI/ConfigurationManager.cs:342-446 | every field is recognised by its own label |
| UIConfigurationManager.Put | Assets/Scripts/UI/ConfigurationManager.cs:342-442 | assigning a field sets it and leaves every other field alone |
| UIConfigurationManager.ParseShow | Assets/Scripts/UI/ConfigurationManager.cs:506-526 | under a sound format, parsing a field's rendering succeeds with its rounding, which is the field itself for ints, bools and exactly printed floats, and the rendering holds no '=', as the loader's TryParse calls read it (line 345 on) |
| UIConfigurationManager.ParseVector | Assets/Scripts/UI/ConfigurationManager.cs:547-568 | succeeds iff there are exactly three comma-separated tokens and each parses, giving those three floats |
| UIConfigurationManager.ParseVectorTriple | Assets/Scripts/UI/ConfigurationManager.cs:547-568 | a rendered triple parses to its rounded components, and to the vector itself when they print exactly |
| UIConfigurationManager.CleanLine | Assets/Scripts/UI/ConfigurationManager.cs:295-310 | comment lines are dropped; a kept line holds no space and no "//" (the empty remainder is kept) |
| UIConfigurationManager.CleanLines | Assets/Scripts/UI/ConfigurationManager.cs:289-313 | the cleaned lines are at most the file's, each without spaces or "//", and a file whose every line is its own cleaning comes back unchanged |
| UIConfigurationManager.CleanLineKeeps | Assets/Scripts/UI/ConfigurationManager.cs:295-310 | a line without spaces and without '/' is kept exactly as it is |
| UIConfigurationManager.LoadConfig | Assets/Scripts/UI/ConfigurationManager.cs:314-324 | a missing file fails with "Config file not found.", another read error with its description, both changing nothing; an empty file loads and changes nothing |
| UIConfigurationManager.VariableLine | Assets/Scripts/UI/ConfigurationManager.cs:331-446 | a "$" line never crashes and never touches the test list |
| UIConfigurationManager.TestLine | Assets/Scripts/UI/ConfigurationManager.cs:448-487 | an "@" line keeps the settings and either appends exactly one test numbered count + 1 or changes nothing |
| UIConfigurationManager.LoadLine | Assets/Scripts/UI/ConfigurationManager.cs:329-491 | a line starting with neither "$" nor "@" is ignored, and a "$" line without '=' is rejected |
| UIConfigurationManager.LoadNumbersTests | Assets/Scripts/UI/ConfigurationManager.cs:456-485 | every test the load adds is numbered one past those before it, and none is dropped |
| UIConfigurationManager.LineNumbersTests | Assets/Scripts/UI/ConfigurationManager.cs:456-485 | one line keeps the list numbered by position and drops nothing |
| UIConfigurationManager.TestLineAgrees | Assets/Scripts/UI/ConfigurationManager.cs:448-487 | a test's own config line adds the same test, rebuilt from the rounded values, in both loaders, the newer loader's TryMakeTest (ConfigurationManager.cs:349-372) included |
| UIConfigurationManager.SavedLines | Assets/Scripts/UI/ConfigurationManager.cs:506-526 | one line per saved key, in order |
| UIConfigurationManager.SaveConfig | Assets/Scripts/UI/ConfigurationManager.cs:496-545 | something is written iff loadedOk and auto, and then only "$" lines |
| UIConfigurationManager.SavedLineSplits | Assets/Scripts/UI/ConfigurationManager.cs:506-526 | each saved line is "$" name "=" value and splits into exactly those |
| UIConfigurationManager.NameIsPlain | Assets/Scripts/UI/ConfigurationManager.cs:344-436 | no case label holds '=', a space or '/' |
| UIConfigurationManager.SavedLineClean | Assets/Scripts/UI/ConfigurationManager.cs:506-526 | under a sound format a saved line is its own cleaning |
| UIConfigurationManager.SavedLineLoads | Assets/Scripts/UI/ConfigurationManager.cs:331-446 | loading one saved line assigns exactly that setting with its rounded value, for a line as SaveConfig writes it (lines 506-526) |
| UIConfigurationManager.SavedLinesLoad | Assets/Scripts/UI/ConfigurationManager.cs:329-491 | loading the saved lines sets each saved key to its rounded value, keeps the other settings and adds no test, for the lines SaveConfig writes (lines 506-526) |
| UIConfigurationManager.SaveLoadRoundTrip | Assets/Scripts/UI/ConfigurationManager.cs:284-545 | the cleaning keeps every line SaveConfig writes, and LoadConfig of that file restores every written setting rounded, exactly for ints, bools and exactly printed floats, and leaves the others and the tests as they were |
| BallPreset.Presets | Assets/Scripts/UI/BallPreset.cs:10-16 | six rows, the custom row 0 empty and the other five present |
| BallPreset.SetPreset | Assets/Scripts/UI/BallPreset.cs:22-32 | preset 0 leaves the ball alone, presets 1 to 5 copy their row, and any other index throws |
| BallPreset.PresetRangeFitsTable | Assets/Scripts/UI/BallPreset.cs:22-32 | every value the ball_preset range admits is inside the table, where the range is the one declared at ConfigurationManager.cs:55 |
| BallPreset.PresetRowsInRange | Assets/Scripts/UI/BallPreset.cs:12-16 | every row passes the ball_size, ball_mass and ball_drag ranges, as declared at ConfigurationManager.cs:52-54 |
| Controller.LatestInput | Assets/Scripts/Controller/Controller.cs:83-146 | the headset's ground position or (-vertical, 0, horizontal); any other controller type throws |
| Controller.Start | Assets/Scripts/Controller/Controller.cs:191-196 | not calibrating, and every bound infinite |
| Controller.FixedUpdate | Assets/Scripts/Controller/Controller.cs:174-189 | while calibrating the bounds take in the current lean, min never rises and max never falls; otherwise nothing happens |
| Controller.Calibrate | Assets/Scripts/Controller/Controller.cs:174-189 | after a session every sample's lean lies between the bounds, which only widened |
| Controller.NormaliseBounds | Assets/Scripts/Controller/Controller.cs:111-124 | with min < 0 < max a component lands in [-1, 1] with its sign kept, and a lean at or past an end gives exactly -1 or 1 |
| Controller.Calibrated | Assets/Scripts/Controller/Controller.cs:106-130 | the lean normalised per component, turned a quarter about the vertical |
| Controller.CalibratedInUnitSquare | Assets/Scripts/Controller/Controller.cs:106-130 | with bounds on both sides of zero both ground components end in [-1, 1] |
| Controller.Coefficients | Assets/Scripts/Controller/Controller.cs:160-162 | a is clamped to [0.334, 1], b = 2a and c (3a - 1) = 2a |
| Controller.ModulusSigmoid | Assets/Scripts/Controller/Controller.cs:156-167 | the first call fixes the coefficients from its parameter; every later call ignores it |
| Controller.SoftSignMonotone | Assets/Scripts/Controller/Controller.cs:166 | u / (1 + abs(u)) never decreases |
| Controller.SigmoidShape | Assets/Scripts/Controller/Controller.cs:156-167 | the sigmoid sends 0 to 0 and 1 to 1 and never decreases, so it maps [0, 1] into [0, 1], as the doc comment at line 55 promises |
| Controller.SigmoidAtZero | Assets/Scripts/Controller/Controller.cs:165-166 | the sigmoid at 0 is 0 |
| Controller.SigmoidAtOne | Assets/Scripts/Controller/Controller.cs:165-166 | the sigmoid at 1 is 1 |
| Controller.SigmoidMonotone | Assets/Scripts/Controller/Controller.cs:165-166 | with b, c >= 0 the sigmoid never decreases |
| Controller.PositiveCoefficients | Assets/Scripts/Controller/Controller.cs:160-162 | fixed coefficients have b > 0 and c > 0 |
| Controller.SinusoidIsZero | Assets/Scripts/Controller/Controller.cs:66-68 | with C# integer division the sinusoid curve is 0 for every input |
| Controller.CurveValue | Assets/Scripts/Controller/Controller.cs:58-77 | linear is the identity, the sinusoid 0, the power curve x^param, the sigmoid may fix its coefficients; any other curve throws |
| Controller.CurveInUnit | Assets/Scripts/Controller/Controller.cs:55-79 | for a valid sigmoid and param >= 0 every curve maps [0, 1] into [0, 1] |
| Controller.Curved | Assets/Scripts/Controller/Controller.cs:56-80 | the direction of the input scaled by the curved, clamped magnitude |
| Controller.LinearKeepsShortInput | Assets/Scripts/Controller/Controller.cs:58-79 | under the linear curve an input of length at most 1 keeps its length |
| CsvLine.LineFields | Assets/Scripts/DataCollection/DataManager.cs:36-45 | without commas in the values, the line without "\r\n" splits back into them and holds one comma fewer than values |
| CsvLine.ToCSVLine | Assets/Scripts/DataCollection/DataManager.cs:36-45 | the loop builds the first value, then "," and each later value, then "\r\n" |
| DataManager.StartNewTest | Assets/Scripts/DataCollection/DataManager.cs:117-142 | the path is data path, type folder, "\\Test_#n" and the clock folder; frame and time recorded, writer on, nothing else changed |
| DataManager.TestPathsSeparateTypes | Assets/Scripts/DataCollection/DataManager.cs:120-129 | the path extends the data path, and different trial types never share a path |
| DataManager.CompleteTest | Assets/Scripts/DataCollection/DataManager.cs:144-163 | the writer goes off and the result file holds the header and the result row |
| DataManager.ResultRowReads | Assets/Scripts/DataCollection/DataManager.cs:153-162 | the result row has three fields, the first reading 1 iff caught, the second the rounded elapsed time and the third the elapsed frames |
| DataManager.ResetWriter | Assets/Scripts/DataCollection/DataManager.cs:165-172 | both paths cleared, frame and time zeroed, writer off |
| DataManager.WriterLifecycle | Assets/Scripts/DataCollection/DataManager.cs:117-182 | the writer runs after StartNewTest and stops at ResetWriter |
| Grapher.GrowthIncreases | Assets/Scripts/Visuals/Grapher.cs:84-89 | from a positive scale growth never shrinks it |
| Grapher.GrowthNeverEnds | Assets/Scripts/Visuals/Grapher.cs:84-89 | from a scale <= 0 the value always exceeds the scale, so the do-while never ends |
| Grapher.Grow | Assets/Scripts/Visuals/Grapher.cs:81-90 | the value fits the new scale, which never shrinks, is unchanged when the value fitted, is below 1.2 abs(value) when it grew, and is always the scale grown some whole number of times |
| Grapher.ValueInBand | Assets/Scripts/Visuals/Grapher.cs:102 | a value within the scale is drawn in [-50, 50] |
| Grapher.RescaleHeight | Assets/Scripts/Visuals/Grapher.cs:96 | rescaling by oldMax/newMax redraws a point at the new scale |
| Grapher.AddToLine | Assets/Scripts/Visuals/Grapher.cs:79-108 | one point appended for the value, earlier points kept in x and z and redrawn at the new scale, and all points in the band when the values fit |
| Grapher.SumFront | Assets/Scripts/Visuals/Grapher.cs:122-127 | a sum is its first element plus the sum of the rest |
| Grapher.SumConstant | Assets/Scripts/Visuals/Grapher.cs:122-127 | n copies of c sum to n c |
| Grapher.NewFilter | Assets/Scripts/Visuals/Grapher.cs:115-118 | n zero samples, and a negative size overflows |
| Grapher.Filter | Assets/Scripts/Visuals/Grapher.cs:120-131 | the buffer shifts one place with the new sample last, the output is (x + all old samples but the newest) / n, and an empty buffer throws |
| Grapher.FilterVersusWindow | Assets/Scripts/Visuals/Grapher.cs:122-130 | n times the output differs from the new buffer's sum by the oldest old sample minus the newest |
| Grapher.SteadySignal | Assets/Scripts/Visuals/Grapher.cs:120-131 | a constant signal passes unchanged |

## Left out

- Engine plumbing. This covers Rigidbody and Transform mutation, `Time.time`,
  `Time.frameCount`, `WaitForSeconds` and `Instantiate`. Time and frame are
  parameters, and coroutines are steps that resume one wait at a time.
- File and stream I/O. Reading a configuration file becomes a sequence of
  lines, or none for a missing file, and the result files become strings.
  The older UI manager's `LoadConfig` also models the other read errors with
  their description. In the newer manager's `ReadConfig` and in both save
  paths the `IOException` handlers are not modelled, and neither is
  `Directory.CreateDirectory`.
- `AutoTrialRunner.StartExperiment`: when the prior status is Running, the
  schedule is non-empty and the manager is Ready, the runner's first pass runs
  inside `StartCoroutine` (AutoTrialRunner.cs:83) and never yields. The call
  then never returns and the status is never set. The model returns with
  `status == Running` in that case too.
- `ConfigurationManager.LoadButton`: the status colour and the unlocking of
  the build button are not modelled.
- UI widgets, colours, highlights, progress bars and the LineRenderer.
  - `UpdateValues`, `SetBallValues`, `FillUI` and the UI manager's load
    button are not modelled. `SetBallValues` calls a BallPreset API that the
    shown BallPreset.cs does not have.
  - `Variable`'s `onValueChanged` callbacks and `container.Flash` are not
    modelled.
  - `Debug.Log` output is not modelled.
- The newer manager's `Save` (ConfigurationManager.cs:252-284) is file output
  of `Variable.ToString`, which is modelled.
- The `Variable` constructor's converter check (Variable.cs:44-45) depends on
  .NET reflection. It is not modelled. A converter exception other than
  `NotSupportedException` escapes with its own message (`Variable.TryParse`).
- Floating point. Values are `real`, and float literals such as 0.2f or 0.01f
  are taken as exact reals. Rounding, overflow, NaN and infinity are not
  modelled beyond the oracle value of a division by zero. The sinusoid curve
  is exactly 0 because the C# is integer arithmetic.
- `Controller.Calibrated`: only finite bounds are modelled. The infinite
  initial bounds of `Start` make the C# division produce NaN or 0, which is
  not modelled.
- `Grapher.Grow` and `Grapher.AddToLine` require a positive starting scale.
  The caller seeds 50 (Grapher.cs:55-56). From a scale of zero or below the
  C# loop never ends, and `Grapher.GrowthNeverEnds` shows that.
- `UnityMath.MagnitudeOfScale` is stated only for k >= 0, which is every use
  in the model.
- Grapher's `FixedUpdate` is not modelled. It reads `Vector3.Angle` of live
  positions and then calls `AddToLine`, which is modelled.
- `OAC.GetGOACPoint` (OAC.cs:157), which `Move` calls, is abstracted as the
  point parameter of `Oac.Move`.
- Obsolete code: `OAC.GetAccelerationX`. The rotation of
  the catcher towards the ball (`LookAt`, and the euler angles set in
  `StartTrial`) is not modelled either.
- Gravity is the constant -9.81, as the engine default.
- Vector and number rendering (`Vector3.ToString`, culture-dependent
  `ToString`) is an oracle. The properties that read a rendering back hold
  for any format that meets `SoundFormat`; those that only split a line need
  just comma-free renderings.
- Float rendering is not round-trip: `float.ToString` keeps about seven
  significant digits, so a real read back is in general only its rounding.
  The round trips through text therefore give the rounded values, and give
  the original values only when these are `Exact`: the vector and
  configuration-line round trips (`Vector3Extensions.ToCSVFormat`,
  `TestCases.ToConfigFormat`, `CVector.ConversionsAgree`,
  `ConfigurationManager.ConfigLineRoundTrip`,
  `UIConfigurationManager.ParseVectorTriple`,
  `UIConfigurationManager.TestLineAgrees`), the test-list target coordinates
  (`TestCases.ToCSVLine`), the result row's time (`DataManager.ResultRowReads`,
  `TrialsManager.TrialCycle`) and the saved float settings
  (`UIConfigurationManager.ParseShow`, `UIConfigurationManager.SavedLineLoads`,
  `UIConfigurationManager.SavedLinesLoad`,
  `UIConfigurationManager.SaveLoadRoundTrip`). Integers and booleans round
  trip exactly.
- `TestCases.FromTarget`: `launchDeviation` and `launchAngle` come from
  `Vector3.Angle`, which is an oracle. Their values are not constrained.
- The VR headset paths, runtime script compilation, the obsolete root-level
  copies of the scripts, and the data collectors are not part of this model.

=== FILE: auto_trial_runner.dfy ===
/** The automatic trial runner: a schedule with trialRuns copies of every
    test index, one shuffle over all of it, and a runner loop driven by the
    Stopped / Paused / Running status. */
module AutoTrialRunner {
  import opened Wrappers
  import opened TestCases
  import TrialRunner
  import TrialsManager

  datatype Status = Stopped | Paused | Running

  /** The runner loop's condition: it goes on while Running or Paused, so
      it ends exactly when the status is Stopped. */
  predicate Continues(s: Status) {
    s == Running || s == Paused
  }

  lemma ExitsOnlyWhenStopped(s: Status)
    ensures !Continues(s) <==> s == Stopped
  {
  }

  /** Pause: the status becomes Paused from any state. */
  function Pause(s: Status): (r: Status)
    ensures r == Paused && Continues(r)
  {
    Paused
  }

  /** StartPractice: the status becomes Running and nothing else happens. */
  function StartPractice(s: Status): (r: Status)
    ensures r == Running && Continues(r)
  {
    Running
  }

  /** Stop: only a paused runner stops; any other status is kept. */
  function Stop(s: Status): (r: Status)
    ensures s == Paused ==> r == Stopped
    ensures s != Paused ==> r == s
    ensures r == Stopped <==> s == Paused || s == Stopped
  {
    if s != Paused then s else Stopped
  }

  /** A running experiment can only be stopped by pausing it first. */
  lemma StopNeedsPause(s: Status)
    ensures Stop(s) == s || s == Paused
    ensures Stop(Pause(s)) == Stopped
    ensures Stop(Running) == Running
  {
  }

  /** StartExperiment: the fill with no practice runs, then one shuffle over
      the whole schedule. The runner coroutine is started before the status
      is set, so it tests its loop condition against the status held before
      the call: a runner started from Stopped ends at once. The status is
      Running afterwards. Started from Running with a non-empty schedule and
      the manager Ready, the runner's first pass never yields, so the source
      call never returns; that case is not modelled. */
  method StartExperiment(prior: Status, numTests: int, trialRuns: int)
    returns (schedule: seq<int>, status: Status, runnerEnded: bool)
    requires numTests >= 0 && trialRuns >= 0
    ensures |schedule| == numTests * trialRuns
    ensures forall k :: 0 <= k < |schedule| ==> 0 <= schedule[k] < numTests
    ensures forall v :: 0 <= v < numTests ==> multiset(schedule)[v] == trialRuns
    ensures forall v :: v < 0 || v >= numTests ==> multiset(schedule)[v] == 0
    ensures status == Running
    ensures runnerEnded <==> prior == Stopped
  {
    var filled := TrialRunner.Fill(numTests, trialRuns, 0);
    schedule := TrialRunner.ShuffleDown(filled, 0, |filled|);
    TrialRunner.InRangeKept(filled, schedule, numTests);
    forall v
      ensures multiset(schedule)[v] == if 0 <= v < numTests then trialRuns else 0
    {
      if numTests >= 1 {
        TrialRunner.FillCounts(numTests, trialRuns, 0, filled, v);
      } else {
        assert |filled| == 0;
      }
    }
    runnerEnded := !Continues(prior);
    status := Running;
  }

  /** The runner coroutine's own state: the schedule position it reads,
      which starts at 0, and the manager it drives. */
  datatype Runner<C> = Runner(currentIndex: int, manager: TrialsManager.Manager<C>)

  /** One pass of the runner loop while Running: the test at schedule
      position currentIndex is loaded and StartTrial is called. StartTrial
      is not started as a coroutine, so none of its body runs and the
      manager stays as it was, its status included; nothing in the pass
      moves currentIndex. The pass then waits while the manager is not
      Ready, and the flag returned says whether it yields there. With the
      manager Ready the wait is skipped and the next pass follows in the
      same frame, so a runner started from Running or Paused spins for ever
      without yielding; with the manager not Ready nothing in the pass makes
      it Ready, so the wait never ends. An index outside the schedule or the
      test list ends the pass with an index error. */
  function RunningPass<C>(rn: Runner<C>, schedule: seq<int>, tests: seq<TestCase>)
    : (r: Option<(Runner<C>, bool)>)
    ensures r.Some? <==> 0 <= rn.currentIndex < |schedule| && 0 <= schedule[rn.currentIndex] < |tests|
    ensures r.Some? ==> r.value.0.currentIndex == rn.currentIndex
    ensures r.Some? ==> r.value.0.manager.loaded == Some(tests[schedule[rn.currentIndex]])
    ensures r.Some? ==> r.value.0.manager.(loaded := rn.manager.loaded) == rn.manager
    ensures r.Some? ==> (r.value.1 <==> rn.manager.status != TrialsManager.Ready)
  {
    if 0 <= rn.currentIndex < |schedule| && 0 <= schedule[rn.currentIndex] < |tests| then
      var m := TrialsManager.LoadTest(rn.manager, tests[schedule[rn.currentIndex]]);
      Some((rn.(manager := m), m.status != TrialsManager.Ready))
    else None
  }

  /** n running passes that do not yield. */
  function Passes<C>(rn: Runner<C>, schedule: seq<int>, tests: seq<TestCase>, n: nat): (r: Runner<C>)
    requires 0 <= rn.currentIndex < |schedule| && 0 <= schedule[rn.currentIndex] < |tests|
    decreases n
  {
    if n == 0 then rn
    else
      var next := RunningPass(rn, schedule, tests).value.0;
      Passes(next, schedule, tests, n - 1)
  }

  /** The runner as started, at schedule position 0: however many passes
      run, currentIndex stays 0, the manager's status never changes, only
      the loaded test changes and it is always the first scheduled one, and
      the next pass yields exactly when the manager was not Ready. So with
      the manager Ready no pass ever yields. */
  lemma {:induction false} PassesStayAtFirst<C>(m: TrialsManager.Manager<C>, schedule: seq<int>,
                                                tests: seq<TestCase>, n: nat)
    requires |schedule| > 0 && 0 <= schedule[0] < |tests|
    decreases n
    ensures var r := Passes(Runner(0, m), schedule, tests, n);
      && r.currentIndex == 0
      && r.manager.status == m.status
      && (n > 0 ==> r.manager.loaded == Some(tests[schedule[0]]))
      && r.manager.(loaded := m.loaded) == m
      && (RunningPass(r, schedule, tests).value.1 <==> m.status != TrialsManager.Ready)
  {
    if n > 0 {
      var m1 := RunningPass(Runner(0, m), schedule, tests).value.0.manager;
      assert RunningPass(Runner(0, m), schedule, tests).value.0 == Runner(0, m1);
      PassesStayAtFirst(m1, schedule, tests, n - 1);
    }
  }
}

=== FILE: ball_preset.dfy ===
/** The ball presets: a table of size, mass and drag for five ball kinds,
    with row 0 standing for the custom ball, and SetPreset, which copies a
    row into the ball's three configurable values. */
module BallPreset {
  import opened Wrappers
  import opened Configurable
  import ConfigurationManager
  import Variable

  datatype Preset = Preset(size: real, mass: real, drag: real)

  /** The table; the custom entry has no row. */
  function Presets(): (t: seq<Option<Preset>>)
    ensures |t| == 6 && t[0].None?
    ensures forall k :: 1 <= k < |t| ==> t[k].Some?
  {
    [ None,
      Some(Preset(0.1, 0.14, 0.01)),
      Some(Preset(0.1, 0.05, 0.02)),
      Some(Preset(0.1, 0.005, 0.5)),
      Some(Preset(0.22, 0.45, 0.1)),
      Some(Preset(0.24, 0.62, 0.1)) ]
  }

  /** The three values a preset writes. */
  datatype Ball = Ball(size: Cell<real>, mass: Cell<real>, drag: Cell<real>)

  /** SetPreset: the custom preset 0 leaves the ball alone; presets 1 to 5
      copy their row; any other index is outside the table and throws. */
  function SetPreset(preset: int, ball: Ball): (r: Result<Ball>)
    ensures preset == 0 ==> r == Ok(ball)
    ensures r.Ok? <==> 0 <= preset < |Presets()|
    ensures 1 <= preset < |Presets()| ==>
      var row := Presets()[preset].value;
      && r.Ok?
      && Get(r.value.size) == row.size && Get(r.value.mass) == row.mass && Get(r.value.drag) == row.drag
  {
    if preset == 0 then Ok(ball)
    else if 0 <= preset < |Presets()| then
      var row := Presets()[preset].value;
      Ok(Ball(Set(ball.size, row.size), Set(ball.mass, row.mass), Set(ball.drag, row.drag)))
    else Err("Index was outside the bounds of the array.")
  }

  /** Every preset the ball_preset setting admits, [0, 5] closed, is inside
      the table, so SetPreset never throws on a checked setting. */
  lemma PresetRangeFitsTable(preset: int, ball: Ball)
    requires Variable.CheckRange(ConfigurationManager.CompareValues, ConfigurationManager.IntValue(preset),
      ConfigurationManager.Rows()[13].from, ConfigurationManager.Rows()[13].to, ConfigurationManager.Rows()[13].rangeType)
    ensures ConfigurationManager.Rows()[13].name == "ball_preset"
    ensures SetPreset(preset, ball).Ok?
  {
    assert ConfigurationManager.Rows()[13] == ConfigurationManager.WithContainer()[13];
  }

  /** Every row satisfies the ranges of ball_size, ball_mass and ball_drag,
      so the values a preset writes pass their settings' checks. */
  lemma PresetRowsInRange()
    ensures var rows := ConfigurationManager.Rows();
      && rows[10].name == "ball_size" && rows[11].name == "ball_mass" && rows[12].name == "ball_drag"
      && forall k :: 1 <= k < |Presets()| ==>
        var p := Presets()[k].value;
        && Variable.CheckRange(ConfigurationManager.CompareValues, ConfigurationManager.RealValue(p.size),
             rows[10].from, rows[10].to, rows[10].rangeType)
        && Variable.CheckRange(ConfigurationManager.CompareValues, ConfigurationManager.RealValue(p.mass),
             rows[11].from, rows[11].to, rows[11].rangeType)
        && Variable.CheckRange(ConfigurationManager.CompareValues, ConfigurationManager.RealValue(p.drag),
             rows[12].from, rows[12].to, rows[12].rangeType)
  {
    var rows := ConfigurationManager.Rows();
    assert rows[10] == ConfigurationManager.WithContainer()[10];
    assert rows[11] == ConfigurationManager.WithContainer()[11];
    assert rows[12] == ConfigurationManager.WithContainer()[12];
  }
}

=== FILE: config_manager.dfy ===
/** The configuration manager: the table of settings, the config-file line
    cleaning, the Load dispatch of "$name=value" and "@T|V|P=x,y,z" lines,
    and the Pull / Check / Push refresh cycle. The settings are variables
    over one value type that tags each setting's own type. */
module ConfigurationManager {
  import opened Wrappers
  import opened UnityMath
  import opened Strings
  import opened TestCases
  import opened Variable
  import CVector

  const VariableMarker: string := "$"
  const CommentMarker: string := "//"

  /** A setting's value: bool, int, float or vector. */
  datatype Value = BoolValue(b: bool) | IntValue(i: int) | RealValue(r: real) | VectorValue(v: CVector.CVector)

  /** The CompareTo of the setting's own type; values of different types
      are never compared. */
  function CompareValues(a: Value, b: Value): int {
    match (a, b)
    case (BoolValue(x), BoolValue(y)) => CompareBools(x, y)
    case (IntValue(x), IntValue(y)) => CompareNumbers(x as real, y as real)
    case (RealValue(x), RealValue(y)) => CompareNumbers(x, y)
    case (VectorValue(x), VectorValue(y)) => CVector.CompareTo(x, y)
    case _ => 1
  }

  /** default(T) of the setting's type: the value a new variable holds. */
  function ZeroOf(v: Value): Value {
    match v
    case BoolValue(_) => BoolValue(false)
    case IntValue(_) => IntValue(0)
    case RealValue(_) => RealValue(0.0)
    case VectorValue(_) => VectorValue(CVector.CVector(Zero))
  }

  const IntMax: int := 2147483647
  const FloatMax: real := 340282346638528859811704183484516925440.0

  /** One entry of DefineVariables: name, default, whether a UI container
      is passed, the range ends and the range type. */
  datatype Row = Row(name: string, defaultValue: Value, hasContainer: bool, from: Value, to: Value, rangeType: RangeType)

  function Vector(x: real, y: real, z: real): Value {
    VectorValue(CVector.CVector(Vec3(x, y, z)))
  }

  /** The DefineVariables table, in order: the entries with a UI container,
      then the seven without. */
  function Rows(): seq<Row> {
    WithContainer() + WithoutContainer()
  }

  function WithContainer(): seq<Row> {
    [ Row("auto", BoolValue(false), true, BoolValue(false), BoolValue(true), Closed),
      Row("number_of_tests", IntValue(8), true, IntValue(0), IntValue(IntMax), Closed),
      Row("practice_runs", IntValue(3), true, IntValue(0), IntValue(IntMax), Closed),
      Row("trial_runs", IntValue(10), true, IntValue(0), IntValue(IntMax), LeftOpen),
      Row("max_ball_height", RealValue(20.0), true, RealValue(0.0), RealValue(FloatMax), LeftOpen),
      Row("radius", RealValue(8.0), true, RealValue(0.0), RealValue(FloatMax), LeftOpen),
      Row("targets_shape", IntValue(0), true, IntValue(0), IntValue(1), Closed),
      Row("pause_between_trials", RealValue(2.0), true, RealValue(0.0), RealValue(FloatMax), LeftOpen),
      Row("max_speed", RealValue(5.0), true, RealValue(0.0), RealValue(FloatMax), LeftOpen),
      Row("starting_distance", RealValue(30.0), true, RealValue(0.0), RealValue(250.0), Open),
      Row("ball_size", RealValue(0.1), true, RealValue(0.0), RealValue(FloatMax), LeftOpen),
      Row("ball_mass", RealValue(0.14), true, RealValue(0.0), RealValue(FloatMax), LeftOpen),
      Row("ball_drag", RealValue(0.01), true, RealValue(0.0), RealValue(1.0), Open),
      Row("ball_preset", IntValue(0), true, IntValue(0), IntValue(5), Closed),
      Row("controller_type", IntValue(0), true, IntValue(0), IntValue(2), Closed),
      Row("input_smoothing", BoolValue(false), true, BoolValue(false), BoolValue(true), Closed),
      Row("smoothing_amount", IntValue(30), true, IntValue(1), IntValue(IntMax), Closed),
      Row("input_curve", IntValue(0), true, IntValue(0), IntValue(3), Closed),
      Row("curve_parameter", RealValue(1.0), true, RealValue(0.0), RealValue(FloatMax), Closed) ]
  }

  function WithoutContainer(): seq<Row> {
    [       Row("lot_start_time", RealValue(0.5), false, RealValue(0.0), RealValue(FloatMax), Closed),
      Row("goac_start_time", RealValue(0.5), false, RealValue(0.0), RealValue(FloatMax), Closed),
      Row("light_color", Vector(255.0, 244.0, 214.0), false, Vector(0.0, 0.0, 0.0), Vector(255.0, 255.0, 255.0), Closed),
      Row("light_rotation", Vector(75.0, -90.0, 0.0), false, Vector(-360.0, -360.0, -360.0), Vector(360.0, 360.0, 360.0), Open),
      Row("hitbox_size", Vector(2.0, 3.0, 3.0), false, Vector(0.0, 0.0, 0.0), Vector(1000.0, 1000.0, 1000.0), Open),
      Row("skybox_color", Vector(0.0, 149.0, 255.0), false, Vector(0.0, 0.0, 0.0), Vector(255.0, 255.0, 255.0), Closed),
      Row("skybox_on", BoolValue(false), false, BoolValue(false), BoolValue(true), Closed) ]
  }

  /** The Variable constructor applied to one entry. */
  function MakeVariable(row: Row): Result<Variable<Value>> {
    New(CompareValues, row.name, row.defaultValue, if row.hasContainer then Some("") else None,
        row.from, row.to, row.rangeType, ZeroOf(row.defaultValue))
  }

  /** The array initialiser: each entry constructed in order, the first
      exception ending the whole definition. */
  function Define(rows: seq<Row>): (r: Result<seq<Variable<Value>>>)
    ensures r.Ok? ==> |r.value| == |rows| && forall k :: 0 <= k < |rows| ==> MakeVariable(rows[k]).Ok? && r.value[k] == MakeVariable(rows[k]).value
    ensures r.Ok? <==> forall k :: 0 <= k < |rows| ==> MakeVariable(rows[k]).Ok?
  {
    if |rows| == 0 then Ok([])
    else match MakeVariable(rows[0])
      case Err(e) => Err(e)
      case Ok(v) =>
        match Define(rows[1..])
        case Err(e) => Err(e)
        case Ok(vs) => Ok([v] + vs)
  }

  /** The first failing entry decides the error. */
  lemma {:induction false} DefineFirstFailure(rows: seq<Row>, k: nat)
    requires k < |rows| && MakeVariable(rows[k]).Err?
    requires forall j :: 0 <= j < k ==> MakeVariable(rows[j]).Ok?
    ensures Define(rows) == Err(MakeVariable(rows[k]).error)
  {
    if k > 0 {
      DefineFirstFailure(rows[1..], k - 1);
    }
  }

  /** The row's default lies in its declared range. */
  predicate DefaultInRange(row: Row) {
    CheckRange(CompareValues, row.defaultValue, row.from, row.to, row.rangeType)
  }

  lemma ContainerDefaultsInRange()
    ensures forall j :: 0 <= j < |WithContainer()| ==> DefaultInRange(WithContainer()[j])
  {
  }

  lemma OtherDefaultsInRange()
    ensures forall j :: 0 <= j < |WithoutContainer()| ==> DefaultInRange(WithoutContainer()[j])
  {
  }

  /** Every default in the table lies in its declared range. */
  lemma DefaultsInRange()
    ensures forall k :: 0 <= k < |Rows()| ==> DefaultInRange(Rows()[k])
  {
    ContainerDefaultsInRange();
    OtherDefaultsInRange();
    var n := |WithContainer()|;
    assert forall k :: 0 <= k < |Rows()| ==> Rows()[k] == if k < n then WithContainer()[k] else WithoutContainer()[k - n];
  }

  /** Every entry with a container constructs without an exception. */
  lemma WithContainerBuilds()
    ensures forall j :: 0 <= j < |WithContainer()| ==> MakeVariable(WithContainer()[j]).Ok?
  {
    ContainerDefaultsInRange();
  }

  /** The names in the table are pairwise distinct. */
  lemma NamesDistinct()
    ensures forall i, j :: 0 <= i < j < |Rows()| ==> Rows()[i].name != Rows()[j].name
  {
  }

  /** DefineVariables as written: every default passes its range check,
      but lot_start_time is given no container, so its constructor throws
      and no variable list is made. The C# text passes plain values and null
      to ref parameters and instantiates Variable with a class type against
      its struct constraint, so it would not compile as written; the throw
      is the evident reading of the text. */
  lemma DefineVariablesThrows()
    ensures Define(Rows()) == Err("Null container reference. (lot_start_time)")
  {
    WithContainerBuilds();
    assert MakeVariable(WithoutContainer()[0]) == Err("Null container reference. (lot_start_time)");
    DefineAfterPrefix(WithContainer(), WithoutContainer());
  }

  /** After a prefix that constructs cleanly, the first entry of the rest
      decides a failing definition. */
  lemma DefineAfterPrefix(a: seq<Row>, b: seq<Row>)
    requires forall j :: 0 <= j < |a| ==> MakeVariable(a[j]).Ok?
    requires |b| > 0 && MakeVariable(b[0]).Err?
    ensures Define(a + b) == Err(MakeVariable(b[0]).error)
  {
    assert (a + b)[|a|] == b[0];
    assert forall j :: 0 <= j < |a| ==> (a + b)[j] == a[j];
    DefineFirstFailure(a + b, |a|);
  }

  /** Find: the first variable with the given name, or none. */
  function Find(name: string, vars: seq<Variable<Value>>): (r: Option<nat>)
    ensures r.Some? ==> r.value < |vars| && vars[r.value].name == name
    ensures r.Some? ==> forall j :: 0 <= j < r.value ==> vars[j].name != name
    ensures r.None? <==> forall j :: 0 <= j < |vars| ==> vars[j].name != name
  {
    if |vars| == 0 then None
    else if vars[0].name == name then Some(0)
    else match Find(name, vars[1..])
      case None => None
      case Some(i) => Some(i + 1)
  }

  /** With distinct names, Find answers exactly the position holding the
      name. */
  lemma FindUnique(name: string, vars: seq<Variable<Value>>, i: nat)
    requires forall a, b :: 0 <= a < b < |vars| ==> vars[a].name != vars[b].name
    requires i < |vars|
    ensures Find(name, vars) == Some(i) <==> vars[i].name == name
  {
  }

  // ---------------------------------------------------------------------
  // ReadConfig

  /** The cleaning of one line: a comment line is dropped; otherwise the
      spaces are removed, the text from the first "//" on is cut, and an
      empty remainder is dropped. */
  function CleanLine(line: string): (r: Option<string>)
    ensures StartsWith(line, CommentMarker) ==> r.None?
    ensures r.Some? ==> |r.value| > 0 && ' ' !in r.value && !Contains(r.value, CommentMarker)
    ensures r.Some? ==> forall k :: 0 <= k < |r.value| ==> r.value[k] in line
  {
    if StartsWith(line, CommentMarker) then None
    else
      var l := RemoveChar(line, ' ');
      var p := IndexOf(l, CommentMarker);
      var cut := if p != -1 then l[..p] else l;
      CutHasNoComment(l, p);
      if cut == "" then None else Some(cut)
  }

  /** Cutting at the first "//" leaves none. */
  lemma CutHasNoComment(l: string, p: int)
    requires p == IndexOf(l, CommentMarker)
    ensures var cut := if p != -1 then l[..p] else l;
      !Contains(cut, CommentMarker)
  {
    if p != -1 {
      var cut := l[..p];
      forall j | OccursAt(cut, CommentMarker, j)
        ensures false
      {
        assert cut[j..j + 2] == l[j..j + 2];
        assert OccursAt(l, CommentMarker, j);
      }
    }
  }

  /** The lines kept from a file, in order. */
  function CleanAll(raw: seq<string>): seq<string> {
    if |raw| == 0 then []
    else CleanAll(raw[..|raw| - 1]) + (match CleanLine(raw[|raw| - 1]) case Some(l) => [l] case None => [])
  }

  /** ReadConfig: a missing file fails; otherwise every line is read and
      cleaned. Every kept line is nonempty and holds no space and no
      "//". */
  method ReadConfig(file: Option<seq<string>>) returns (r: Result<seq<string>>)
    ensures file.None? ==> r == Err("Config file not found.")
    ensures file.Some? ==> r == Ok(CleanAll(file.value))
    ensures r.Ok? ==> forall k :: 0 <= k < |r.value| ==>
      |r.value[k]| > 0 && ' ' !in r.value[k] && !Contains(r.value[k], CommentMarker)
  {
    if file.None? {
      return Err("Config file not found.");
    }
    var raw := file.value;
    var lines: seq<string> := [];
    var i := 0;
    while i < |raw|
      invariant 0 <= i <= |raw|
      invariant lines == CleanAll(raw[..i])
      invariant forall k :: 0 <= k < |lines| ==> |lines[k]| > 0 && ' ' !in lines[k] && !Contains(lines[k], CommentMarker)
    {
      assert raw[..i + 1][..i] == raw[..i];
      match CleanLine(raw[i]) {
        case Some(l) => lines := lines + [l];
        case None =>
      }
      i := i + 1;
    }
    assert raw[..i] == raw;
    r := Ok(lines);
  }

  // ---------------------------------------------------------------------
  // Load

  /** The text between the marker and the first '=', and the text after it
      up to the next '='. */
  function AssignName(line: string): string
    requires '=' in line && (StartsWith(line, VariableMarker) || StartsWith(line, TestMarker))
  {
    AssignSplit(line);
    assert line[..1][0] == line[0];
    Split(line, '=')[0][1..]
  }

  function AssignValue(line: string): string
    requires '=' in line
  {
    AssignSplit(line);
    Split(line, '=')[1]
  }

  /** A line holding '=' splits into at least two pieces: the text before
      the first '=' and the text after it up to the next. */
  lemma AssignSplit(line: string)
    requires '=' in line
    ensures var i := CharIndex(line, '=');
      var rest := line[i + 1..];
      && i < |line|
      && |Split(line, '=')| >= 2
      && Split(line, '=')[0] == line[..i]
      && Split(line, '=')[1] == rest[..CharIndex(rest, '=')]
  {
    SplitFirstPiece(line, '=');
    var i := CharIndex(line, '=');
    SplitFirstPiece(line[i + 1..], '=');
  }

  datatype LoadState = LoadState(vars: seq<Variable<Value>>, tests: seq<TestCase>)

  /** TryMakeTest: an unparsable vector fails silently; T, V and P append
      one test numbered one past the count; any other specifier fails. For
      T the vector (x, y, z) is the ground target (x, 0, y) with peak height
      z; for P it is speed, deviation, angle. */
  function TryMakeTest(f: Format, m: Maths, spec: string, values: string, tests: seq<TestCase>)
    : (r: Result<seq<TestCase>>)
    ensures f.parseVec(values).None? ==> r == Err("")
    ensures f.parseVec(values).Some? && spec !in {"T", "V", "P"} ==> r == Err("Unknown test specifier \"" + spec + "\"")
    ensures r.Ok? ==> |r.value| == |tests| + 1 && r.value[..|tests|] == tests && r.value[|tests|].testNumber == |tests| + 1
    ensures r.Ok? <==> f.parseVec(values).Some? && spec in {"T", "V", "P"}
    ensures r.Ok? && spec == "T" ==> var (x, y, z) := f.parseVec(values).value;
      r.value[|tests|] == FromTarget(m, Vec3(x, 0.0, y), z, |tests| + 1)
    ensures r.Ok? && spec == "V" ==> var (x, y, z) := f.parseVec(values).value;
      r.value[|tests|] == FromVelocity(m, Vec3(x, y, z), |tests| + 1)
    ensures r.Ok? && spec == "P" ==> var (x, y, z) := f.parseVec(values).value;
      r.value[|tests|] == FromParameters(m, x, y, z, |tests| + 1)
  {
    match f.parseVec(values)
    case None => Err("")
    case Some((x, y, z)) =>
      var n := |tests| + 1;
      if spec == Marker(Target) then Ok(tests + [FromTarget(m, Vec3(x, 0.0, y), z, n)])
      else if spec == Marker(InitialVelocity) then Ok(tests + [FromVelocity(m, Vec3(x, y, z), n)])
      else if spec == Marker(InitialParameters) then Ok(tests + [FromParameters(m, x, y, z, n)])
      else Err("Unknown test specifier \"" + spec + "\"")
  }

  /** The converter for a variable: its type is that of its default. */
  function ConverterFor(convert: (Value, string) -> Conversion<Value>, v: Variable<Value>): string -> Conversion<Value> {
    s => convert(v.defaultValue, s)
  }

  /** What a line, or the whole load, comes to: the load goes on with the
      state reached; it stops with a status message; or a converter
      exception escapes. Load changes the variables and the test list in
      place, so a stop or an exception keeps the state reached so far. */
  datatype Outcome = Loaded(st: LoadState) | Failed(st: LoadState, message: string) | Threw(st: LoadState, error: string)

  /** One line of Load. A line without '=' fails. A "$" line names a
      variable, which must exist, and gives it a value, which must parse;
      a converter exception other than NotSupportedException escapes. An
      "@" line makes a test. Any other line is ignored. A line that does
      not load changes nothing. */
  function LoadLine(f: Format, m: Maths, convert: (Value, string) -> Conversion<Value>,
                    st: LoadState, line: string, lineNo: int): (r: Outcome)
    ensures !r.Loaded? ==> r.st == st
    ensures r.Threw? ==> StartsWith(line, VariableMarker)
    ensures '=' !in line ==> r == Failed(st, "Line doesn't contain an assignment marker (=) (line:" + f.showInt(lineNo) + ")")
    ensures '=' in line && !StartsWith(line, VariableMarker) && !StartsWith(line, TestMarker) ==> r == Loaded(st)
    ensures '=' in line && StartsWith(line, VariableMarker) && Find(AssignName(line), st.vars).None? ==>
      r == Failed(st, "Config file contains undefined variable name \"" + AssignName(line) + "\". (line:" + f.showInt(lineNo + 1) + ")")
    ensures '=' in line && StartsWith(line, VariableMarker) && Find(AssignName(line), st.vars).Some? ==>
      var i := Find(AssignName(line), st.vars).value;
      var c := convert(st.vars[i].defaultValue, AssignValue(line));
      && (c.Thrown? ==> r == Threw(st, c.message))
      && (c.NotSupported? ==>
            r == Failed(st, "Illegal value \"" + AssignValue(line) + "\" for ball_friction (line:" + f.showInt(lineNo + 1) + ")"))
      && (c.Converted? ==> r == Loaded(st.(vars := st.vars[i := st.vars[i].(value := c.v, kind := Unchecked)])))
    ensures '=' in line && StartsWith(line, TestMarker) && !StartsWith(line, VariableMarker) ==>
      (r.Loaded? <==> TryMakeTest(f, m, AssignName(line), AssignValue(line), st.tests).Ok?)
    ensures '=' in line && StartsWith(line, TestMarker) && !StartsWith(line, VariableMarker) && r.Loaded? ==>
      r.st == st.(tests := TryMakeTest(f, m, AssignName(line), AssignValue(line), st.tests).value)
  {
    if '=' !in line then
      Failed(st, "Line doesn't contain an assignment marker (=) (line:" + f.showInt(lineNo) + ")")
    else if StartsWith(line, VariableMarker) then
      var name := AssignName(line);
      var value := AssignValue(line);
      match Find(name, st.vars)
      case None =>
        Failed(st, "Config file contains undefined variable name \"" + name + "\". (line:" + f.showInt(lineNo + 1) + ")")
      case Some(i) =>
        match TryParse(st.vars[i], ConverterFor(convert, st.vars[i]), value)
        case Err(e) => Threw(st, e)
        case Ok((w, parsed)) =>
          if !parsed then Failed(st, "Illegal value \"" + value + "\" for ball_friction (line:" + f.showInt(lineNo + 1) + ")")
          else Loaded(st.(vars := st.vars[i := w]))
    else if StartsWith(line, TestMarker) then
      match TryMakeTest(f, m, AssignName(line), AssignValue(line), st.tests)
      case Err(e) => Failed(st, e)
      case Ok(tests) => Loaded(st.(tests := tests))
    else Loaded(st)
  }

  /** Load over the cleaned lines from position i on: each line in turn,
      the first line that does not load ending it. */
  function LoadFrom(f: Format, m: Maths, convert: (Value, string) -> Conversion<Value>,
                    st: LoadState, lines: seq<string>, i: nat): Outcome
    requires i <= |lines|
    decreases |lines| - i
  {
    if i == |lines| then Loaded(st)
    else match LoadLine(f, m, convert, st, lines[i], i)
      case Loaded(st1) => LoadFrom(f, m, convert, st1, lines, i + 1)
      case Failed(st1, msg) => Failed(st1, msg)
      case Threw(st1, e) => Threw(st1, e)
  }

  /** A line that does not load ends the load with that line's outcome,
      the lines after it unread. */
  lemma LoadStopsAtFailure(f: Format, m: Maths, convert: (Value, string) -> Conversion<Value>,
                           st: LoadState, lines: seq<string>, i: nat)
    requires i < |lines| && !LoadLine(f, m, convert, st, lines[i], i).Loaded?
    ensures LoadFrom(f, m, convert, st, lines, i) == LoadLine(f, m, convert, st, lines[i], i)
  {
  }

  /** Load keeps the variables' names and never drops a test, whether it
      finishes, stops or throws: each line only appends. */
  lemma {:induction false} LoadKeepsNamesAndTests(f: Format, m: Maths, convert: (Value, string) -> Conversion<Value>,
                                                  st: LoadState, lines: seq<string>, i: nat)
    requires i <= |lines|
    ensures var r := LoadFrom(f, m, convert, st, lines, i).st;
      && |r.vars| == |st.vars|
      && (forall k :: 0 <= k < |st.vars| ==> r.vars[k].name == st.vars[k].name)
      && |r.tests| >= |st.tests| && r.tests[..|st.tests|] == st.tests
    decreases |lines| - i
  {
    if i < |lines| {
      var step := LoadLine(f, m, convert, st, lines[i], i);
      if step.Loaded? {
        LoadKeepsNamesAndTests(f, m, convert, step.st, lines, i + 1);
        var r := LoadFrom(f, m, convert, step.st, lines, i + 1).st;
        assert r.tests[..|st.tests|] == r.tests[..|step.st.tests|][..|st.tests|];
      }
    }
  }

  /** The test that Load builds from a configuration line carrying the
      values t for c's build type: the build type is kept; for a T test
      the values' y becomes the target's z and the values' z the height; a V
      test takes them as its velocity; a P test reads the written angle as
      its deviation and the written deviation as its angle. */
  function Rebuilt(m: Maths, c: TestCase, t: (real, real, real), n: int): TestCase {
    match c.buildType
    case Target => FromTarget(m, Vec3(t.0, 0.0, t.1), t.2, n)
    case InitialVelocity => FromVelocity(m, Vec3(t.0, t.1, t.2), n)
    case InitialParameters => FromParameters(m, t.0, t.1, t.2, n)
  }

  /** Loading a test's own configuration line appends exactly the test
      rebuilt from its printed values, with the same build type: from the
      rounded values in general, and from the test's own values when they
      print exactly. */
  lemma ConfigLineRoundTrip(f: Format, m: Maths, convert: (Value, string) -> Conversion<Value>,
                            st: LoadState, c: TestCase, lineNo: int)
    requires SoundFormat(f)
    ensures var n := |st.tests| + 1;
      var t := RoundedTriple(f, ConfigValues(c));
      && LoadLine(f, m, convert, st, ToConfigFormat(f, c), lineNo) == Loaded(st.(tests := st.tests + [Rebuilt(m, c, t, n)]))
      && Rebuilt(m, c, t, n).buildType == c.buildType
      && Rebuilt(m, c, t, n).testNumber == n
    ensures var n := |st.tests| + 1;
      ExactTriple(f, ConfigValues(c)) ==>
        LoadLine(f, m, convert, st, ToConfigFormat(f, c), lineNo) == Loaded(st.(tests := st.tests + [Rebuilt(m, c, ConfigValues(c), n)]))
  {
    var line := ToConfigFormat(f, c);
    var (a, b, d) := ConfigValues(c);
    var marker := Marker(c.buildType);
    var content := Triple(f, a, b, d);
    assert line == TestMarker + marker + AssignMarker + content;
    assert line[0] == '@' && line[1] == marker[0] && line[2] == '=';
    assert '=' in line;
    assert StartsWith(line, TestMarker) && !StartsWith(line, VariableMarker);
    assert Split(line, '=') == [TestMarker + marker, content];
    assert AssignName(line) == marker;
    assert AssignValue(line) == content;
  }

  // ---------------------------------------------------------------------
  // The refresh cycle

  /** Pull on every variable in order; a converter exception ends it. */
  function PullAll(convert: (Value, string) -> Conversion<Value>, vars: seq<Variable<Value>>)
    : (r: Result<seq<Variable<Value>>>)
    ensures r.Ok? ==> |r.value| == |vars|
    ensures r.Ok? ==> forall k :: 0 <= k < |vars| ==>
      Pull(vars[k], ConverterFor(convert, vars[k])).Ok? && r.value[k] == Pull(vars[k], ConverterFor(convert, vars[k])).value.0
  {
    if |vars| == 0 then Ok([])
    else match Pull(vars[0], ConverterFor(convert, vars[0]))
      case Err(e) => Err(e)
      case Ok((w, _)) =>
        match PullAll(convert, vars[1..])
        case Err(e) => Err(e)
        case Ok(ws) => Ok([w] + ws)
  }

  /** Check on every variable in order, stopping at the first failure,
      whose position is reported. */
  function CheckAll(vars: seq<Variable<Value>>): (r: (seq<Variable<Value>>, Option<nat>))
    ensures |r.0| == |vars|
    ensures r.1.None? ==> forall k :: 0 <= k < |vars| ==> r.0[k] == Check(CompareValues, vars[k]).0 && r.0[k].kind != Unchecked
    ensures r.1.Some? ==>
      && r.1.value < |vars|
      && (forall k :: 0 <= k < r.1.value ==> r.0[k] == Check(CompareValues, vars[k]).0 && r.0[k].kind != Unchecked)
      && !Check(CompareValues, vars[r.1.value]).1
      && (forall k :: r.1.value <= k < |vars| ==> r.0[k] == vars[k])
  {
    if |vars| == 0 then ([], None)
    else
      var (w, ok) := Check(CompareValues, vars[0]);
      if !ok then (vars, Some(0))
      else
        var (rest, failed) := CheckAll(vars[1..]);
        ([w] + rest, match failed case None => None case Some(i) => Some(i + 1))
  }

  /** The message Check leaves for the failing variable. */
  function RangeMessage(v: Variable<Value>): string {
    "Variable " + v.name + " has value outside accepted range. Check the references for a list of accepted ranges."
  }

  /** Push on every variable in order: the values handed on, and an error
      at the first Unchecked variable, after which nothing more is
      pushed. */
  function PushAll(show: Value -> string, vars: seq<Variable<Value>>): (r: (seq<Value>, Option<string>))
    ensures r.1.None? <==> forall k :: 0 <= k < |vars| ==> vars[k].kind != Unchecked
    ensures r.1.None? ==> |r.0| == |vars| && forall k :: 0 <= k < |vars| ==> Some(r.0[k]) == Pushed(vars[k])
    ensures r.1.Some? ==>
      && |r.0| < |vars| && vars[|r.0|].kind == Unchecked
      && (forall k :: 0 <= k < |r.0| ==> vars[k].kind != Unchecked && Some(r.0[k]) == Pushed(vars[k]))
  {
    if |vars| == 0 then ([], None)
    else match Push(vars[0], show)
      case Err(e) => ([], Some(e))
      case Ok((x, _)) =>
        var (xs, err) := PushAll(show, vars[1..]);
        ([x] + xs, err)
  }

  /** When Check passes, the Push that follows cannot throw and hands on
      every variable's value. */
  lemma CheckedPushes(show: Value -> string, vars: seq<Variable<Value>>)
    requires CheckAll(vars).1.None?
    ensures PushAll(show, CheckAll(vars).0).1.None?
    ensures |PushAll(show, CheckAll(vars).0).0| == |vars|
  {
  }

  /** The variables Refresh checks: those pulled from the boxes, or the
      variables as they are while a load is in progress. */
  function Pulled(convert: (Value, string) -> Conversion<Value>, vars: seq<Variable<Value>>, loading: bool)
    : Result<seq<Variable<Value>>>
  {
    if loading then Ok(vars) else PullAll(convert, vars)
  }

  /** Refresh as written: pull (unless loading), check, and push whatever
      Check said. A pull that throws ends it. When Check passes, every
      variable is pushed without an exception; when Check fails at an
      Unchecked variable, the variables before it are still pushed and the
      push then throws at it. */
  function Refresh(convert: (Value, string) -> Conversion<Value>, show: Value -> string,
                   vars: seq<Variable<Value>>, loading: bool): (r: Result<(seq<Variable<Value>>, seq<Value>, Option<string>)>)
    ensures r.Err? <==> Pulled(convert, vars, loading).Err?
    ensures loading ==> r.Ok?
    ensures r.Ok? ==> |r.value.0| == |vars|
    ensures r.Ok? ==> forall k :: 0 <= k < |vars| ==> r.value.0[k].name == vars[k].name
    ensures r.Ok? && CheckAll(Pulled(convert, vars, loading).value).1.None? ==>
      && r.value.2.None? && |r.value.1| == |vars|
      && forall k :: 0 <= k < |vars| ==> r.value.0[k].kind != Unchecked && Some(r.value.1[k]) == Pushed(r.value.0[k])
  {
    match Pulled(convert, vars, loading)
    case Err(e) => Err(e)
    case Ok(ps) =>
      var (checked, failed) := CheckAll(ps);
      PullKeepsNames(convert, vars, loading);
      CheckKeepsNames(ps);
      if failed.None? then
        CheckedPushes(show, ps);
        var (pushed, err) := PushAll(show, checked);
        Ok((checked, pushed, err))
      else
        var (pushed, err) := PushAll(show, checked);
        Ok((checked, pushed, err))
  }

  /** Pulling keeps the variables' names. */
  lemma PullKeepsNames(convert: (Value, string) -> Conversion<Value>, vars: seq<Variable<Value>>, loading: bool)
    requires Pulled(convert, vars, loading).Ok?
    ensures var ps := Pulled(convert, vars, loading).value;
      |ps| == |vars| && forall k :: 0 <= k < |vars| ==> ps[k].name == vars[k].name
  {
  }

  /** Checking keeps the variables' names. */
  lemma CheckKeepsNames(vars: seq<Variable<Value>>)
    ensures forall k :: 0 <= k < |vars| ==> CheckAll(vars).0[k].name == vars[k].name
  {
  }

  /** During a load Refresh does not pull; when Check then fails at an
      Unchecked variable, the variables before it are pushed and the push
      throws at it. */
  lemma RefreshPushesAfterFailedCheck(convert: (Value, string) -> Conversion<Value>, show: Value -> string,
                                      vars: seq<Variable<Value>>)
    requires Refresh(convert, show, vars, true).Ok?
    requires CheckAll(vars).1.Some? && vars[CheckAll(vars).1.value].kind == Unchecked
    ensures var (checked, pushed, err) := Refresh(convert, show, vars, true).value;
      && err.Some?
      && |pushed| == CheckAll(vars).1.value
      && forall k :: 0 <= k < |pushed| ==> Some(pushed[k]) == Pushed(checked[k])
  {
  }

  /** The fields of the manager that LoadButton reads and writes. */
  datatype Manager = Manager(vars: seq<Variable<Value>>, tests: seq<TestCase>,
                             loading: bool, loadedOk: bool, status: string)

  const LoadedMessage := "Configuration file loaded succesfully."

  /** The status line after a stopped load: the stopping line's message;
      TryMakeTest's silent failure on an unparsable vector leaves the line
      as it was. */
  function StatusAfter(previous: string, message: string): string {
    if message == "" then previous else message
  }

  /** The load of the button succeeds: the file is read, every line loads
      and Check passes. */
  predicate LoadSucceeds(f: Format, m: Maths, convert: (Value, string) -> Conversion<Value>,
                         vars: seq<Variable<Value>>, lines: Result<seq<string>>)
  {
    && lines.Ok?
    && LoadFrom(f, m, convert, LoadState(vars, []), lines.value, 0).Loaded?
    && CheckAll(LoadFrom(f, m, convert, LoadState(vars, []), lines.value, 0).st.vars).1.None?
  }

  /** The end of LoadButton once Load has an outcome: a stop or a failed
      Check lowers loadedOk and keeps loading raised, an exception escapes
      leaving loadedOk and the status line alone, and only a load that
      finishes and checks pushes the variables and lowers loading. Either
      way the variables and tests Load reached are kept. */
  function Conclude(show: Value -> string, mg: Manager, out: Outcome): (r: (Manager, seq<Value>, Option<string>))
    ensures |r.0.vars| == |out.st.vars| && forall k :: 0 <= k < |out.st.vars| ==> r.0.vars[k].name == out.st.vars[k].name
    ensures r.0.loading <==> mg.loading && !(out.Loaded? && CheckAll(out.st.vars).1.None?)
    ensures r.2.Some? <==> out.Threw?
    ensures out.Threw? ==> r.0.loadedOk == mg.loadedOk && r.0.status == mg.status
    ensures r.2.None? ==> (r.0.loadedOk <==> out.Loaded? && CheckAll(out.st.vars).1.None?)
    ensures !(out.Loaded? && CheckAll(out.st.vars).1.None?) ==> r.1 == []
    ensures out.Loaded? && CheckAll(out.st.vars).1.None? ==>
      && r.0.status == LoadedMessage && |r.1| == |out.st.vars|
      && forall k :: 0 <= k < |out.st.vars| ==> r.0.vars[k].kind != Unchecked && Some(r.1[k]) == Pushed(r.0.vars[k])
    ensures r.0.tests == out.st.tests
    ensures !out.Loaded? ==> r.0.vars == out.st.vars
  {
    match out
    case Threw(st, e) => (mg.(vars := st.vars, tests := st.tests), [], Some(e))
    case Failed(st, msg) =>
      (mg.(vars := st.vars, tests := st.tests, loadedOk := false, status := StatusAfter(mg.status, msg)), [], None)
    case Loaded(st) =>
      var (checked, failed) := CheckAll(st.vars);
      CheckKeepsNames(st.vars);
      if failed.Some? then
        (mg.(vars := checked, tests := st.tests, loadedOk := false, status := RangeMessage(st.vars[failed.value])), [], None)
      else
        CheckedPushes(show, st.vars);
        var (pushed, err) := PushAll(show, checked);
        (mg.(vars := checked, tests := st.tests, loadedOk := true, loading := false, status := LoadedMessage), pushed, err)
  }

  /** LoadButton: loading is raised and the test list restarts empty. A
      failed read, a stopped load or a failed Check lowers loadedOk and
      returns with loading still raised, keeping whatever the load had
      already parsed and appended; a converter exception escapes with the
      same partial state and leaves loadedOk and the status line alone.
      Only a full success pushes the variables and lowers loading. The
      returned triple is the manager, the values pushed and the exception
      that escaped. */
  function LoadButton(f: Format, m: Maths, convert: (Value, string) -> Conversion<Value>, show: Value -> string,
                      mg: Manager, lines: Result<seq<string>>)
    : (r: (Manager, seq<Value>, Option<string>))
    ensures r.0.loading <==> !LoadSucceeds(f, m, convert, mg.vars, lines)
    ensures r.2.Some? <==> lines.Ok? && LoadFrom(f, m, convert, LoadState(mg.vars, []), lines.value, 0).Threw?
    ensures r.2.Some? ==> r.0.loadedOk == mg.loadedOk && r.0.status == mg.status
    ensures r.2.None? ==> (r.0.loadedOk <==> LoadSucceeds(f, m, convert, mg.vars, lines))
    ensures !LoadSucceeds(f, m, convert, mg.vars, lines) ==> r.1 == []
    ensures LoadSucceeds(f, m, convert, mg.vars, lines) ==>
      && r.0.status == LoadedMessage && |r.1| == |mg.vars| && |r.0.vars| == |mg.vars|
      && forall k :: 0 <= k < |mg.vars| ==> r.0.vars[k].kind != Unchecked && Some(r.1[k]) == Pushed(r.0.vars[k])
    ensures lines.Err? ==> r.0 == mg.(loading := true, tests := [], loadedOk := false, status := lines.error)
    ensures lines.Ok? ==>
      var out := LoadFrom(f, m, convert, LoadState(mg.vars, []), lines.value, 0);
      && r.0.tests == out.st.tests
      && (!out.Loaded? ==> r.0.vars == out.st.vars)
    ensures |r.0.vars| == |mg.vars| && forall k :: 0 <= k < |mg.vars| ==> r.0.vars[k].name == mg.vars[k].name
  {
    var start := mg.(loading := true, tests := []);
    match lines
    case Err(msg) => (start.(loadedOk := false, status := msg), [], None)
    case Ok(ls) =>
      LoadKeepsNamesAndTests(f, m, convert, LoadState(mg.vars, []), ls, 0);
      Conclude(show, start, LoadFrom(f, m, convert, LoadState(mg.vars, []), ls, 0))
  }

  /** A load that parses a "$" line and stops at the next one leaves that
      variable Unchecked with the parsed value, loadedOk lowered and
      loading still raised. */
  lemma FailedLoadKeepsEarlierValue(f: Format, m: Maths, convert: (Value, string) -> Conversion<Value>,
                                    show: Value -> string, mg: Manager, ls: seq<string>)
    requires |ls| >= 2 && StartsWith(ls[0], VariableMarker) && '=' in ls[0]
    requires LoadLine(f, m, convert, LoadState(mg.vars, []), ls[0], 0).Loaded?
    requires LoadLine(f, m, convert, LoadLine(f, m, convert, LoadState(mg.vars, []), ls[0], 0).st, ls[1], 1).Failed?
    ensures Find(AssignName(ls[0]), mg.vars).Some?
    ensures var r := LoadButton(f, m, convert, show, mg, Ok(ls)).0;
      var i := Find(AssignName(ls[0]), mg.vars).value;
      var c := convert(mg.vars[i].defaultValue, AssignValue(ls[0]));
      && !r.loadedOk && r.loading && r.tests == []
      && c.Converted? && r.vars[i].kind == Unchecked && r.vars[i].value == c.v
  {
    var st1 := LoadLine(f, m, convert, LoadState(mg.vars, []), ls[0], 0).st;
    assert LoadFrom(f, m, convert, LoadState(mg.vars, []), ls, 0) == LoadFrom(f, m, convert, st1, ls, 1);
    assert LoadFrom(f, m, convert, st1, ls, 1) == LoadLine(f, m, convert, st1, ls[1], 1);
  }
}

=== FILE: configurable.dfy ===
/** The Configurable<T> value cell the configuration pushes into: a single
    stored value with value equality. */
module Configurable {
  datatype Cell<T> = Cell(value: T)

  /** Set replaces the stored value. */
  function Set<T>(c: Cell<T>, v: T): (r: Cell<T>)
    ensures Get(r) == v
  {
    Cell(v)
  }

  function Get<T>(c: Cell<T>): T {
    c.value
  }

  /** Equals(T): the stored value equals the argument. */
  predicate EqualsValue<T(==)>(c: Cell<T>, other: T) {
    Get(c) == other
  }

  /** Equals(Configurable<T>): the stored values are equal. */
  predicate EqualsCell<T(==)>(c: Cell<T>, other: Cell<T>) {
    Get(c) == Get(other)
  }

  /** The operators == and != of both overloads. */
  predicate Eq<T(==)>(a: Cell<T>, b: Cell<T>) { Get(a) == Get(b) }
  predicate NotEq<T(==)>(a: Cell<T>, b: Cell<T>) { !(Get(a) == Get(b)) }
  predicate EqValue<T(==)>(a: Cell<T>, b: T) { Get(a) == b }
  predicate NotEqValue<T(==)>(a: Cell<T>, b: T) { !(Get(a) == b) }

  /** Get after Set returns the value set; a second Set overrides the
      first, and setting the current value changes nothing. */
  lemma SetGet<T>(c: Cell<T>, v: T, w: T)
    ensures Get(Set(c, v)) == v
    ensures Set(Set(c, v), w) == Set(c, w)
    ensures Set(c, Get(c)) == c
  {
  }

  /** All the comparisons are value equality: cells compare as their
      values do, and != is the negation of == in both overloads. */
  lemma ComparisonsAgree<T>(a: Cell<T>, b: Cell<T>, x: T)
    ensures (Eq(a, b) <==> EqualsCell(a, b)) && (Eq(a, b) <==> EqualsValue(a, Get(b)))
    ensures Eq(a, b) <==> EqValue(a, Get(b))
    ensures Eq(a, b) <==> a == b
    ensures NotEq(a, b) <==> !Eq(a, b)
    ensures NotEqValue(a, x) <==> !EqValue(a, x)
    ensures (EqValue(a, x) <==> EqualsValue(a, x)) && (EqValue(a, x) <==> Eq(a, Cell(x)))
  {
  }
}

=== FILE: controller.dfy ===
/** The lean controller's input shaping: the raw input by controller type,
    the calibration that tracks the extreme leans, the normalisation into
    [-1, 1] with the final quarter turn, and the input curves (linear,
    modulus sigmoid, power and the sinusoid). */
module Controller {
  import opened Wrappers
  import opened UnityMath
  import opened Strings
  import Vector3Extensions

  // ---------------------------------------------------------------------
  // Raw input

  const Fove: int := 0
  const Joystick: int := 1

  /** LatestInput: the headset's ground position, or the joystick axes as
      (-vertical, 0, horizontal); any other controller type throws. The
      smoothing branch is empty. */
  function LatestInput(f: Format, controllerType: int, fovePosition: Vec3, vertical: real, horizontal: real)
    : (r: Result<Vec3>)
    ensures r.Ok? <==> controllerType == Fove || controllerType == Joystick
    ensures r.Ok? ==> r.value.y == 0.0
    ensures controllerType == Fove ==> r == Ok(Vector3Extensions.XZ(fovePosition))
    ensures r.Err? ==> r.error == "Undefined controller type: " + f.showInt(controllerType)
  {
    if controllerType == Fove then Ok(Vector3Extensions.XZ(fovePosition))
    else if controllerType == Joystick then Ok(Vec3(-vertical, 0.0, horizontal))
    else Err("Undefined controller type: " + f.showInt(controllerType))
  }

  // ---------------------------------------------------------------------
  // Calibration

  /** One end of a lean range: infinite before any sample (+infinity for a
      minimum, -infinity for a maximum), then the extreme seen. */
  datatype Bound = Infinite | Finite(v: real)

  datatype Calibration = Calibration(
    calibrating: bool,
    calibrated: bool,
    zeroPosition: Vec3,
    minX: Bound,
    minZ: Bound,
    maxX: Bound,
    maxZ: Bound)

  /** Start: not calibrating, and every bound infinite. */
  function Start(zeroPosition: Vec3): (c: Calibration)
    ensures !c.calibrating && !c.calibrated
    ensures c.minX.Infinite? && c.minZ.Infinite? && c.maxX.Infinite? && c.maxZ.Infinite?
  {
    Calibration(false, false, zeroPosition, Infinite, Infinite, Infinite, Infinite)
  }

  /** The minimum after a sample: replaced when the sample is below it. */
  function Lower(b: Bound, v: real): Bound {
    if b.Infinite? || v < b.v then Finite(v) else b
  }

  /** The maximum after a sample: replaced when the sample is above it. */
  function Raise(b: Bound, v: real): Bound {
    if b.Infinite? || v > b.v then Finite(v) else b
  }

  predicate AtMost(b: Bound, v: real) { b.Finite? && b.v <= v }
  predicate AtLeast(b: Bound, v: real) { b.Finite? && b.v >= v }

  /** A minimum that has not moved up: still infinite, or no higher. */
  predicate NotAbove(now: Bound, before: Bound) {
    before.Infinite? || (now.Finite? && now.v <= before.v)
  }

  /** A maximum that has not moved down. */
  predicate NotBelow(now: Bound, before: Bound) {
    before.Infinite? || (now.Finite? && now.v >= before.v)
  }

  /** The lean a sample stands for: the input less the zero position. */
  function Lean(c: Calibration, input: Vec3): Vec3 {
    Sub(input, c.zeroPosition)
  }

  /** FixedUpdate: while calibrating, the latest input (which may throw)
      widens the four bounds to take in the current lean; otherwise nothing
      happens and no input is read. */
  function FixedUpdate(c: Calibration, input: Result<Vec3>): (r: Result<Calibration>)
    ensures !c.calibrating ==> r == Ok(c)
    ensures c.calibrating ==> (r.Ok? <==> input.Ok?)
    ensures c.calibrating && r.Ok? ==>
      var lean := Lean(c, input.value);
      && AtMost(r.value.minX, lean.x) && AtMost(r.value.minZ, lean.z)
      && AtLeast(r.value.maxX, lean.x) && AtLeast(r.value.maxZ, lean.z)
    ensures r.Ok? ==>
      && NotAbove(r.value.minX, c.minX) && NotAbove(r.value.minZ, c.minZ)
      && NotBelow(r.value.maxX, c.maxX) && NotBelow(r.value.maxZ, c.maxZ)
      && r.value.(minX := c.minX, minZ := c.minZ, maxX := c.maxX, maxZ := c.maxZ) == c
  {
    if !c.calibrating then Ok(c)
    else match input
      case Err(e) => Err(e)
      case Ok(v) =>
        var lean := Lean(c, v);
        Ok(c.(minX := Lower(c.minX, lean.x), minZ := Lower(c.minZ, lean.z),
              maxX := Raise(c.maxX, lean.x), maxZ := Raise(c.maxZ, lean.z)))
  }

  /** Every lean seen lies within the bounds. */
  predicate Covers(c: Calibration, samples: seq<Vec3>) {
    forall k :: 0 <= k < |samples| ==>
      && AtMost(c.minX, Lean(c, samples[k]).x) && AtMost(c.minZ, Lean(c, samples[k]).z)
      && AtLeast(c.maxX, Lean(c, samples[k]).x) && AtLeast(c.maxZ, Lean(c, samples[k]).z)
  }

  /** A calibration session: one FixedUpdate per sample. Afterwards every
      sample's lean lies between the bounds, and each bound is one of the
      leans seen or the bound held before. */
  method Calibrate(c: Calibration, samples: seq<Vec3>) returns (r: Calibration)
    requires c.calibrating
    ensures Covers(r, samples)
    ensures NotAbove(r.minX, c.minX) && NotAbove(r.minZ, c.minZ)
    ensures NotBelow(r.maxX, c.maxX) && NotBelow(r.maxZ, c.maxZ)
    ensures r.(minX := c.minX, minZ := c.minZ, maxX := c.maxX, maxZ := c.maxZ) == c
  {
    r := c;
    var i := 0;
    while i < |samples|
      invariant 0 <= i <= |samples|
      invariant r.(minX := c.minX, minZ := c.minZ, maxX := c.maxX, maxZ := c.maxZ) == c
      invariant Covers(r, samples[..i])
      invariant NotAbove(r.minX, c.minX) && NotAbove(r.minZ, c.minZ)
      invariant NotBelow(r.maxX, c.maxX) && NotBelow(r.maxZ, c.maxZ)
    {
      var next := FixedUpdate(r, Ok(samples[i]));
      r := next.value;
      i := i + 1;
    }
    assert samples[..i] == samples;
  }

  // ---------------------------------------------------------------------
  // Calibrated

  /** Quaternion.Euler(0, -90, 0) is exactly a quarter turn. */
  predicate QuarterTurn(m: Maths) {
    m.cosDeg(-90.0) == 0.0 && m.sinDeg(-90.0) == -1.0
  }

  /** One component of the normalisation: clamped into [lo, hi], then
      divided by |lo| when negative and by |hi| otherwise. */
  function Normalise(m: Maths, v: real, lo: real, hi: real): real {
    var x := Clamp(v, lo, hi);
    if x < 0.0 then Quot(m, x, Abs(lo)) else Quot(m, x, Abs(hi))
  }

  /** With lo < 0 < hi the component lands in [-1, 1] with its sign kept,
      and a lean at or past an end gives exactly -1 or 1. */
  lemma NormaliseBounds(m: Maths, v: real, lo: real, hi: real)
    requires lo < 0.0 < hi
    ensures -1.0 <= Normalise(m, v, lo, hi) <= 1.0
    ensures (Normalise(m, v, lo, hi) < 0.0) <==> v < 0.0
    ensures v <= lo ==> Normalise(m, v, lo, hi) == -1.0
    ensures v >= hi ==> Normalise(m, v, lo, hi) == 1.0
  {
    var x := Clamp(v, lo, hi);
    var r := Normalise(m, v, lo, hi);
    assert lo <= x <= hi;
    if x < 0.0 {
      var p := -lo;
      assert r * p == x;
      FactorSign(-r, p);
      FactorSign(r + 1.0, p);
      assert (v <= lo ==> x == lo) && (v < 0.0 <==> x < 0.0);
    } else {
      assert r * hi == x;
      FactorSign(r, hi);
      FactorSign(1.0 - r, hi);
      assert (v >= hi ==> x == hi) && (v >= 0.0);
      if v >= hi {
        FactorSign(r - 1.0, hi);
      }
    }
  }

  /** Calibrated: the lean normalised per component and turned a quarter
      about the vertical. Only finite bounds are modelled. */
  function Calibrated(m: Maths, zeroPosition: Vec3, minLean: Vec3, maxLean: Vec3, input: Vec3): (r: Vec3)
    ensures var lean := Sub(input, zeroPosition);
      QuarterTurn(m) ==> r == Vec3(-Normalise(m, lean.z, minLean.z, maxLean.z), lean.y,
                                   Normalise(m, lean.x, minLean.x, maxLean.x))
  {
    var lean := Sub(input, zeroPosition);
    RotateY(m, -90.0, Vec3(Normalise(m, lean.x, minLean.x, maxLean.x), lean.y,
                           Normalise(m, lean.z, minLean.z, maxLean.z)))
  }

  /** With bounds on both sides of zero, both ground components of the
      calibrated input lie in [-1, 1]; the turn only swaps them and negates
      one. */
  lemma CalibratedInUnitSquare(m: Maths, zeroPosition: Vec3, minLean: Vec3, maxLean: Vec3, input: Vec3)
    requires QuarterTurn(m)
    requires minLean.x < 0.0 < maxLean.x && minLean.z < 0.0 < maxLean.z
    ensures var r := Calibrated(m, zeroPosition, minLean, maxLean, input);
      -1.0 <= r.x <= 1.0 && -1.0 <= r.z <= 1.0 && r.y == input.y - zeroPosition.y
  {
    var lean := Sub(input, zeroPosition);
    NormaliseBounds(m, lean.x, minLean.x, maxLean.x);
    NormaliseBounds(m, lean.z, minLean.z, maxLean.z);
  }

  // ---------------------------------------------------------------------
  // The modulus sigmoid

  /** The coefficients, computed on the first call and kept afterwards. */
  datatype Sigmoid = Sigmoid(init: bool, a: real, b: real, c: real)

  const Uninitialised: Sigmoid := Sigmoid(false, 0.0, 0.0, 0.0)

  const MinShape: real := 0.334

  /** The coefficients for a parameter: a clamped to [0.334, 1], b = 2a and
      c = (1 - a) / (3a - 1) + 1. */
  function Coefficients(param: real): (s: Sigmoid)
    ensures s.init && MinShape <= s.a <= 1.0 && s.b == 2.0 * s.a
    ensures s.c * (3.0 * s.a - 1.0) == 2.0 * s.a
  {
    var a := Clamp(param, MinShape, 1.0);
    var c := (1.0 - a) / (3.0 * a - 1.0) + 1.0;
    assert c * (3.0 * a - 1.0) == 2.0 * a by {
      var d := (1.0 - a) / (3.0 * a - 1.0);
      assert d * (3.0 * a - 1.0) == 1.0 - a;
    }
    Sigmoid(true, a, 2.0 * a, c)
  }

  /** The coefficients as the first call leaves them. */
  predicate Valid(s: Sigmoid) {
    s.init ==> MinShape <= s.a <= 1.0 && s.b == 2.0 * s.a && s.c * (3.0 * s.a - 1.0) == 2.0 * s.a
  }

  /** u / (1 + |u|), the modulus sigmoid's core. */
  function SoftSign(u: real): real {
    u / (1.0 + Abs(u))
  }

  /** b (cx - 1) / (1 + |cx - 1|) + a, grouped as b times the core. */
  function SigmoidValue(s: Sigmoid, x: real): real {
    s.b * SoftSign(s.c * x - 1.0) + s.a
  }

  /** ModulusSigmoid: the first call fixes the coefficients from its
      parameter; every later call ignores the parameter. */
  function ModulusSigmoid(s: Sigmoid, x: real, param: real): (r: (real, Sigmoid))
    ensures r.1.init
    ensures s.init ==> r.1 == s
    ensures !s.init ==> r.1 == Coefficients(param)
    ensures Valid(s) ==> Valid(r.1)
  {
    var s1 := if s.init then s else Coefficients(param);
    (SigmoidValue(s1, x), s1)
  }

  lemma ProductNonNegative(a: real, b: real)
    requires a >= 0.0 && b >= 0.0
    ensures a * b >= 0.0
  {
  }

  /** u / (1 + |u|) is nondecreasing. */
  lemma SoftSignMonotone(u: real, w: real)
    requires u <= w
    ensures SoftSign(u) <= SoftSign(w)
  {
    var p, q := 1.0 + Abs(u), 1.0 + Abs(w);
    var gu, gw := u / p, w / q;
    assert gu * p == u;
    assert gw * q == w;
    ProductNonNegative(p, q);
    if u >= 0.0 {
      assert (gw - gu) * (p * q) == w * p - u * q;
      assert w * p - u * q == w - u;
      FactorSign(gw - gu, p * q);
    } else if w < 0.0 {
      assert (gw - gu) * (p * q) == w * p - u * q;
      assert w * p - u * q == w - u;
      FactorSign(gw - gu, p * q);
    } else {
      FactorSign(-gu, p);
      FactorSign(gw, q);
    }
  }

  /** The initialised sigmoid sends 0 to 0 and 1 to 1 and never decreases,
      so it maps [0, 1] into [0, 1]. */
  lemma SigmoidShape(s: Sigmoid, x: real, y: real)
    requires s.init && Valid(s)
    ensures SigmoidValue(s, 0.0) == 0.0
    ensures SigmoidValue(s, 1.0) == 1.0
    ensures x <= y ==> SigmoidValue(s, x) <= SigmoidValue(s, y)
    ensures 0.0 <= x <= 1.0 ==> 0.0 <= SigmoidValue(s, x) <= 1.0
  {
    SigmoidAtZero(s);
    SigmoidAtOne(s);
    PositiveCoefficients(s);
    SigmoidMonotone(s, x, y);
    if 0.0 <= x <= 1.0 {
      SigmoidMonotone(s, 0.0, x);
      SigmoidMonotone(s, x, 1.0);
    }
  }

  lemma SigmoidAtZero(s: Sigmoid)
    requires s.init && Valid(s)
    ensures SigmoidValue(s, 0.0) == 0.0
  {
    assert s.c * 0.0 - 1.0 == -1.0;
  }

  lemma SigmoidAtOne(s: Sigmoid)
    requires s.init && Valid(s)
    ensures SigmoidValue(s, 1.0) == 1.0
  {
    var a := s.a;
    var d := s.c - 1.0;
    assert d * (3.0 * a - 1.0) == 1.0 - a;
    FactorSign(d, 3.0 * a - 1.0);
    var g := SoftSign(d);
    assert g * (1.0 + d) == d;
    assert 2.0 * a * d == (1.0 - a) * (1.0 + d);
    assert (2.0 * a * g - (1.0 - a)) * (1.0 + d) == 0.0;
    FactorSign(2.0 * a * g - (1.0 - a), 1.0 + d);
  }

  /** Any sigmoid with nonnegative b and c never decreases. */
  lemma SigmoidMonotone(s: Sigmoid, x: real, y: real)
    requires s.b >= 0.0 && s.c >= 0.0
    ensures x <= y ==> SigmoidValue(s, x) <= SigmoidValue(s, y)
  {
    if x <= y {
      ScaledSoftSignMonotone(s.b, s.c, x, y);
    }
  }

  lemma PositiveCoefficients(s: Sigmoid)
    requires s.init && Valid(s)
    ensures s.b > 0.0 && s.c > 0.0
  {
    FactorSign(s.c, 3.0 * s.a - 1.0);
  }

  lemma ScaledSoftSignMonotone(b: real, c: real, x: real, y: real)
    requires b >= 0.0 && c >= 0.0 && x <= y
    ensures b * SoftSign(c * x - 1.0) <= b * SoftSign(c * y - 1.0)
  {
    var u, w := c * x - 1.0, c * y - 1.0;
    ProductNonNegative(c, y - x);
    assert w - u == c * (y - x);
    SoftSignMonotone(u, w);
    ProductNonNegative(b, SoftSign(w) - SoftSign(u));
  }

  // ---------------------------------------------------------------------
  // The input curves

  const Linear: int := 0
  const SigmoidCurve: int := 1
  const Exponential: int := 2
  const Sinusoid: int := 3

  /** C# integer division: the quotient truncated toward zero. */
  function TruncDiv(a: int, b: int): int
    requires b != 0
  {
    var q := (if a < 0 then -a else a) / (if b < 0 then -b else b);
    if (a < 0) == (b < 0) then q else -q
  }

  /** The sinusoid as written: (-1/2) cos(pi x) + 1/2 in integer division. */
  function SinusoidValue(m: Maths, x: real): real {
    (TruncDiv(-1, 2) as real) * m.cosDeg(180.0 * x) + (TruncDiv(1, 2) as real)
  }

  /** Both halves truncate to zero, so the sinusoid is flat at 0. */
  lemma SinusoidIsZero(m: Maths, x: real)
    ensures SinusoidValue(m, x) == 0.0
  {
    assert TruncDiv(-1, 2) == 0 && TruncDiv(1, 2) == 0;
  }

  /** The curved magnitude for an input magnitude x and the sigmoid state:
      linear is the identity, the sinusoid is zero, the power curve raises
      x to the parameter, and the sigmoid may fix its coefficients. Any other
      curve type throws. */
  function CurveValue(m: Maths, f: Format, s: Sigmoid, curve: int, param: real, x: real)
    : (r: Result<(real, Sigmoid)>)
    ensures r.Ok? <==> 0 <= curve <= 3
    ensures r.Err? ==> r.error == "Undefined input curve type: " + f.showInt(curve)
    ensures curve == Linear ==> r == Ok((x, s))
    ensures curve == Sinusoid ==> r == Ok((0.0, s))
    ensures curve == Exponential ==> r == Ok((m.pow(x, param), s))
    ensures curve == SigmoidCurve ==> r == Ok(ModulusSigmoid(s, x, param))
  {
    if curve == Linear then Ok((x, s))
    else if curve == Sinusoid then
      SinusoidIsZero(m, x);
      Ok((SinusoidValue(m, x), s))
    else if curve == Exponential then Ok((m.pow(x, param), s))
    else if curve == SigmoidCurve then Ok(ModulusSigmoid(s, x, param))
    else Err("Undefined input curve type: " + f.showInt(curve))
  }

  /** The documented promise of Curved: for a valid sigmoid state and a
      nonnegative parameter, every curve maps [0, 1] into [0, 1]. */
  lemma CurveInUnit(m: Maths, f: Format, s: Sigmoid, curve: int, param: real, x: real)
    requires PowSound(m) && Valid(s) && param >= 0.0 && 0.0 <= x <= 1.0
    requires 0 <= curve <= 3
    ensures var r := CurveValue(m, f, s, curve, param, x).value;
      0.0 <= r.0 <= 1.0 && Valid(r.1)
  {
    if curve == SigmoidCurve {
      var s1 := ModulusSigmoid(s, x, param).1;
      SigmoidShape(s1, x, x);
    }
  }

  /** Curved: the input's direction scaled by the curved, clamped
      magnitude. */
  function Curved(m: Maths, f: Format, s: Sigmoid, curve: int, param: real, input: Vec3)
    : (r: Result<(Vec3, Sigmoid)>)
    ensures r.Ok? <==> 0 <= curve <= 3
    ensures r.Ok? ==>
      var y := CurveValue(m, f, s, curve, param, Clamp01(Magnitude(m, input))).value;
      r.value == (Scale(Normalized(m, input), y.0), y.1)
  {
    match CurveValue(m, f, s, curve, param, Clamp01(Magnitude(m, input)))
    case Err(e) => Err(e)
    case Ok((y, s1)) => Ok((Scale(Normalized(m, input), y), s1))
  }

  /** Under the linear curve, an input of magnitude at most 1 with a sound
      square root passes through unchanged in length: the output is the
      direction scaled by the input's own magnitude. */
  lemma LinearKeepsShortInput(m: Maths, f: Format, s: Sigmoid, param: real, input: Vec3)
    requires SqrtSound(m) && Magnitude(m, input) <= 1.0
    ensures Curved(m, f, s, Linear, param, input) == Ok((Scale(Normalized(m, input), Magnitude(m, input)), s))
  {
    MagnitudeNonNegative(m, input);
  }
}

=== FILE: csv_line.dfy ===
/** The static CSV line serialiser shared by the data files: the values
    separated by commas and terminated by CR LF. */
module CsvLine {
  import opened Strings

  const LineEnd: string := "\r\n"

  /** The values joined by commas, then the line end. */
  function Line(vals: seq<string>): string
    requires |vals| >= 1
  {
    Join(vals, ',') + LineEnd
  }

  /** When no value holds a comma, the line without its end splits back into
      the values, and it holds exactly one comma fewer than there are values. */
  lemma LineFields(vals: seq<string>)
    requires |vals| >= 1
    requires forall k :: 0 <= k < |vals| ==> ',' !in vals[k]
    ensures var line := Line(vals);
      && Split(line[..|line| - 2], ',') == vals
      && Count(line, ',') == |vals| - 1
  {
    var line := Line(vals);
    assert line[..|line| - 2] == Join(vals, ',');
    SplitJoin(vals, ',');
    SplitLength(Join(vals, ','), ',');
    CountAppend(Join(vals, ','), LineEnd, ',');
    CountAbsent(LineEnd, ',');
  }

  /** DataManager.ToCSVLine: the first value, then a comma and each later
      value in turn, then the line end. Indexing the first value fails on an
      empty array, so the array must not be empty. */
  method ToCSVLine(vals: seq<string>) returns (line: string)
    requires |vals| >= 1
    ensures line == Line(vals)
  {
    var output := vals[0];
    var i := 1;
    while i < |vals|
      invariant 1 <= i <= |vals|
      invariant output == Join(vals[..i], ',')
    {
      JoinSnoc(vals[..i], vals[i], ',');
      assert vals[..i] + [vals[i]] == vals[..i + 1];
      output := output + "," + vals[i];
      i := i + 1;
    }
    assert vals[..i] == vals;
    line := output + LineEnd;
  }

  /** Joining one more piece appends the separator and the piece. */
  lemma {:induction false} JoinSnoc(ts: seq<string>, t: string, c: char)
    requires |ts| >= 1
    ensures Join(ts + [t], c) == Join(ts, c) + [c] + t
  {
    if |ts| == 1 {
      assert (ts + [t])[1..] == [t];
    } else {
      assert (ts + [t])[1..] == ts[1..] + [t];
      JoinSnoc(ts[1..], t, c);
    }
  }
}

=== FILE: cvector.dfy ===
/** CVector: a vector setting with a componentwise order, used by the
    configuration for colours, rotations and sizes. */
module CVector {
  import opened UnityMath
  import opened Strings
  import opened Wrappers

  datatype CVector = CVector(value: Vec3)

  /** Every component of a is at most the one of b. */
  predicate Below(a: Vec3, b: Vec3) {
    a.x <= b.x && a.y <= b.y && a.z <= b.z
  }

  /** Every component of a is less than the one of b. */
  predicate StrictlyBelow(a: Vec3, b: Vec3) {
    a.x < b.x && a.y < b.y && a.z < b.z
  }

  /** CompareTo(Vector3): 0 for an equal vector, -1 when every component is
      strictly smaller, 1 otherwise. */
  function CompareToVector(a: CVector, other: Vec3): (r: int)
    ensures r == 0 <==> a.value == other
    ensures r == -1 <==> StrictlyBelow(a.value, other)
    ensures r == 1 <==> a.value != other && !StrictlyBelow(a.value, other)
  {
    if a.value == other then 0
    else if a.value.x < other.x && a.value.y < other.y && a.value.z < other.z then -1
    else 1
  }

  /** CompareTo(CVector): 0 for equal vectors, -1 when different and every
      component is at most the other's, 1 otherwise. */
  function CompareTo(a: CVector, b: CVector): (r: int)
    ensures r == 0 <==> a == b
    ensures r == -1 <==> a != b && Below(a.value, b.value)
    ensures r == 1 <==> a != b && !Below(a.value, b.value)
  {
    if a.value == b.value then 0
    else if a.value.x <= b.value.x && a.value.y <= b.value.y && a.value.z <= b.value.z then -1
    else 1
  }

  /** Equals, for both overloads: the vectors are exactly equal. */
  predicate Equals(a: CVector, b: CVector) { a.value == b.value }

  /** Two different vectors are never each below the other, so -1 never
      comes back both ways; 0 is symmetric. */
  lemma Antisymmetry(a: CVector, b: CVector)
    ensures !(CompareTo(a, b) == -1 && CompareTo(b, a) == -1)
    ensures CompareTo(a, b) == 0 <==> CompareTo(b, a) == 0
    ensures CompareTo(a, b) == 0 <==> Equals(a, b)
  {
  }

  /** The two overloads disagree exactly on different vectors that are
      below but share some component: CompareTo(CVector) says -1 and
      CompareTo(Vector3) says 1. */
  lemma OverloadsDisagree(a: CVector, b: CVector)
    ensures CompareTo(a, b) != CompareToVector(a, b.value) <==>
      a != b && Below(a.value, b.value) && !StrictlyBelow(a.value, b.value)
    ensures CompareTo(a, b) != CompareToVector(a, b.value) ==>
      CompareTo(a, b) == -1 && CompareToVector(a, b.value) == 1
  {
  }

  /** The string constructor: the parsed vector, or an exception. */
  function FromString(f: Format, s: string): (r: Result<CVector>)
    ensures r.Ok? <==> f.parseVec(s).Some?
    ensures r.Err? ==> r.error == "Tried to parse \"" + s + "\" as a vector."
  {
    match f.parseVec(s)
    case Some((x, y, z)) => Ok(CVector(Vec3(x, y, z)))
    case None => Err("Tried to parse \"" + s + "\" as a vector.")
  }

  /** The implicit conversion from a string: the parsed vector, or null. */
  function Implicit(f: Format, s: string): (r: Option<CVector>)
    ensures r.Some? <==> f.parseVec(s).Some?
  {
    match f.parseVec(s)
    case Some((x, y, z)) => Some(CVector(Vec3(x, y, z)))
    case None => None
  }

  /** Both conversions accept the same strings and give the same vector;
      they differ only in how they fail, and a rendered triple reads back
      as its rounded components, which are the components themselves when
      they print exactly. */
  lemma ConversionsAgree(f: Format, s: string)
    ensures Implicit(f, s).Some? <==> FromString(f, s).Ok?
    ensures Implicit(f, s).Some? ==> Implicit(f, s).value == FromString(f, s).value
    ensures SoundFormat(f) ==> forall a, b, c ::
      Implicit(f, Triple(f, a, b, c)) == Some(CVector(Vec3(Rounded(f, a), Rounded(f, b), Rounded(f, c))))
    ensures SoundFormat(f) ==> forall a, b, c :: ExactTriple(f, (a, b, c)) ==>
      Implicit(f, Triple(f, a, b, c)) == Some(CVector(Vec3(a, b, c)))
  {
  }
}

=== FILE: data_manager.dfy ===
/** The data manager's bookkeeping: the per-test folder path, the writer
    flag, the frame and time a test started at, and the result row. File and
    folder creation and the collectors are not modelled. */
module DataManager {
  import opened Strings
  import opened Wrappers
  import opened TestCases
  import CsvLine

  datatype DataManager = DataManager(
    active: bool,
    rootDataPath: string,
    dataPath: string,
    testPath: string,
    startingFrame: int,
    startingTime: real,
    writerOn: bool)

  /** The folder a trial type writes into; robot runs get none. */
  function TypeFolder(t: TrialType): string {
    match t
    case Trial => "\\TRIAL"
    case Practice => "\\PRACTICE"
    case Robot => ""
  }

  /** StartNewTest: the test path is the data path, the type folder, the test
      number folder and the clock folder; the start frame and time are
      recorded and the writer is switched on. */
  function StartNewTest(f: Format, d: DataManager, testNumber: int, t: TrialType,
                        frame: int, time: real, clock: string): (r: DataManager)
    ensures r.writerOn && r.startingFrame == frame && r.startingTime == time
    ensures r.testPath == d.dataPath + TypeFolder(t) + "\\Test_#" + f.showInt(testNumber) + "\\" + clock
    ensures r.(testPath := d.testPath, startingFrame := d.startingFrame, startingTime := d.startingTime,
               writerOn := d.writerOn) == d
  {
    var path := d.dataPath + TypeFolder(t) + "\\Test_#" + f.showInt(testNumber) + "\\" + clock;
    d.(testPath := path, startingFrame := frame, startingTime := time, writerOn := true)
  }

  /** The test path extends the data path, and the text right after it tells
      the three trial types apart, so their folders never coincide. */
  lemma TestPathsSeparateTypes(f: Format, d: DataManager, n1: int, n2: int, t1: TrialType, t2: TrialType,
                               fr1: int, fr2: int, tm1: real, tm2: real, c1: string, c2: string)
    requires t1 != t2
    ensures var p1 := StartNewTest(f, d, n1, t1, fr1, tm1, c1).testPath;
      var p2 := StartNewTest(f, d, n2, t2, fr2, tm2, c2).testPath;
      && StartsWith(p1, d.dataPath) && StartsWith(p2, d.dataPath)
      && p1 != p2
  {
    var p1 := StartNewTest(f, d, n1, t1, fr1, tm1, c1).testPath;
    var p2 := StartNewTest(f, d, n2, t2, fr2, tm2, c2).testPath;
    var k := |d.dataPath|;
    assert p1[..k] == d.dataPath && p2[..k] == d.dataPath;
    assert p1[k + 1] == TypeMark(t1).0 && p1[k + 2] == TypeMark(t1).1
        && p2[k + 1] == TypeMark(t2).0 && p2[k + 2] == TypeMark(t2).1 by {
      assert p1[k..] == TypeFolder(t1) + "\\Test_#" + f.showInt(n1) + "\\" + c1;
      assert p2[k..] == TypeFolder(t2) + "\\Test_#" + f.showInt(n2) + "\\" + c2;
    }
  }

  /** The two characters after the separator that follows the data path:
      "TR" for a trial, "PR" for a practice and "Te" for a robot run. */
  function TypeMark(t: TrialType): (char, char) {
    match t
    case Trial => ('T', 'R')
    case Practice => ('P', 'R')
    case Robot => ('T', 'e')
  }

  function Running(d: DataManager): bool { d.writerOn }

  /** The result file's header row. */
  const ResultColumns: string := "Catch,Total_time,Total_frames\r\n"

  /** The code written for a result: 1 for a catch, 0 otherwise. */
  function ResultCode(caught: bool): int { if caught then 1 else 0 }

  /** The result row: the result code, the elapsed time and the elapsed
      frames. */
  function ResultRow(f: Format, d: DataManager, caught: bool, time: real, frame: int): string {
    CsvLine.Line([f.showInt(ResultCode(caught)), f.showReal(time - d.startingTime), f.showInt(frame - d.startingFrame)])
  }

  /** CompleteTest: the writer is switched off and the result file holds the
      header and the result row. */
  function CompleteTest(f: Format, d: DataManager, caught: bool, time: real, frame: int): (r: (DataManager, string))
    ensures r.0 == d.(writerOn := false) && !Running(r.0)
    ensures r.1 == ResultColumns + ResultRow(f, d, caught, time, frame)
  {
    (d.(writerOn := false), ResultColumns + ResultRow(f, d, caught, time, frame))
  }

  /** Under a sound format the result row has three fields; the first reads
      1 exactly when the ball was caught, the second reads the elapsed time
      rounded and the third the elapsed frames. */
  lemma ResultRowReads(f: Format, d: DataManager, caught: bool, time: real, frame: int)
    requires SoundFormat(f)
    ensures var row := ResultRow(f, d, caught, time, frame);
      var fields := Split(row[..|row| - 2], ',');
      && |fields| == 3
      && (f.parseInt(fields[0]) == Some(1) <==> caught)
      && f.parseReal(fields[1]) == Some(Rounded(f, time - d.startingTime))
      && f.parseInt(fields[2]) == Some(frame - d.startingFrame)
  {
    var vals := [f.showInt(ResultCode(caught)), f.showReal(time - d.startingTime), f.showInt(frame - d.startingFrame)];
    assert Plain(vals[0]) && Plain(vals[1]) && Plain(vals[2]);
    CsvLine.LineFields(vals);
    RoundedParses(f, time - d.startingTime);
  }

  /** ResetWriter: both paths cleared, the start frame and time zeroed and
      the writer off. */
  function ResetWriter(d: DataManager): (r: DataManager)
    ensures r.dataPath == "" && r.testPath == "" && r.startingFrame == 0 && r.startingTime == 0.0 && !r.writerOn
    ensures r.active == d.active && r.rootDataPath == d.rootDataPath
  {
    d.(dataPath := "", testPath := "", startingFrame := 0, startingTime := 0.0, writerOn := false)
  }

  /** The writer runs from StartNewTest until CompleteTest or ResetWriter. */
  lemma WriterLifecycle(f: Format, d: DataManager, n: int, t: TrialType, frame: int, time: real, clock: string)
    ensures Running(StartNewTest(f, d, n, t, frame, time, clock))
    ensures !Running(ResetWriter(StartNewTest(f, d, n, t, frame, time, clock)))
    ensures StartNewTest(f, d, n, t, frame, time, clock).dataPath == d.dataPath
  {
  }
}

=== FILE: goac.dfy ===
/** The Generalised Optical Acceleration Cancellation strategy. From one
    snapshot it fixes the initial distance deltaP0 and two rates K and H; later
    every ball position yields a ground point on a circle of radius r around
    the ball (the elevation condition) and on a line through the ball (the
    azimuth condition). */
module Goac {
  import opened UnityMath
  import opened Vector3Extensions

  /** The constants fixed at initialisation, with the snapshot ball position. */
  datatype GoacParams = GoacParams(initialBallPosition: Vec3, k: real, h: real, deltaP0: real)

  /** The private Initialise: deltaP0 is the full 3-D distance between ball
      and catcher, K compares the vertical rate with the horizontal one, and H
      divides the ball's z velocity by the catcher's x coordinate. */
  function Fix(m: Maths, velocity: Vec3, ball0: Vec3, catcher0: Vec3): GoacParams {
    var deltaP0 := Magnitude(m, Sub(ball0, catcher0));
    var k := Quot(m, velocity.y, ball0.y) - Quot(m, Magnitude(m, XZ(velocity)), deltaP0);
    var h := Quot(m, velocity.z, catcher0.x);
    GoacParams(ball0, k, h, deltaP0)
  }

  /** The initial distance is a magnitude, hence never negative. */
  lemma DeltaNonNegative(m: Maths, velocity: Vec3, ball0: Vec3, catcher0: Vec3)
    requires SqrtSound(m)
    ensures Fix(m, velocity, ball0, catcher0).deltaP0 >= 0.0
  {
    MagnitudeNonNegative(m, Sub(ball0, catcher0));
  }

  /** The alpha radius at time t for the current ball position. */
  function Radius(m: Maths, g: GoacParams, t: real, ball: Vec3): real {
    Quot(m, g.deltaP0 * ball.y, g.initialBallPosition.y * (1.0 + g.k * t))
  }

  /** The length factor sqrt((H t)^2 + 1) of the delta line. */
  function LineNorm(m: Maths, g: GoacParams, t: real): real {
    var ht := g.h * t;
    m.sqrt(ht * ht + 1.0)
  }

  /** The offset from the ball's ground point to the predicted point. */
  function Offset(m: Maths, g: GoacParams, t: real, ball: Vec3): (r: Vec3)
    ensures r.y == 0.0
  {
    var bx := Quot(m, Radius(m, g, t, ball), LineNorm(m, g, t));
    Vec3(bx, 0.0, bx * (g.h * t))
  }

  /** The private UpdatePrediction: the ball's ground point plus the offset. */
  function Predict(m: Maths, g: GoacParams, t: real, ball: Vec3): (r: Vec3)
    ensures r.y == 0.0
  {
    Add(XZ(ball), Offset(m, g, t, ball))
  }

  /** The line norm is positive and squares to (H t)^2 + 1. */
  lemma LineNormPositive(m: Maths, g: GoacParams, t: real)
    requires SqrtSound(m)
    ensures LineNorm(m, g, t) > 0.0
    ensures LineNorm(m, g, t) * LineNorm(m, g, t) == (g.h * t) * (g.h * t) + 1.0
  {
    var ht := g.h * t;
    SquareNonNegative(ht);
    var n := m.sqrt(ht * ht + 1.0);
    assert n >= 0.0 && n * n == ht * ht + 1.0;
  }

  lemma SquareNonNegative(a: real)
    ensures a * a >= 0.0
  {
    if a < 0.0 {
      assert a * a == (-a) * (-a);
    }
  }

  /** The offset lies on the circle of radius |r| around the ball's ground
      point, on the delta line z = H t x, and its x has the sign of r. */
  lemma OffsetGeometry(m: Maths, g: GoacParams, t: real, ball: Vec3)
    requires SqrtSound(m)
    ensures var o, r := Offset(m, g, t, ball), Radius(m, g, t, ball);
      && o.x * o.x + o.z * o.z == r * r
      && o.z == (g.h * t) * o.x
      && (r > 0.0 <==> o.x > 0.0) && (r < 0.0 <==> o.x < 0.0) && (r == 0.0 <==> o.x == 0.0)
  {
    LineNormPositive(m, g, t);
    var n := LineNorm(m, g, t);
    var r := Radius(m, g, t, ball);
    var bx := Quot(m, r, n);
    assert bx * n == r;
    CircleAlgebra(r, n, g.h * t, bx);
    SignOfQuotient(r, n, bx);
  }

  /** With n n = h h + 1 and bx n = r, the point (bx, bx h) is at distance |r|. */
  lemma CircleAlgebra(r: real, n: real, h: real, bx: real)
    requires n * n == h * h + 1.0 && bx * n == r
    ensures bx * bx + (bx * h) * (bx * h) == r * r
  {
    calc {
      bx * bx + (bx * h) * (bx * h);
      (bx * bx) * (h * h + 1.0);
      (bx * bx) * (n * n);
      (bx * n) * (bx * n);
    }
  }

  lemma SignOfQuotient(r: real, n: real, bx: real)
    requires n > 0.0 && bx * n == r
    ensures (r > 0.0 <==> bx > 0.0) && (r < 0.0 <==> bx < 0.0) && (r == 0.0 <==> bx == 0.0)
  {
    if bx > 0.0 {
      assert bx * n > 0.0;
    } else if bx < 0.0 {
      assert (-bx) * n > 0.0;
    }
  }

  /** The prediction is a ground point whose horizontal distance from the
      ball's ground point is |r|. */
  lemma PredictOnCircle(m: Maths, g: GoacParams, t: real, ball: Vec3)
    requires SqrtSound(m)
    ensures var p, r := Predict(m, g, t, ball), Radius(m, g, t, ball);
      && p.y == 0.0
      && (p.x - ball.x) * (p.x - ball.x) + (p.z - ball.z) * (p.z - ball.z) == r * r
  {
    OffsetGeometry(m, g, t, ball);
  }

  /** At t = 0, with the ball back at its snapshot position off the ground,
      the radius is deltaP0 and the point lies deltaP0 ahead of the ball in x. */
  lemma PredictAtStart(m: Maths, velocity: Vec3, ball0: Vec3, catcher0: Vec3)
    requires SqrtSound(m)
    requires ball0.y != 0.0
    ensures var g := Fix(m, velocity, ball0, catcher0);
      && Radius(m, g, 0.0, ball0) == g.deltaP0
      && Predict(m, g, 0.0, ball0) == Vec3(ball0.x + g.deltaP0, 0.0, ball0.z)
  {
    var g := Fix(m, velocity, ball0, catcher0);
    StartRadius(m, g, ball0);
    SqrtOf(m, 1.0, 1.0);
    assert LineNorm(m, g, 0.0) == 1.0;
  }

  lemma StartRadius(m: Maths, g: GoacParams, ball0: Vec3)
    requires g.initialBallPosition == ball0 && ball0.y != 0.0
    ensures Radius(m, g, 0.0, ball0) == g.deltaP0
  {
    assert g.initialBallPosition.y * (1.0 + g.k * 0.0) == ball0.y;
    assert (g.deltaP0 * ball0.y) / ball0.y == g.deltaP0;
  }

  /** The strategy component: its configured start delay, its constants, the
      ready flag and the last predicted position. */
  datatype GoacStrategy = GoacStrategy(initialTime: real, params: GoacParams, ready: bool, position: Vec3)

  /** The component as first created: not ready, starting after 0.5 s. */
  function NewStrategy(): (s: GoacStrategy)
    ensures !s.ready && s.initialTime == 0.5
  {
    GoacStrategy(0.5, GoacParams(Zero, 0.0, 0.0, 0.0), false, Zero)
  }

  /** The public Initialise: fix the constants from the snapshot, become ready. */
  function Initialise(m: Maths, s: GoacStrategy, velocity: Vec3, ball: Vec3, catcher: Vec3): (r: GoacStrategy)
    ensures r.ready && r.initialTime == s.initialTime && r.position == s.position
    ensures r.params.initialBallPosition == ball
  {
    s.(params := Fix(m, velocity, ball, catcher), ready := true)
  }

  /** The public UpdatePrediction: nothing unless ready; otherwise the inner
      prediction at the time elapsed since initialTime. */
  function UpdatePrediction(m: Maths, s: GoacStrategy, t: real, ball: Vec3): (r: GoacStrategy)
    ensures !s.ready ==> r == s
    ensures s.ready ==> r.position.y == 0.0 && r.(position := s.position) == s
  {
    if !s.ready then s else s.(position := Predict(m, s.params, t - s.initialTime, ball))
  }

  function Terminate(s: GoacStrategy): (r: GoacStrategy)
    ensures !r.ready && r.(ready := s.ready) == s
  {
    s.(ready := false)
  }

  function IsReady(s: GoacStrategy): bool { s.ready }

  function GetPrediction(s: GoacStrategy): Vec3 { s.position }

  function TimeToInit(s: GoacStrategy): real { s.initialTime }

  /** Through the public interface: initialising from a snapshot and updating
      initialTime seconds later with the ball where it was gives the ball's
      ground point moved deltaP0 along x. */
  lemma PublicStart(m: Maths, s: GoacStrategy, velocity: Vec3, ball: Vec3, catcher: Vec3)
    requires SqrtSound(m)
    requires ball.y != 0.0
    ensures var s1 := Initialise(m, s, velocity, ball, catcher);
      GetPrediction(UpdatePrediction(m, s1, s.initialTime, ball))
        == Vec3(ball.x + s1.params.deltaP0, 0.0, ball.z)
  {
    PredictAtStart(m, velocity, ball, catcher);
    var s1 := Initialise(m, s, velocity, ball, catcher);
    assert s.initialTime - s1.initialTime == 0.0;
  }

  /** The ready flag: set by Initialise, cleared by Terminate, and an update
      after Terminate changes nothing. */
  lemma ReadyLifecycle(m: Maths, s: GoacStrategy, velocity: Vec3, ball: Vec3, catcher: Vec3, t: real)
    ensures IsReady(Initialise(m, s, velocity, ball, catcher))
    ensures var s2 := Terminate(Initialise(m, s, velocity, ball, catcher));
      !IsReady(s2) && UpdatePrediction(m, s2, t, ball) == s2
  {
  }
}

=== FILE: grapher.dfy ===
/** The arithmetic behind the live angle graphs: the growth of a graph's
    vertical scale when a value exceeds it, the rescaling of the points
    already drawn, the point appended, and the moving-sum low-pass filter. */
module Grapher {
  import opened Wrappers
  import opened UnityMath

  /** The drawing area, in graph units. */
  const GraphHeight: real := 100.0
  const GraphWidth: real := 150.0

  /** The scale after k growth steps of 20% each. */
  function GrowTimes(maxValue: real, k: nat): real {
    if k == 0 then maxValue
    else
      var p := GrowTimes(maxValue, k - 1);
      p + p * 0.2
  }

  /** From a positive scale, growth never shrinks the scale. */
  lemma {:induction false} GrowthIncreases(maxValue: real, k: nat)
    requires maxValue > 0.0
    ensures GrowTimes(maxValue, k) >= maxValue
  {
    if k > 0 {
      GrowthIncreases(maxValue, k - 1);
    }
  }

  /** From a scale of zero or below, growth never raises the scale, so once
      a value exceeds it the do-while loop runs forever: the loop ends only
      on a positive starting scale. */
  lemma {:induction false} GrowthNeverEnds(value: real, maxValue: real, k: nat)
    requires maxValue <= 0.0 && Abs(value) > maxValue
    ensures GrowTimes(maxValue, k) <= maxValue
    ensures Abs(value) > GrowTimes(maxValue, k)
  {
    if k > 0 {
      GrowthNeverEnds(value, maxValue, k - 1);
    }
  }

  /** One growth step brings the loop measure down by at least one. */
  lemma MeasureDrops(gap: real, step: real, d: real)
    requires d > 0.0 && step >= d && gap > 0.0
    ensures (gap / d).Floor >= 0
    ensures ((gap - step) / d).Floor <= (gap / d).Floor - 1
  {
    assert gap / d > 0.0;
    assert (gap - step) / d == gap / d - step / d;
    assert step / d >= 1.0;
  }

  /** The height at which a value is drawn on the scale maxValue. */
  function Height(value: real, maxValue: real): real
    requires maxValue > 0.0
  {
    value * (GraphHeight / 2.0) / maxValue
  }

  /** A point: its time across, its value up, depth zero. */
  function Point(m: Maths, value: real, time: real, maxValue: real, maximumTime: real): Vec3
    requires maxValue > 0.0
  {
    Vec3(Quot(m, time * GraphWidth, maximumTime), Height(value, maxValue), 0.0)
  }

  /** The points drawn so far plot the given values at the scale maxValue. */
  ghost predicate Plotted(points: seq<Vec3>, values: seq<real>, maxValue: real)
    requires maxValue > 0.0
  {
    |points| == |values| &&
    forall i :: 0 <= i < |points| ==> points[i].y == Height(values[i], maxValue)
  }

  /** Every point lies in the drawing area's vertical band [-50, 50]. */
  ghost predicate InBand(points: seq<Vec3>) {
    forall i :: 0 <= i < |points| ==> -GraphHeight / 2.0 <= points[i].y <= GraphHeight / 2.0
  }

  /** A value within the scale is drawn inside the band. */
  lemma ValueInBand(v: real, maxValue: real)
    requires maxValue > 0.0 && Abs(v) <= maxValue
    ensures -GraphHeight / 2.0 <= Height(v, maxValue) <= GraphHeight / 2.0
  {
    var r := Height(v, maxValue);
    assert r * maxValue == v * 50.0;
    FactorSign(50.0 - r, maxValue);
    FactorSign(r + 50.0, maxValue);
  }

  /** A drawn point moved from one scale to another. */
  function Rescaled(p: Vec3, oldMax: real, newMax: real): Vec3
    requires newMax > 0.0
  {
    p.(y := p.y * oldMax / newMax)
  }

  /** Rescaling a point drawn at one scale by oldMax/newMax draws it at the
      other. */
  lemma RescaleHeight(p: Vec3, v: real, oldMax: real, newMax: real)
    requires oldMax > 0.0 && newMax > 0.0 && p.y == Height(v, oldMax)
    ensures Rescaled(p, oldMax, newMax).y == Height(v, newMax)
  {
    assert p.y * oldMax == v * 50.0;
  }

  /** The scale growth of AddToLine: unchanged when the value fits; otherwise
      grown by 20% at least once and until the value fits, so the result is
      a power-of-1.2 multiple of the old scale below 1.2 times the value. */
  method Grow(value: real, maxValue: real) returns (newMax: real)
    requires maxValue > 0.0
    ensures Abs(value) <= newMax && newMax >= maxValue
    ensures Abs(value) <= maxValue ==> newMax == maxValue
    ensures Abs(value) > maxValue ==> newMax < 1.2 * Abs(value)
    ensures exists k: nat :: newMax == GrowTimes(maxValue, k)
  {
    newMax := maxValue;
    if Abs(value) > maxValue {
      var d := maxValue * 0.2;
      ghost var k: nat := 1;
      newMax := newMax + newMax * 0.2;
      assert newMax == GrowTimes(maxValue, 1);
      assert newMax < 1.2 * Abs(value);
      while Abs(value) > newMax
        invariant newMax == GrowTimes(maxValue, k) && newMax >= maxValue
        invariant newMax < 1.2 * Abs(value)
        decreases ((Abs(value) - newMax) / d).Floor
      {
        MeasureDrops(Abs(value) - newMax, newMax * 0.2, d);
        newMax := newMax + newMax * 0.2;
        k := k + 1;
      }
      assert newMax == GrowTimes(maxValue, k);
    } else {
      assert newMax == GrowTimes(maxValue, 0);
    }
  }

  /** AddToLine: grows the scale until the value fits, rescales the points
      already drawn when it grew, and appends the value's point. Points that
      plotted earlier values at the old scale plot them at the new one, the
      new point plots the value, and values within the scale stay in the
      band. */
  method AddToLine(m: Maths, value: real, time: real, maxValue: real, points: seq<Vec3>,
                   maximumTime: real, ghost values: seq<real>)
    returns (newMax: real, newPoints: seq<Vec3>)
    requires maxValue > 0.0
    ensures Abs(value) <= newMax && newMax >= maxValue
    ensures |newPoints| == |points| + 1
    ensures Abs(value) <= maxValue ==> newMax == maxValue && newPoints[..|points|] == points
    ensures Abs(value) > maxValue ==> newMax < 1.2 * Abs(value)
    ensures newPoints[|points|] == Point(m, value, time, newMax, maximumTime)
    ensures forall i :: 0 <= i < |points| ==>
      newPoints[i].x == points[i].x && newPoints[i].z == points[i].z
    ensures Plotted(points, values, maxValue) ==> Plotted(newPoints, values + [value], newMax)
    ensures Plotted(points, values, maxValue) && (forall i :: 0 <= i < |values| ==> Abs(values[i]) <= maxValue)
      ==> InBand(newPoints)
  {
    newMax := maxValue;
    var drawn := points;
    if Abs(value) > maxValue {
      var oldMax := maxValue;
      newMax := Grow(value, maxValue);
      var i := 0;
      while i < |drawn|
        invariant 0 <= i <= |drawn| == |points|
        invariant drawn[i..] == points[i..]
        invariant forall j :: 0 <= j < i ==> drawn[j] == Rescaled(points[j], oldMax, newMax)
      {
        drawn := drawn[i := Rescaled(drawn[i], oldMax, newMax)];
        i := i + 1;
        assert drawn[i..] == points[i..];
      }
    }
    assert |drawn| == |points|;
    assert Abs(value) > maxValue ==> forall j :: 0 <= j < |points| ==>
      drawn[j] == Rescaled(points[j], maxValue, newMax);
    assert Abs(value) <= maxValue ==> drawn == points;
    newPoints := drawn + [Point(m, value, time, newMax, maximumTime)];
    assert newPoints[..|points|] == drawn;
    if Plotted(points, values, maxValue) {
      forall i | 0 <= i < |points|
        ensures newPoints[i].y == Height(values[i], newMax)
      {
        assert newPoints[i] == drawn[i];
        if Abs(value) > maxValue {
          RescaleHeight(points[i], values[i], maxValue, newMax);
        }
      }
      assert Plotted(newPoints, values + [value], newMax);
      if forall i :: 0 <= i < |values| ==> Abs(values[i]) <= maxValue {
        forall i | 0 <= i < |newPoints|
          ensures -GraphHeight / 2.0 <= newPoints[i].y <= GraphHeight / 2.0
        {
          if i < |points| {
            ValueInBand(values[i], newMax);
          } else {
            ValueInBand(value, newMax);
          }
        }
      }
    }
  }

  /** Sum of a run of samples. */
  function Sum(s: seq<real>): real {
    if |s| == 0 then 0.0 else Sum(s[..|s| - 1]) + s[|s| - 1]
  }

  /** The sum taken from the front. */
  lemma {:induction false} SumFront(s: seq<real>)
    requires |s| > 0
    ensures Sum(s) == s[0] + Sum(s[1..])
  {
    if |s| > 1 {
      SumFront(s[..|s| - 1]);
      assert s[..|s| - 1][1..] == s[1..][..|s| - 2];
    }
  }

  /** n copies of c sum to n times c. */
  lemma {:induction false} SumConstant(s: seq<real>, c: real)
    requires forall i :: 0 <= i < |s| ==> s[i] == c
    ensures Sum(s) == |s| as real * c
  {
    if |s| > 0 {
      SumConstant(s[..|s| - 1], c);
    }
  }

  /** The filter's buffer of the most recent samples, oldest first. */
  datatype LowPassFilter = LowPassFilter(samples: seq<real>)

  /** The constructor: numSamples zero samples; a negative size overflows. */
  function NewFilter(numSamples: int): (r: Result<LowPassFilter>)
    ensures r.Ok? <==> numSamples >= 0
    ensures r.Ok? ==> |r.value.samples| == numSamples && forall i :: 0 <= i < numSamples ==> r.value.samples[i] == 0.0
  {
    if numSamples < 0 then Err("Arithmetic operation resulted in an overflow.")
    else Ok(LowPassFilter(seq(numSamples, _ => 0.0)))
  }

  /** Filter: shifts the buffer one place towards the front, the new sample
      entering at the back, and returns the new sample plus every old sample
      but the newest, over the buffer length. An empty buffer throws. */
  method Filter(f: LowPassFilter, x: real) returns (r: Result<(LowPassFilter, real)>)
    ensures r.Err? <==> |f.samples| == 0
    ensures r.Ok? ==> r.value.0.samples == f.samples[1..] + [x]
    ensures r.Ok? ==> r.value.1 == (x + Sum(f.samples[..|f.samples| - 1])) / |f.samples| as real
  {
    if |f.samples| == 0 {
      // the loop runs no times and the write to slot -1 throws
      return Err("Index was outside the bounds of the array.");
    }
    var buf := f.samples;
    var sum := x;
    var i := 0;
    while i < |buf| - 1
      invariant |buf| == |f.samples| && 0 <= i <= |buf| - 1
      invariant buf[..i] == f.samples[1..i + 1]
      invariant buf[i..] == f.samples[i..]
      invariant sum == x + Sum(f.samples[..i])
    {
      assert f.samples[..i + 1][..i] == f.samples[..i];
      assert buf[i] == f.samples[i];
      sum := sum + buf[i];
      buf := buf[i := buf[i + 1]];
      i := i + 1;
      assert buf[i..] == f.samples[i..];
    }
    buf := buf[|buf| - 1 := x];
    assert buf == f.samples[1..] + [x];
    r := Ok((LowPassFilter(buf), sum / |buf| as real));
  }

  /** The filter is not the window's mean: n times its output differs from
      the sum of the new buffer by the oldest old sample minus the newest
      old one. */
  lemma FilterVersusWindow(s: seq<real>, x: real)
    requires |s| > 0
    ensures x + Sum(s[..|s| - 1]) == Sum(s[1..] + [x]) + s[0] - s[|s| - 1]
  {
    SumFront(s);
    var w := s[1..] + [x];
    assert w[..|w| - 1] == s[1..];
  }

  /** A steady signal passes unchanged: with every sample equal to the new
      one, the filter returns it. */
  lemma SteadySignal(s: seq<real>, c: real)
    requires |s| > 0 && forall i :: 0 <= i < |s| ==> s[i] == c
    ensures (c + Sum(s[..|s| - 1])) / |s| as real == c
  {
    SumConstant(s[..|s| - 1], c);
  }
}

=== FILE: last_result.dfy ===
/** The last-result panel: it shows CATCH or MISS after each run and keeps
    the number of caught trials until the total is shown. */
module LastResult {
  import opened TestCases

  datatype Panel = Panel(total: nat, text: string)

  /** Start: the total begins at zero. */
  function Initial(): (p: Panel)
    ensures p.total == 0
  {
    Panel(0, "")
  }

  /** Whether a run adds to the total: a catch in a Trial, not in a
      practice or a robot run. */
  predicate Scores(caught: bool, t: TrialType) {
    caught && t == Trial
  }

  /** UpdateResult: the text tells catch from miss, and the total grows by
      one exactly for a caught Trial. */
  function UpdateResult(p: Panel, caught: bool, t: TrialType): (r: Panel)
    ensures r.text == (if caught then "CATCH" else "MISS")
    ensures r.total == p.total + 1 <==> Scores(caught, t)
    ensures r.total == p.total <==> !Scores(caught, t)
  {
    if caught then Panel(if t == Trial then p.total + 1 else p.total, "CATCH")
    else Panel(p.total, "MISS")
  }

  /** ShowTotal: the text is the total, a slash and the number of runs, and
      the total is reset. */
  function ShowTotal(p: Panel, numRuns: int, showInt: int -> string): (r: Panel)
    ensures r.total == 0
    ensures r.text == showInt(p.total) + "/" + showInt(numRuns)
  {
    Panel(0, showInt(p.total) + "/" + showInt(numRuns))
  }

  /** The number of caught Trials in a list of results. */
  function Catches(results: seq<(bool, TrialType)>): nat {
    if |results| == 0 then 0
    else Catches(results[..|results| - 1]) + (if Scores(results[|results| - 1].0, results[|results| - 1].1) then 1 else 0)
  }

  /** Feeding the results one by one to UpdateResult leaves the total at
      its start value plus the caught Trials among them. */
  method UpdateAll(p: Panel, results: seq<(bool, TrialType)>) returns (r: Panel)
    ensures r.total == p.total + Catches(results)
    ensures |results| > 0 ==> r.text == (if results[|results| - 1].0 then "CATCH" else "MISS")
  {
    r := p;
    var i := 0;
    while i < |results|
      invariant 0 <= i <= |results|
      invariant r.total == p.total + Catches(results[..i])
      invariant i > 0 ==> r.text == (if results[i - 1].0 then "CATCH" else "MISS")
    {
      assert results[..i + 1][..i] == results[..i];
      r := UpdateResult(r, results[i].0, results[i].1);
      i := i + 1;
    }
    assert results[..i] == results;
  }

  /** Misses and practices never count, so a list of them leaves the total
      where it was. */
  lemma {:induction false} NoCatches(results: seq<(bool, TrialType)>)
    requires forall k :: 0 <= k < |results| ==> !results[k].0 || results[k].1 != Trial
    ensures Catches(results) == 0
  {
    if |results| > 0 {
      NoCatches(results[..|results| - 1]);
    }
  }

  /** The total counts runs: it never exceeds the number of results. */
  lemma {:induction false} CatchesAtMost(results: seq<(bool, TrialType)>)
    ensures Catches(results) <= |results|
  {
    if |results| > 0 {
      CatchesAtMost(results[..|results| - 1]);
    }
  }
}

=== FILE: lot.dfy ===
/** The Linear Optical Trajectory strategy. Its constants p and q are fixed
    from one snapshot of the ball and the catcher; afterwards every ball
    position maps to a predicted catcher position on the ground. All positions
    are first turned 30 degrees about the vertical axis and the prediction is
    turned back, to keep the formulas away from their singular configuration. */
module Lot {
  import opened UnityMath

  /** The fixed azimuth of the pre-rotation, in degrees. */
  const ShiftDegrees: real := 30.0

  /** The constants fixed at initialisation. */
  datatype LotParams = LotParams(p: real, q: real)

  /** The sum x + p z that both formulas use. */
  function Xpz(p: real, v: Vec3): real { v.x + p * v.z }

  /** The private Initialise: p from the sight line in the ground plane, q from
      p, the ball height and both positions. */
  function Fix(m: Maths, ball0: Vec3, catcher0: Vec3): LotParams {
    var p := Quot(m, ball0.x - catcher0.x, catcher0.z - ball0.z);
    var xpz := Xpz(p, ball0);
    var q := Quot(m, Quot(m, ball0.y, xpz) * (catcher0.x * (p * p + 1.0) - xpz), catcher0.x - ball0.x);
    LotParams(p, q)
  }

  /** A regular snapshot: the divisors of `Fix` are nonzero, so p and q are
      finite, the ball is off the ground and not on the line z = p x through
      the origin. Stated without division, by multiplying out p. */
  predicate FixRegular(b: Vec3, c: Vec3) {
    && c.z != b.z
    && c.x != b.x
    && b.y != 0.0
    && (c.z - b.z) * b.x + (b.x - c.x) * b.z != 0.0
    && (c.z - b.z) * b.z != (b.x - c.x) * b.x
  }

  /** The denominator of the prediction. */
  function Den(k: LotParams, ball: Vec3): real {
    ball.y * (k.p * k.p + 1.0) - k.q * Xpz(k.p, ball)
  }

  /** The private UpdatePrediction: a ground point computed from the current
      ball position alone; the time argument is not used. */
  function Predict(m: Maths, k: LotParams, t: real, ball: Vec3): (r: Vec3)
    ensures r.y == 0.0
  {
    var xpz := Xpz(k.p, ball);
    var part := Quot(m, xpz, Den(k, ball));
    Vec3((ball.y - k.q * ball.x) * part, 0.0, (k.p * ball.y - k.q * ball.z) * part)
  }

  /** The prediction does not depend on time. */
  lemma PredictIgnoresTime(m: Maths, k: LotParams, t1: real, t2: real, ball: Vec3)
    ensures Predict(m, k, t1, ball) == Predict(m, k, t2, ball)
  {
  }

  /** The numerators of the prediction are cx and cz times its nonzero
      denominator. */
  predicate NumeratorsFit(k: LotParams, b: Vec3, cx: real, cz: real) {
    DenNZ(k, b) && XFit(k, b, cx) && ZFit(k, b, cz)
  }

  /** The prediction is exactly (cx, 0, cz) when the numerators fit. */
  lemma PredictIs(m: Maths, k: LotParams, t: real, b: Vec3, cx: real, cz: real)
    requires NumeratorsFit(k, b, cx, cz)
    ensures Predict(m, k, t, b) == Vec3(cx, 0.0, cz)
  {
    DivStep(b.y - k.q * b.x, Xpz(k.p, b), Den(k, b), cx);
    DivStep(k.p * b.y - k.q * b.z, Xpz(k.p, b), Den(k, b), cz);
  }

  lemma DivStep(a: real, x: real, d: real, c: real)
    requires d != 0.0 && a * x == c * d
    ensures a * (x / d) == c
  {
    assert a * (x / d) == (a * x) / d;
  }

  /** p solves the first equation of `Fix`. */
  predicate SlopeFits(p: real, b: Vec3, c: Vec3) {
    p * (c.z - b.z) == b.x - c.x
  }

  /** q solves the second equation of `Fix`, multiplied out. */
  predicate HeightFits(p: real, q: real, b: Vec3, c: Vec3) {
    q * (c.x - b.x) * Xpz(p, b) == b.y * (c.x * (p * p + 1.0) - Xpz(p, b))
  }

  predicate ConstantsFit(k: LotParams, b: Vec3, c: Vec3) {
    SlopeFits(k.p, b, c) && HeightFits(k.p, k.q, b, c)
  }

  /** At fixation, with every divisor nonzero, the prediction for the very ball
      position the constants were fixed from is the catcher's own x and z. */
  lemma FixationIdentity(m: Maths, b: Vec3, c: Vec3, t: real)
    requires FixRegular(b, c)
    ensures Predict(m, Fix(m, b, c), t, b) == Vec3(c.x, 0.0, c.z)
  {
    FixConstants(m, b, c);
    ConstantsPredictCatcher(Fix(m, b, c), b, c);
    PredictIs(m, Fix(m, b, c), t, b, c.x, c.z);
  }

  /** From a regular snapshot, `Fix` solves both of its equations. */
  lemma FixConstants(m: Maths, b: Vec3, c: Vec3)
    requires FixRegular(b, c)
    ensures ConstantsFit(Fix(m, b, c), b, c)
  {
    FixSlope(m, b, c);
    RegularXpz(b, c, Fix(m, b, c).p);
    FixHeight(m, b, c);
  }

  lemma FixSlope(m: Maths, b: Vec3, c: Vec3)
    requires c.z != b.z
    ensures SlopeFits(Fix(m, b, c).p, b, c)
  {
  }

  lemma FixHeight(m: Maths, b: Vec3, c: Vec3)
    requires c.x != b.x
    requires Xpz(Fix(m, b, c).p, b) != 0.0
    ensures HeightFits(Fix(m, b, c).p, Fix(m, b, c).q, b, c)
  {
    var k := Fix(m, b, c);
    var xpz := Xpz(k.p, b);
    var q1 := Quot(m, b.y, xpz);
    var num := c.x * (k.p * k.p + 1.0) - xpz;
    assert k.q * (c.x - b.x) == q1 * num;
    QTimes(k.q, c.x - b.x, q1, num, xpz, b.y);
  }

  /** b.z - p b.x, the second quantity regularity keeps away from zero. */
  function W(p: real, b: Vec3): real { b.z - p * b.x }

  predicate Nondegenerate(p: real, b: Vec3) {
    Xpz(p, b) != 0.0 && W(p, b) != 0.0
  }

  /** What regularity gives once p solves its equation. */
  lemma RegularXpz(b: Vec3, c: Vec3, p: real)
    requires FixRegular(b, c) && SlopeFits(p, b, c)
    ensures Nondegenerate(p, b)
  {
    RegularSlope(b.x, b.z, c.x, p, c.z - b.z, b.x - c.x, Xpz(p, b));
  }

  /** Any constants solving the two equations of `Fix` for a regular snapshot
      make the numerators fit the catcher's ground point. */
  lemma ConstantsPredictCatcher(k: LotParams, b: Vec3, c: Vec3)
    requires FixRegular(b, c) && ConstantsFit(k, b, c)
    ensures NumeratorsFit(k, b, c.x, c.z)
  {
    RegularXpz(b, c, k.p);
    DenOfConstants(k, b, c);
    XOfConstants(k, b, c);
    ZOfConstants(k, b, c);
    DenNonZero(k, b, c);
    XFromProducts(k, b, c);
    ZFromProducts(k, b, c);
  }

  /** The product by p W shared by the three cross-multiplied identities. */
  function S(k: LotParams, b: Vec3): real { b.y * k.p * W(k.p, b) }

  predicate DenProduct(k: LotParams, b: Vec3, c: Vec3) {
    Den(k, b) * (c.x - b.x) == S(k, b)
  }

  predicate XProduct(k: LotParams, b: Vec3, c: Vec3) {
    (b.y - k.q * b.x) * Xpz(k.p, b) * (c.x - b.x) == c.x * S(k, b)
  }

  predicate ZProduct(k: LotParams, b: Vec3, c: Vec3) {
    (k.p * b.y - k.q * b.z) * Xpz(k.p, b) * (c.x - b.x) == c.z * S(k, b)
  }

  lemma DenOfConstants(k: LotParams, b: Vec3, c: Vec3)
    requires HeightFits(k.p, k.q, b, c)
    ensures DenProduct(k, b, c)
  {
    DenFact(b.x, b.y, b.z, c.x, k.p, k.q,
      k.q * (c.x - b.x) * Xpz(k.p, b), b.y * (c.x * (k.p * k.p + 1.0) - Xpz(k.p, b)));
  }

  lemma XOfConstants(k: LotParams, b: Vec3, c: Vec3)
    requires HeightFits(k.p, k.q, b, c)
    ensures XProduct(k, b, c)
  {
    XFact(b.x, b.y, b.z, c.x, k.p, k.q,
      k.q * (c.x - b.x) * Xpz(k.p, b), b.y * (c.x * (k.p * k.p + 1.0) - Xpz(k.p, b)));
  }

  lemma ZOfConstants(k: LotParams, b: Vec3, c: Vec3)
    requires SlopeFits(k.p, b, c) && HeightFits(k.p, k.q, b, c)
    ensures ZProduct(k, b, c)
  {
    ZFact(b.x, b.y, b.z, c.x, c.z, k.p, k.q,
      k.q * (c.x - b.x) * Xpz(k.p, b), b.y * (c.x * (k.p * k.p + 1.0) - Xpz(k.p, b)));
  }

  predicate DenNZ(k: LotParams, b: Vec3) { Den(k, b) != 0.0 }

  lemma DenNonZero(k: LotParams, b: Vec3, c: Vec3)
    requires FixRegular(b, c) && SlopeFits(k.p, b, c) && Nondegenerate(k.p, b)
    requires DenProduct(k, b, c)
    ensures DenNZ(k, b)
  {
    NonZeroSlope(k.p, c.z - b.z, b.x - c.x);
    NonZeroProduct3(b.y, k.p, W(k.p, b));
    NonZeroFactor(Den(k, b), c.x - b.x, S(k, b));
  }

  predicate XFit(k: LotParams, b: Vec3, cx: real) {
    (b.y - k.q * b.x) * Xpz(k.p, b) == cx * Den(k, b)
  }

  predicate ZFit(k: LotParams, b: Vec3, cz: real) {
    (k.p * b.y - k.q * b.z) * Xpz(k.p, b) == cz * Den(k, b)
  }

  lemma XFromProducts(k: LotParams, b: Vec3, c: Vec3)
    requires c.x != b.x && DenProduct(k, b, c) && XProduct(k, b, c)
    ensures XFit(k, b, c.x)
  {
    CancelWith((b.y - k.q * b.x) * Xpz(k.p, b), Den(k, b), c.x, c.x - b.x, S(k, b));
  }

  lemma ZFromProducts(k: LotParams, b: Vec3, c: Vec3)
    requires c.x != b.x && DenProduct(k, b, c) && ZProduct(k, b, c)
    ensures ZFit(k, b, c.z)
  {
    CancelWith((k.p * b.y - k.q * b.z) * Xpz(k.p, b), Den(k, b), c.z, c.x - b.x, S(k, b));
  }

  /** What regularity gives once p is known: xpz and bz - p bx are nonzero. */
  lemma RegularSlope(bx: real, bz: real, cx: real, p: real, d: real, e0: real, xpz: real)
    requires d != 0.0 && p * d == e0 && xpz == bx + p * bz
    requires d * bx + e0 * bz != 0.0
    requires d * bz != e0 * bx
    ensures xpz != 0.0
    ensures bz - p * bx != 0.0
  {
    TimesSlope(bx, bz, p, d, e0, xpz);
    UnscaledNonZero(xpz, d, d * bx + e0 * bz);
    UnscaledDistinct(bz, p * bx, d, e0 * bx);
  }

  lemma TimesSlope(bx: real, bz: real, p: real, d: real, e: real, xpz: real)
    requires p * d == e && xpz == bx + p * bz
    ensures xpz * d == d * bx + e * bz
    ensures (p * bx) * d == e * bx
  {
  }

  lemma UnscaledNonZero(u: real, d: real, v: real)
    requires u * d == v && v != 0.0
    ensures u != 0.0
  {
  }

  lemma UnscaledDistinct(u: real, w: real, d: real, v: real)
    requires w * d == v && u * d != v
    ensures u != w
  {
  }

  lemma NonZeroSlope(p: real, d: real, n: real)
    requires p * d == n && n != 0.0
    ensures p != 0.0
  {
  }

  lemma NonZeroFactor(a: real, b: real, s: real)
    requires a * b == s && s != 0.0
    ensures a != 0.0
  {
  }

  /** From a e = c s and d e = s with e nonzero, a = c d. */
  lemma CancelWith(a: real, d: real, c: real, e: real, s: real)
    requires e != 0.0 && a * e == c * s && d * e == s
    ensures a == c * d
  {
    assert c * s == (c * d) * e;
    CancelFactor(a, c * d, e);
  }

  lemma QTimes(q: real, e: real, q1: real, num: real, xpz: real, yb: real)
    requires q * e == q1 * num && q1 * xpz == yb
    ensures q * e * xpz == yb * num
  {
    calc {
      q * e * xpz;
      (q1 * num) * xpz;
      (q1 * xpz) * num;
      yb * num;
    }
  }

  lemma DenFact(bx: real, yb: real, bz: real, cx: real, p: real, q: real, qex: real, bn: real)
    requires qex == q * (cx - bx) * (bx + p * bz)
    requires bn == yb * (cx * (p * p + 1.0) - (bx + p * bz))
    requires qex == bn
    ensures (yb * (p * p + 1.0) - q * (bx + p * bz)) * (cx - bx) == yb * p * (bz - p * bx)
  {
    assert (yb * (p * p + 1.0) - q * (bx + p * bz)) * (cx - bx)
      == yb * (p * p + 1.0) * (cx - bx) - qex;
  }

  lemma XFact(bx: real, yb: real, bz: real, cx: real, p: real, q: real, qex: real, bn: real)
    requires qex == q * (cx - bx) * (bx + p * bz)
    requires bn == yb * (cx * (p * p + 1.0) - (bx + p * bz))
    requires qex == bn
    ensures (yb - q * bx) * (bx + p * bz) * (cx - bx) == cx * (yb * p * (bz - p * bx))
  {
    assert (yb - q * bx) * (bx + p * bz) * (cx - bx)
      == yb * (bx + p * bz) * (cx - bx) - qex * bx;
  }

  lemma ZFact(bx: real, yb: real, bz: real, cx: real, cz: real, p: real, q: real, qex: real, bn: real)
    requires p * (cz - bz) == bx - cx
    requires qex == q * (cx - bx) * (bx + p * bz)
    requires bn == yb * (cx * (p * p + 1.0) - (bx + p * bz))
    requires qex == bn
    ensures (p * yb - q * bz) * (bx + p * bz) * (cx - bx) == cz * (yb * p * (bz - p * bx))
  {
    var xpz := bx + p * bz;
    var e := cx - bx;
    var w := bz - p * bx;
    assert (p * yb - q * bz) * xpz * e == yb * (p * xpz * e - bz * (cx * (p * p + 1.0) - xpz));
    assert p * xpz * e - bz * (cx * (p * p + 1.0) - xpz) == (bx - cx + p * bz) * w;
    assert bx - cx + p * bz == p * cz;
  }

  lemma NonZeroProduct3(a: real, b: real, c: real)
    requires a != 0.0 && b != 0.0 && c != 0.0
    ensures a * b * c != 0.0
  {
  }

  lemma CancelFactor(u: real, v: real, k: real)
    requires k != 0.0 && u * k == v * k
    ensures u == v
  {
    assert u == (u * k) / k;
  }

  /** The strategy component: its configuration, its fixed constants, the ready
      flag and the last predicted position (its transform position). */
  datatype LotStrategy = LotStrategy(
    initialTime: real,
    lotParameter: real,
    params: LotParams,
    ready: bool,
    position: Vec3)

  /** The component as first created: not ready, with the configured defaults. */
  function NewStrategy(): (s: LotStrategy)
    ensures !s.ready && s.initialTime == 1.0
  {
    LotStrategy(1.0, 0.2, LotParams(0.0, 0.0), false, Zero)
  }

  function Shift(m: Maths, v: Vec3): Vec3 { RotateY(m, ShiftDegrees, v) }

  function ShiftBack(m: Maths, v: Vec3): Vec3 { RotateY(m, -ShiftDegrees, v) }

  /** Shifting back undoes the shift, and both keep the height. */
  lemma ShiftRoundTrip(m: Maths, v: Vec3)
    requires TrigSound(m)
    ensures ShiftBack(m, Shift(m, v)) == v
    ensures Shift(m, v).y == v.y && ShiftBack(m, v).y == v.y
  {
    RotateYInverse(m, ShiftDegrees, v);
  }

  /** The public Initialise: fix the constants from the shifted snapshot and
      become ready. The ball velocity is not used. */
  function Initialise(m: Maths, s: LotStrategy, ballVelocity: Vec3, ballPosition: Vec3, catcherPosition: Vec3): (r: LotStrategy)
    ensures r.ready && r.initialTime == s.initialTime && r.position == s.position
  {
    s.(params := Fix(m, Shift(m, ballPosition), Shift(m, catcherPosition)), ready := true)
  }

  /** The public UpdatePrediction: nothing happens unless ready; otherwise the
      position becomes the shifted-back prediction for the shifted ball,
      evaluated at the time since the strategy's start. */
  function UpdatePrediction(m: Maths, s: LotStrategy, t: real, ballPosition: Vec3): (r: LotStrategy)
    ensures !s.ready ==> r == s
    ensures s.ready ==> r.position.y == 0.0 && r.(position := s.position) == s
  {
    if !s.ready then s
    else s.(position := ShiftBack(m, Predict(m, s.params, t - s.initialTime, Shift(m, ballPosition))))
  }

  function Terminate(s: LotStrategy): (r: LotStrategy)
    ensures !r.ready && r.(ready := s.ready) == s
  {
    s.(ready := false)
  }

  function IsReady(s: LotStrategy): bool { s.ready }

  function GetPrediction(s: LotStrategy): Vec3 { s.position }

  function TimeToInit(s: LotStrategy): real { s.initialTime }

  /** Fixation identity through the public interface: initialising from a
      snapshot and updating with the same ball position, at any time, predicts
      the catcher's starting ground point, provided the shifted snapshot is
      not degenerate. */
  lemma PublicFixation(m: Maths, s: LotStrategy, v: Vec3, b: Vec3, c: Vec3, t: real)
    requires TrigSound(m)
    requires var b1, c1 := Shift(m, b), Shift(m, c);
      FixRegular(b1, c1)
    ensures GetPrediction(UpdatePrediction(m, Initialise(m, s, v, b, c), t, b)) == Vec3(c.x, 0.0, c.z)
  {
    var b1, c1 := Shift(m, b), Shift(m, c);
    var s1 := Initialise(m, s, v, b, c);
    FixationIdentity(m, b1, c1, t - s1.initialTime);
    var g := Vec3(c.x, 0.0, c.z);
    assert Shift(m, g) == Vec3(c1.x, 0.0, c1.z);
    ShiftRoundTrip(m, g);
  }

  /** The ready flag: set by Initialise, cleared by Terminate, and an update
      never changes it or the fixed constants. */
  lemma ReadyLifecycle(m: Maths, s: LotStrategy, v: Vec3, b: Vec3, c: Vec3, t: real)
    ensures IsReady(Initialise(m, s, v, b, c))
    ensures !IsReady(Terminate(s))
    ensures !IsReady(s) ==> UpdatePrediction(m, s, t, b) == s
    ensures var u := UpdatePrediction(m, s, t, b); u.ready == s.ready && u.params == s.params
  {
  }
}

=== FILE: oac.dfy ===
/** The world-logic OAC catcher: a robot fielder that, once its trial has
    started, either jumps to a target point or is driven towards it with a
    throttled speed, and the Optical Acceleration Cancellation geometry it
    uses (circular projection, the alpha position and the alpha radius). */
module Oac {
  import opened UnityMath
  import opened Vector3Extensions
  import opened Wrappers

  /** The catcher's inspector settings, the values fixed at start and by the
      robot button, and its rigidbody's position and velocity. */
  datatype OacCatcher = OacCatcher(
    limited: bool,
    skippedUpdates: int,
    maxVelocity: real,
    maxVelocityDistance: real,
    growthRateModifier: real,
    angularVelocityModifier: real,
    homePosition: Vec3,
    sqrTopVelocity: real,
    timeToSkip: real,
    startingTime: real,
    k: real,
    h: real,
    position: Vec3,
    velocity: Vec3)

  /** The component as declared: unlimited, five skipped updates, top speed 7
      reached from 10 units away, growth rate 3, angular modifier 0.3. */
  function NewCatcher(): (c: OacCatcher)
    ensures !c.limited && c.skippedUpdates == 5
    ensures c.maxVelocity == 7.0 && c.maxVelocityDistance == 10.0 && c.growthRateModifier == 3.0
    ensures c.angularVelocityModifier == 0.3
  {
    OacCatcher(false, 5, 7.0, 10.0, 3.0, 0.3, Zero, 0.0, 0.0, 0.0, 0.0, 0.0, Zero, Zero)
  }

  /** Start: the squared top speed, and the time covered by the skipped
      updates plus one fixed step. */
  function Start(c: OacCatcher, fixedDeltaTime: real): (r: OacCatcher)
    requires c.skippedUpdates >= 0 && fixedDeltaTime > 0.0
    ensures r.timeToSkip > 0.0 && r.sqrTopVelocity >= 0.0
    ensures r.(sqrTopVelocity := c.sqrTopVelocity, timeToSkip := c.timeToSkip) == c
  {
    NonNegativeSquare(c.maxVelocity);
    c.(sqrTopVelocity := c.maxVelocity * c.maxVelocity,
       timeToSkip := (c.skippedUpdates + 1) as real * fixedDeltaTime)
  }

  lemma NonNegativeSquare(a: real)
    ensures a * a >= 0.0
  {
    if a < 0.0 {
      assert a * a == (-a) * (-a);
    }
  }

  /** During the first skippedUpdates + 1 fixed steps after the start time,
      the time since the start is below timeToSkip. */
  lemma {:induction false} SkipWindow(c: OacCatcher, fixedDeltaTime: real, steps: nat)
    requires c.skippedUpdates >= 0 && fixedDeltaTime > 0.0
    ensures var s := Start(c, fixedDeltaTime);
      (steps <= c.skippedUpdates <==> steps as real * fixedDeltaTime < s.timeToSkip)
  {
    var n := (c.skippedUpdates + 1) as real;
    if steps <= c.skippedUpdates {
      assert steps as real < n;
      assert steps as real * fixedDeltaTime < n * fixedDeltaTime;
    } else {
      assert steps as real >= n;
      assert steps as real * fixedDeltaTime >= n * fixedDeltaTime;
    }
  }

  /** SendHome: stop and return to the home position. */
  function SendHome(c: OacCatcher): (r: OacCatcher)
    ensures r.position == c.homePosition && r.velocity == Zero
    ensures r.(position := c.position, velocity := c.velocity) == c
  {
    c.(position := c.homePosition, velocity := Zero)
  }

  /** RobotButton: with no loaded test nothing happens; otherwise K, H and the
      starting time are fixed from the loaded launch velocity, the catcher's
      starting x (from the manager) and its current x. */
  function RobotButton(m: Maths, c: OacCatcher, loadedVelocity: Option<Vec3>, catcherStartX: real,
                       now: real, countdown: real): (r: OacCatcher)
    ensures loadedVelocity.None? ==> r == c
    ensures loadedVelocity.Some? ==> r.startingTime == now + countdown
    ensures r.(k := c.k, h := c.h, startingTime := c.startingTime) == c
  {
    if loadedVelocity.None? then c
    else
      var v := loadedVelocity.value;
      var temp := Magnitude(m, Vec3(v.x, 0.0, v.z));
      var k := v.y + Quot(m, temp, catcherStartX);
      var h := Quot(m, c.angularVelocityModifier * 360.0 * Magnitude(m, Vec3(0.0, 0.0, v.z)), c.position.x);
      c.(k := k, h := h, startingTime := now + countdown)
  }

  /** K adds to the vertical launch speed the horizontal launch speed over the
      catcher's starting x, and H is proportional to |v.z| over the catcher's x. */
  lemma RobotConstants(m: Maths, c: OacCatcher, v: Vec3, catcherStartX: real, now: real, countdown: real)
    requires SqrtSound(m)
    requires catcherStartX != 0.0 && c.position.x != 0.0
    ensures var r := RobotButton(m, c, Some(v), catcherStartX, now, countdown);
      && (r.k - v.y) * catcherStartX == Magnitude(m, XZ(v))
      && r.h * c.position.x == c.angularVelocityModifier * 360.0 * Abs(v.z)
  {
    SqrtOf(m, SqrNorm(Vec3(0.0, 0.0, v.z)), Abs(v.z));
  }

  /** The MoveTowards speed law: the top speed beyond maxVelocityDistance,
      otherwise the top speed times (d / D) to the growth rate. */
  function Speed(m: Maths, c: OacCatcher, distance: real): real {
    if distance <= c.maxVelocityDistance
    then c.maxVelocity * m.pow(Quot(m, distance, c.maxVelocityDistance), c.growthRateModifier)
    else c.maxVelocity
  }

  /** With a nonnegative top speed and growth rate and a positive threshold,
      every speed lies between 0 and the top speed; it is the top speed from
      the threshold on, so the two branches meet at d = D. */
  lemma SpeedBounds(m: Maths, c: OacCatcher, distance: real)
    requires PowSound(m)
    requires c.maxVelocity >= 0.0 && c.maxVelocityDistance > 0.0 && c.growthRateModifier >= 0.0
    requires distance >= 0.0
    ensures 0.0 <= Speed(m, c, distance) <= c.maxVelocity
    ensures distance >= c.maxVelocityDistance ==> Speed(m, c, distance) == c.maxVelocity
  {
    if distance <= c.maxVelocityDistance {
      var ratio := Quot(m, distance, c.maxVelocityDistance);
      UnitRatio(distance, c.maxVelocityDistance, ratio);
      var p := m.pow(ratio, c.growthRateModifier);
      assert 0.0 <= p <= 1.0;
      ScaleUnit(c.maxVelocity, p);
      if distance == c.maxVelocityDistance {
        assert ratio == 1.0;
      }
    }
  }

  lemma UnitRatio(d: real, dd: real, ratio: real)
    requires 0.0 <= d <= dd && dd > 0.0 && ratio * dd == d
    ensures 0.0 <= ratio <= 1.0
  {
  }

  lemma ScaleUnit(a: real, p: real)
    requires a >= 0.0 && 0.0 <= p <= 1.0
    ensures 0.0 <= a * p <= a
  {
    assert a * (1.0 - p) >= 0.0;
  }

  /** MoveTowards: the velocity towards the target with the throttled speed.
      The rotation towards the ball is not modelled. */
  function MoveTowards(m: Maths, c: OacCatcher, target: Vec3): (r: OacCatcher)
    ensures r.(velocity := c.velocity) == c
  {
    var speed := Speed(m, c, Distance(m, c.position, target));
    c.(velocity := Scale(Normalized(m, Sub(target, c.position)), speed))
  }

  /** The applied velocity has the throttled speed as its length whenever the
      target is further than kEpsilon, and it points from the catcher to the
      target. */
  lemma MoveTowardsVelocity(m: Maths, c: OacCatcher, target: Vec3)
    requires SqrtSound(m) && PowSound(m)
    requires c.maxVelocity >= 0.0 && c.maxVelocityDistance > 0.0 && c.growthRateModifier >= 0.0
    requires Distance(m, c.position, target) > Epsilon
    ensures var d := Distance(m, c.position, target);
      && Magnitude(m, MoveTowards(m, c, target).velocity) == Speed(m, c, d)
      && MoveTowards(m, c, target).velocity == Scale(Sub(target, c.position), Speed(m, c, d) / d)
  {
    var d := Distance(m, c.position, target);
    DistanceSwap(m, c.position, target);
    SpeedBounds(m, c, d);
    DirectionLength(m, Sub(target, c.position), d, Speed(m, c, d));
  }

  lemma DistanceSwap(m: Maths, a: Vec3, b: Vec3)
    ensures Distance(m, a, b) == Magnitude(m, Sub(b, a))
  {
    SqrNormSwap(a, b);
  }

  /** The normalised delta scaled by a nonnegative speed has that speed as its
      length and is delta scaled by speed / |delta|. */
  lemma DirectionLength(m: Maths, delta: Vec3, d: real, speed: real)
    requires SqrtSound(m)
    requires Magnitude(m, delta) == d && d > Epsilon && speed >= 0.0
    ensures Magnitude(m, Scale(Normalized(m, delta), speed)) == speed
    ensures Scale(Normalized(m, delta), speed) == Scale(delta, speed / d)
  {
    NormalizedIsUnit(m, delta);
    MagnitudeOfScale(m, Normalized(m, delta), speed);
    var u := 1.0 / d;
    assert Normalized(m, delta) == Scale(delta, u);
    ScaleTwice(delta, u, speed);
    ReciprocalTimes(speed, d);
    ScaleCongruent(delta, u * speed, speed / d);
  }

  lemma ScaleCongruent(v: Vec3, a: real, b: real)
    requires a == b
    ensures Scale(v, a) == Scale(v, b)
  {
  }

  lemma NonNegativeQuotient(a: real, d: real)
    requires a >= 0.0 && d > 0.0
    ensures a / d >= 0.0
  {
  }

  lemma ReciprocalTimes(a: real, d: real)
    requires d != 0.0
    ensures (1.0 / d) * a == a / d
  {
  }

  lemma SqrNormSwap(a: Vec3, b: Vec3)
    ensures SqrNorm(Sub(a, b)) == SqrNorm(Sub(b, a))
  {
    assert (a.x - b.x) * (a.x - b.x) == (b.x - a.x) * (b.x - a.x);
    assert (a.y - b.y) * (a.y - b.y) == (b.y - a.y) * (b.y - a.y);
    assert (a.z - b.z) * (a.z - b.z) == (b.z - a.z) * (b.z - a.z);
  }

  lemma ScaleTwice(v: Vec3, a: real, b: real)
    ensures Scale(Scale(v, a), b) == Scale(v, a * b)
  {
    assert (v.x * a) * b == v.x * (a * b);
    assert (v.y * a) * b == v.y * (a * b);
    assert (v.z * a) * b == v.z * (a * b);
  }

  /** Move, given the point to reach: nothing before timeToSkip has passed
      since the start; afterwards a limited catcher is driven by MoveTowards
      and an unlimited one is placed on the point. */
  function Move(m: Maths, c: OacCatcher, now: real, point: Vec3): (r: OacCatcher)
    ensures now - c.startingTime < c.timeToSkip ==> r == c
    ensures now - c.startingTime >= c.timeToSkip && !c.limited ==> r == c.(position := point)
    ensures now - c.startingTime >= c.timeToSkip && c.limited ==> r == MoveTowards(m, c, point)
    ensures now - c.startingTime >= c.timeToSkip && c.limited ==> r.position == c.position
  {
    if now - c.startingTime < c.timeToSkip then c
    else if c.limited then MoveTowards(m, c, point)
    else c.(position := point)
  }

  /** After Start, the first skippedUpdates + 1 fixed steps of a trial leave
      the catcher where it is, and any later step of an unlimited catcher puts
      it on the point. */
  lemma MoveAfterStart(m: Maths, c: OacCatcher, fixedDeltaTime: real, steps: nat, point: Vec3)
    requires c.skippedUpdates >= 0 && fixedDeltaTime > 0.0
    ensures var s := Start(c, fixedDeltaTime);
      var now := s.startingTime + steps as real * fixedDeltaTime;
      && (steps <= c.skippedUpdates ==> Move(m, s, now, point) == s)
      && (steps > c.skippedUpdates && !c.limited ==> Move(m, s, now, point).position == point)
  {
    SkipWindow(c, fixedDeltaTime, steps);
  }

  /** CircularProjection: the direction of p2 with the length of p1. */
  function CircularProjection(m: Maths, p1: Vec3, p2: Vec3): Vec3 {
    Scale(Normalized(m, p2), Magnitude(m, p1))
  }

  /** For p2 longer than kEpsilon the projection has the length of p1 and is a
      nonnegative multiple of p2; for a shorter p2 it is the zero vector. */
  lemma CircularProjectionSpec(m: Maths, p1: Vec3, p2: Vec3)
    requires SqrtSound(m)
    ensures Magnitude(m, p2) > Epsilon ==>
      && Magnitude(m, CircularProjection(m, p1, p2)) == Magnitude(m, p1)
      && CircularProjection(m, p1, p2) == Scale(p2, Magnitude(m, p1) / Magnitude(m, p2))
      && Magnitude(m, p1) / Magnitude(m, p2) >= 0.0
    ensures Magnitude(m, p2) <= Epsilon ==> CircularProjection(m, p1, p2) == Zero
  {
    MagnitudeNonNegative(m, p1);
    var n1 := Magnitude(m, p1);
    if Magnitude(m, p2) > Epsilon {
      var n2 := Magnitude(m, p2);
      DirectionLength(m, p2, n2, n1);
      NonNegativeQuotient(n1, n2);
    } else {
      assert Scale(Zero, n1) == Zero;
    }
  }

  /** RotateIntoXY: the ground part of v turned onto the x axis, with v's
      height. */
  function RotateIntoXY(m: Maths, v: Vec3): Vec3 {
    CircularProjection(m, Vec3(v.x, 0.0, v.z), Right).(y := v.y)
  }

  /** The result is (|v.XZ|, v.y, 0). */
  lemma RotateIntoXYSpec(m: Maths, v: Vec3)
    requires SqrtSound(m)
    ensures RotateIntoXY(m, v) == Vec3(Magnitude(m, XZ(v)), v.y, 0.0)
  {
    SqrtOf(m, 1.0, 1.0);
    assert Magnitude(m, Right) == 1.0;
    assert Normalized(m, Right) == Right;
    MagnitudeNonNegative(m, XZ(v));
  }

  /** GetAlphaPosition's x before the turn, from a ground range and a height:
      the range minus the height times the catcher's initial offset over the
      launch height scaled by 1 + K t, with t the time since the start. */
  function AlphaFormula(m: Maths, c: OacCatcher, now: real, range: real, height: real,
                        baseballHome: Vec3, catcherStart: Vec3): real {
    range - Quot(m, height * (baseballHome.x - catcherStart.x),
                    baseballHome.y * (1.0 + c.k * (now - c.startingTime)))
  }

  /** The formula applied to the ball turned into the XY plane. */
  function AlphaX(m: Maths, c: OacCatcher, now: real, ball: Vec3, baseballHome: Vec3, catcherStart: Vec3): real {
    var b := RotateIntoXY(m, ball);
    AlphaFormula(m, c, now, b.x, b.y, baseballHome, catcherStart)
  }

  /** GetAlphaPosition: the point (AlphaX, 0, 0) turned about the vertical
      axis into the ball's flight plane. The catcher's own projection is
      computed by the source but never used, so it is not modelled. */
  function AlphaPosition(m: Maths, c: OacCatcher, now: real, ball: Vec3, baseballHome: Vec3, catcherStart: Vec3): Vec3 {
    CircularProjection(m, Vec3(AlphaX(m, c, now, ball, baseballHome, catcherStart), 0.0, 0.0), XZ(ball))
  }

  /** The x before the turn uses the ball's ground range |ball.XZ| and its
      height. */
  lemma AlphaXSpec(m: Maths, c: OacCatcher, now: real, ball: Vec3, baseballHome: Vec3, catcherStart: Vec3)
    requires SqrtSound(m)
    ensures AlphaX(m, c, now, ball, baseballHome, catcherStart)
      == AlphaFormula(m, c, now, Magnitude(m, XZ(ball)), ball.y, baseballHome, catcherStart)
  {
    RotateIntoXYSpec(m, ball);
  }

  /** The alpha position is a ground point on the ray from the origin through
      the ball's ground point, at distance |AlphaX| from the origin; when the
      ball is within kEpsilon of the vertical axis it is the origin. */
  lemma AlphaPositionOnRay(m: Maths, c: OacCatcher, now: real, ball: Vec3, baseballHome: Vec3, catcherStart: Vec3)
    requires SqrtSound(m)
    ensures var a, x := AlphaPosition(m, c, now, ball, baseballHome, catcherStart),
                        AlphaX(m, c, now, ball, baseballHome, catcherStart);
      && a.y == 0.0
      && (Magnitude(m, XZ(ball)) > Epsilon ==>
            && a == Scale(XZ(ball), Abs(x) / Magnitude(m, XZ(ball)))
            && Abs(x) / Magnitude(m, XZ(ball)) >= 0.0
            && Magnitude(m, a) == Abs(x))
      && (Magnitude(m, XZ(ball)) <= Epsilon ==> a == Zero)
  {
    var x := AlphaX(m, c, now, ball, baseballHome, catcherStart);
    AxisMagnitude(m, x);
    CircularProjectionSpec(m, Vec3(x, 0.0, 0.0), XZ(ball));
  }

  lemma AxisMagnitude(m: Maths, x: real)
    requires SqrtSound(m)
    ensures Magnitude(m, Vec3(x, 0.0, 0.0)) == Abs(x)
  {
    SqrtOf(m, SqrNorm(Vec3(x, 0.0, 0.0)), Abs(x));
  }

  /** GetAlphaRadius: the distance from the alpha position to the ball's
      ground point. */
  function AlphaRadius(m: Maths, c: OacCatcher, now: real, ball: Vec3, baseballHome: Vec3, catcherStart: Vec3): real {
    Magnitude(m, Sub(AlphaPosition(m, c, now, ball, baseballHome, catcherStart), Vec3(ball.x, 0.0, ball.z)))
  }

  /** The radius is never negative, and for a ball away from the vertical
      axis it is the difference between |AlphaX| and the ball's ground range. */
  lemma AlphaRadiusSpec(m: Maths, c: OacCatcher, now: real, ball: Vec3, baseballHome: Vec3, catcherStart: Vec3)
    requires SqrtSound(m)
    ensures AlphaRadius(m, c, now, ball, baseballHome, catcherStart) >= 0.0
    ensures Magnitude(m, XZ(ball)) > Epsilon ==>
      AlphaRadius(m, c, now, ball, baseballHome, catcherStart)
        == Abs(Abs(AlphaX(m, c, now, ball, baseballHome, catcherStart)) - Magnitude(m, XZ(ball)))
  {
    var a := AlphaPosition(m, c, now, ball, baseballHome, catcherStart);
    MagnitudeNonNegative(m, Sub(a, XZ(ball)));
    if Magnitude(m, XZ(ball)) > Epsilon {
      var x := AlphaX(m, c, now, ball, baseballHome, catcherStart);
      AlphaPositionOnRay(m, c, now, ball, baseballHome, catcherStart);
      RayDistance(m, XZ(ball), Abs(x));
    }
  }

  /** The distance between the point of length l on the ray through g and g
      itself is | l - |g| |. */
  lemma RayDistance(m: Maths, g: Vec3, l: real)
    requires SqrtSound(m)
    requires Magnitude(m, g) > Epsilon && l >= 0.0
    ensures Magnitude(m, Sub(Scale(g, l / Magnitude(m, g)), g)) == Abs(l - Magnitude(m, g))
  {
    var n := Magnitude(m, g);
    var q := l / n;
    assert q * n == l;
    if q >= 1.0 {
      RayBeyond(m, g, n, q);
      assert (q - 1.0) * n == l - n;
    } else {
      RayShort(m, g, n, q);
      assert (1.0 - q) * n == n - l;
    }
  }

  lemma RayBeyond(m: Maths, g: Vec3, n: real, q: real)
    requires SqrtSound(m)
    requires Magnitude(m, g) == n && q >= 1.0
    ensures Magnitude(m, Sub(Scale(g, q), g)) == (q - 1.0) * n
  {
    ScaleMinusSelf(g, q);
    MagnitudeOfScale(m, g, q - 1.0);
  }

  lemma RayShort(m: Maths, g: Vec3, n: real, q: real)
    requires SqrtSound(m)
    requires Magnitude(m, g) == n && q < 1.0
    ensures Magnitude(m, Sub(Scale(g, q), g)) == (1.0 - q) * n
  {
    ScaleMinusSelf(g, q);
    SqrNormSwap(Scale(g, q), g);
    MagnitudeOfScale(m, g, 1.0 - q);
  }

  lemma ScaleMinusSelf(g: Vec3, q: real)
    ensures Sub(Scale(g, q), g) == Scale(g, q - 1.0)
    ensures Sub(g, Scale(g, q)) == Scale(g, 1.0 - q)
  {
    assert g.x * q - g.x == g.x * (q - 1.0) && g.x - g.x * q == g.x * (1.0 - q);
    assert g.y * q - g.y == g.y * (q - 1.0) && g.y - g.y * q == g.y * (1.0 - q);
    assert g.z * q - g.z == g.z * (q - 1.0) && g.z - g.z * q == g.z * (1.0 - q);
  }
}

=== FILE: strings.dfy ===
/** The string operations of the .NET runtime that the scripts use, and the
    culture-dependent rendering and parsing of numbers as an oracle. */
module Strings {
  import opened Wrappers

  /** String.StartsWith */
  predicate StartsWith(s: string, p: string) {
    |p| <= |s| && s[..|p|] == p
  }

  /** `p` occurs in `s` at position `j`. */
  predicate OccursAt(s: string, p: string, j: int) {
    0 <= j && j + |p| <= |s| && s[j..j + |p|] == p
  }

  /** String.Contains */
  ghost predicate Contains(s: string, p: string) {
    exists j :: OccursAt(s, p, j)
  }

  /** String.IndexOf from position `i`: the first occurrence at or after `i`, or -1. */
  function IndexOfFrom(s: string, p: string, i: nat): (r: int)
    requires i <= |s|
    ensures r == -1 || (i <= r && OccursAt(s, p, r))
    ensures r == -1 ==> forall j :: i <= j ==> !OccursAt(s, p, j)
    ensures r != -1 ==> forall j :: i <= j < r ==> !OccursAt(s, p, j)
    decreases |s| - i
  {
    if i + |p| > |s| then -1
    else if s[i..i + |p|] == p then i
    else if i == |s| then -1
    else IndexOfFrom(s, p, i + 1)
  }

  /** String.IndexOf */
  function IndexOf(s: string, p: string): (r: int)
    ensures r == -1 <==> !Contains(s, p)
    ensures r != -1 ==> OccursAt(s, p, r) && forall j :: 0 <= j < r ==> !OccursAt(s, p, j)
  {
    IndexOfFrom(s, p, 0)
  }

  /** String.Replace(c, "") for a single character. */
  function RemoveChar(s: string, c: char): (r: string)
    ensures c !in r
    ensures forall k :: 0 <= k < |r| ==> r[k] in s
    ensures |r| <= |s|
    ensures c !in s ==> r == s
  {
    if |s| == 0 then ""
    else (if s[0] == c then "" else [s[0]]) + RemoveChar(s[1..], c)
  }

  /** String.Split on one character: the pieces between separators, always at least one. */
  function Split(s: string, c: char): (r: seq<string>)
    ensures |r| >= 1
    ensures forall k :: 0 <= k < |r| ==> c !in r[k]
  {
    if |s| == 0 then [""]
    else if s[0] == c then [""] + Split(s[1..], c)
    else
      var rest := Split(s[1..], c);
      [[s[0]] + rest[0]] + rest[1..]
  }

  /** The pieces joined with the separator between consecutive pieces. */
  function Join(ts: seq<string>, c: char): string
    requires |ts| >= 1
  {
    if |ts| == 1 then ts[0] else ts[0] + [c] + Join(ts[1..], c)
  }

  /** Number of occurrences of a character. */
  function Count(s: string, c: char): nat {
    if |s| == 0 then 0 else (if s[0] == c then 1 else 0) + Count(s[1..], c)
  }

  lemma {:induction false} CountAppend(a: string, b: string, c: char)
    ensures Count(a + b, c) == Count(a, c) + Count(b, c)
  {
    if |a| == 0 {
      assert a + b == b;
    } else {
      assert (a + b)[1..] == a[1..] + b;
      CountAppend(a[1..], b, c);
    }
  }

  lemma {:induction false} CountAbsent(s: string, c: char)
    requires c !in s
    ensures Count(s, c) == 0
  {
    if |s| > 0 {
      CountAbsent(s[1..], c);
    }
  }

  /** Splitting gives one more piece than there are separators. */
  lemma {:induction false} SplitLength(s: string, c: char)
    ensures |Split(s, c)| == Count(s, c) + 1
  {
    if |s| > 0 {
      SplitLength(s[1..], c);
    }
  }

  /** A string without the separator splits into itself. */
  lemma {:induction false} SplitAbsent(s: string, c: char)
    requires c !in s
    ensures Split(s, c) == [s]
  {
    if |s| > 0 {
      SplitAbsent(s[1..], c);
      assert [s[0]] + s[1..] == s;
    }
  }

  /** Splitting at a first separator: the piece before it, then the pieces after. */
  lemma {:induction false} SplitAtFirst(a: string, b: string, c: char)
    requires c !in a
    ensures Split(a + [c] + b, c) == [a] + Split(b, c)
  {
    if |a| == 0 {
      assert a + [c] + b == [c] + b;
      assert ([c] + b)[1..] == b;
    } else {
      assert (a + [c] + b)[1..] == a[1..] + [c] + b;
      SplitAtFirst(a[1..], b, c);
      assert [a[0]] + a[1..] == a;
    }
  }

  /** Splitting undoes joining when no piece holds the separator. */
  lemma {:induction false} SplitJoin(ts: seq<string>, c: char)
    requires |ts| >= 1
    requires forall k :: 0 <= k < |ts| ==> c !in ts[k]
    ensures Split(Join(ts, c), c) == ts
  {
    if |ts| == 1 {
      SplitAbsent(ts[0], c);
    } else {
      SplitJoin(ts[1..], c);
      SplitAtFirst(ts[0], Join(ts[1..], c), c);
      assert [ts[0]] + ts[1..] == ts;
    }
  }

  /** Position of the first occurrence of `c`, or `|s|` when there is none. */
  function CharIndex(s: string, c: char): (i: nat)
    ensures i <= |s| && c !in s[..i]
    ensures i < |s| ==> s[i] == c
    ensures i == |s| ==> c !in s
  {
    if |s| == 0 then 0
    else if s[0] == c then 0
    else
      var k := CharIndex(s[1..], c);
      assert s[..k + 1] == [s[0]] + s[1..][..k];
      k + 1
  }

  /** A split is the text before the first separator followed by the split of the rest. */
  lemma SplitFirstPiece(s: string, c: char)
    ensures var i := CharIndex(s, c);
      && Split(s, c)[0] == s[..i]
      && (i < |s| ==> Split(s, c) == [s[..i]] + Split(s[i + 1..], c))
  {
    var i := CharIndex(s, c);
    if i < |s| {
      assert s == s[..i] + [c] + s[i + 1..];
      SplitAtFirst(s[..i], s[i + 1..], c);
    } else {
      assert s[..i] == s;
      SplitAbsent(s, c);
    }
  }

  /** Culture-dependent rendering and parsing (ToString, TryParse). */
  datatype Format = Format(
    showReal: real -> string,
    showInt: int -> string,
    showBool: bool -> string,
    showVec: (real, real, real) -> string,
    parseReal: string -> Option<real>,
    parseInt: string -> Option<int>,
    parseBool: string -> Option<bool>,
    parseVec: string -> Option<(real, real, real)>)

  /** A rendered number is nonempty and holds none of the characters the
      configuration and CSV formats give a meaning to. */
  predicate Plain(s: string) {
    |s| > 0 && ',' !in s && '=' !in s && ' ' !in s && '/' !in s
  }

  /** Three rendered reals separated by commas, the way the scripts write a
      vector's components. */
  function Triple(f: Format, a: real, b: real, c: real): string {
    "" + f.showReal(a) + "," + f.showReal(b) + "," + f.showReal(c)
  }

  /** The value a real comes back as once rendered and parsed again: C#
      prints a float with about seven significant digits, so this is in
      general a rounding of the real, not the real itself. */
  function Rounded(f: Format, r: real): real {
    match f.parseReal(f.showReal(r))
    case Some(x) => x
    case None => r
  }

  /** The real survives its own rendering: it is one of the values the
      printed digits name exactly. */
  predicate Exact(f: Format, r: real) {
    f.parseReal(f.showReal(r)) == Some(r)
  }

  function RoundedTriple(f: Format, t: (real, real, real)): (real, real, real) {
    (Rounded(f, t.0), Rounded(f, t.1), Rounded(f, t.2))
  }

  predicate ExactTriple(f: Format, t: (real, real, real)) {
    Exact(f, t.0) && Exact(f, t.1) && Exact(f, t.2)
  }

  /** No rendered real holds a comma, so CSV fields and vector components
      can be told apart. */
  ghost predicate CommaFreeReals(f: Format) {
    forall r :: ',' !in f.showReal(r)
  }

  ghost predicate CommaFreeInts(f: Format) {
    forall n :: ',' !in f.showInt(n)
  }

  /** No rendered real holds '=', so a configuration line's values cannot be
      mistaken for its assignment. */
  ghost predicate AssignFreeReals(f: Format) {
    forall r :: '=' !in f.showReal(r)
  }

  /** What the proofs assume of rendering and parsing: every rendering is
      plain and parses again; integers and booleans come back exactly, reals
      as their rounding; and the vector parser reads a comma-separated triple
      as the three component parses. */
  ghost predicate SoundFormat(f: Format) {
    && (forall r :: f.parseReal(f.showReal(r)).Some? && Plain(f.showReal(r)))
    && (forall n :: f.parseInt(f.showInt(n)) == Some(n) && Plain(f.showInt(n)))
    && (forall b :: f.parseBool(f.showBool(b)) == Some(b) && Plain(f.showBool(b)))
    && (forall a, b, c :: f.parseVec(Triple(f, a, b, c)) == Some(RoundedTriple(f, (a, b, c))))
  }

  /** Plain renderings are in particular free of ',' and '='. */
  lemma SoundCommaFree(f: Format)
    ensures SoundFormat(f) ==> CommaFreeReals(f) && CommaFreeInts(f) && AssignFreeReals(f)
  {
  }

  /** Under a sound format the rounding of a real is what parsing its
      rendering yields, and an exact real is its own rounding. */
  lemma RoundedParses(f: Format, r: real)
    requires SoundFormat(f)
    ensures f.parseReal(f.showReal(r)) == Some(Rounded(f, r))
    ensures Exact(f, r) <==> Rounded(f, r) == r
  {
  }

  /** Integers written in unary, a sign letter followed by one 'a' per unit. */
  function Tally(n: nat): string
    ensures |Tally(n)| == n
    ensures forall i :: 0 <= i < n ==> Tally(n)[i] == 'a'
  {
    if n == 0 then "" else Tally(n - 1) + "a"
  }

  function TallyShow(n: int): string {
    if n >= 0 then "p" + Tally(n) else "m" + Tally(-n)
  }

  function TallyParse(s: string): Option<int> {
    if |s| >= 1 && s[1..] == Tally(|s| - 1) then
      if s[0] == 'p' then Some(|s| - 1)
      else if s[0] == 'm' && |s| > 1 then Some(-(|s| - 1))
      else None
    else None
  }

  lemma TallyReads(n: int)
    ensures TallyParse(TallyShow(n)) == Some(n)
    ensures Plain(TallyShow(n))
  {
    var s := TallyShow(n);
    var k := if n >= 0 then n else -n;
    assert s[1..] == Tally(k);
    forall i | 0 <= i < |s|
      ensures s[i] == 'p' || s[i] == 'm' || s[i] == 'a'
    {
      if i > 0 {
        assert s[i] == Tally(k)[i - 1];
      }
    }
  }

  /** A format with every property SoundFormat asks for: reals all render as
      "0", integers in unary, booleans as C# writes them. */
  function WitnessFormat(): Format {
    Format(
      (r: real) => "0",
      TallyShow,
      (b: bool) => if b then "True" else "False",
      (a: real, b: real, c: real) => "0,0,0",
      (s: string) => if s == "0" then Some(0.0) else None,
      TallyParse,
      (s: string) => if s == "True" then Some(true) else if s == "False" then Some(false) else None,
      (s: string) => Some((0.0, 0.0, 0.0)))
  }

  /** SoundFormat can be met, so the properties assumed under it are not
      vacuous. */
  lemma SoundFormatExists()
    ensures exists f :: SoundFormat(f)
  {
    var w := WitnessFormat();
    assert Plain("0") && Plain("True") && Plain("False");
    forall r: real
      ensures w.parseReal(w.showReal(r)).Some? && Plain(w.showReal(r))
    {
      assert w.showReal(r) == "0";
    }
    forall n: int
      ensures w.parseInt(w.showInt(n)) == Some(n) && Plain(w.showInt(n))
    {
      TallyReads(n);
    }
    forall b: bool
      ensures w.parseBool(w.showBool(b)) == Some(b) && Plain(w.showBool(b))
    {
    }
    forall a: real, b: real, c: real
      ensures w.parseVec(Triple(w, a, b, c)) == Some(RoundedTriple(w, (a, b, c)))
    {
      assert w.parseReal(w.showReal(a)) == Some(0.0);
      assert w.parseReal(w.showReal(b)) == Some(0.0);
      assert w.parseReal(w.showReal(c)) == Some(0.0);
    }
    assert SoundFormat(w);
  }

  /** A triple of comma-free renderings splits at its commas into the three
      rendered values. */
  lemma TripleSplits(f: Format, a: real, b: real, c: real)
    requires CommaFreeReals(f)
    ensures Split(Triple(f, a, b, c), ',') == [f.showReal(a), f.showReal(b), f.showReal(c)]
  {
    var parts := [f.showReal(a), f.showReal(b), f.showReal(c)];
    assert Join(parts[2..], ',') == parts[2];
    assert Join(parts[1..], ',') == parts[1] + [','] + parts[2];
    assert Join(parts, ',') == Triple(f, a, b, c);
    assert ',' !in parts[0] && ',' !in parts[1] && ',' !in parts[2];
    SplitJoin(parts, ',');
  }

  /** A triple splits into its renderings when reals are comma-free, and
      under a sound format parses back to the rounded components, which are
      the components themselves when all three are exact. */
  lemma TripleReads(f: Format, a: real, b: real, c: real)
    ensures CommaFreeReals(f) ==> Split(Triple(f, a, b, c), ',') == [f.showReal(a), f.showReal(b), f.showReal(c)]
    ensures SoundFormat(f) ==> f.parseVec(Triple(f, a, b, c)) == Some((Rounded(f, a), Rounded(f, b), Rounded(f, c)))
    ensures SoundFormat(f) && ExactTriple(f, (a, b, c)) ==> f.parseVec(Triple(f, a, b, c)) == Some((a, b, c))
  {
    if CommaFreeReals(f) {
      TripleSplits(f, a, b, c);
    }
  }
}

=== FILE: test_builder.dfy ===
/** The test builder: eight target cases on the ground around the catcher's
    start, the neighbours of the centre of a 3 by 3 grid with spacing d. */
module TestBuilder {
  import opened UnityMath
  import opened TestCases

  /** The grid steps of the eight positions, in the order they are listed:
      left, then clockwise round the catcher. */
  const Offsets: seq<(int, int)> := [(-1, 0), (-1, -1), (0, -1), (1, -1), (1, 0), (1, 1), (0, 1), (-1, 1)]

  /** The testNumber every built case gets. */
  const BuiltTestNumber: int := 2

  /** The i-th target: the start moved by the i-th step times d, at height 0. */
  function Position(start: Vec3, d: real, i: nat): Vec3
    requires i < |Offsets|
  {
    Vec3(start.x + Offsets[i].0 as real * d, 0.0, start.z + Offsets[i].1 as real * d)
  }

  function Max(a: real, b: real): real { if a >= b then a else b }

  /** Start: one target case per position, all with the same peak height. */
  method Start(m: Maths, start: Vec3, d: real, maximumBallHeight: real) returns (tests: seq<TestCase>)
    ensures |tests| == 8
    ensures forall i :: 0 <= i < 8 ==> tests[i] == FromTarget(m, Position(start, d, i), maximumBallHeight, BuiltTestNumber)
    ensures forall i :: 0 <= i < 8 ==>
      && tests[i].buildType == Target && tests[i].target.y == 0.0
      && tests[i].height == maximumBallHeight && tests[i].testNumber == BuiltTestNumber
  {
    tests := [];
    var i := 0;
    while i < |Offsets|
      invariant 0 <= i <= |Offsets|
      invariant |tests| == i
      invariant forall j :: 0 <= j < i ==> tests[j] == FromTarget(m, Position(start, d, j), maximumBallHeight, BuiltTestNumber)
    {
      tests := tests + [FromTarget(m, Position(start, d, i), maximumBallHeight, BuiltTestNumber)];
      i := i + 1;
    }
  }

  /** Every step moves by at most one in each axis and by exactly one in at
      least one, and no two steps are the same. */
  lemma OffsetsShape()
    ensures forall i :: 0 <= i < |Offsets| ==>
      -1 <= Offsets[i].0 <= 1 && -1 <= Offsets[i].1 <= 1 && (Offsets[i].0 != 0 || Offsets[i].1 != 0)
    ensures forall i, j :: 0 <= i < j < |Offsets| ==> Offsets[i] != Offsets[j]
  {
  }

  /** Each target is at Chebyshev distance |d| from the start's ground point. */
  lemma ChebyshevDistance(start: Vec3, d: real, i: nat)
    requires i < |Offsets|
    ensures var p := Position(start, d, i);
      p.y == 0.0 && Max(Abs(p.x - start.x), Abs(p.z - start.z)) == Abs(d)
  {
    OffsetsShape();
    var (dx, dz) := Offsets[i];
    UnitStep(dx, d);
    UnitStep(dz, d);
  }

  /** A step of -1, 0 or 1 times d moves by |d| or by nothing. */
  lemma UnitStep(k: int, d: real)
    requires -1 <= k <= 1
    ensures Abs(k as real * d) == (if k == 0 then 0.0 else Abs(d))
  {
  }

  /** For d != 0 the eight targets are pairwise distinct and none lies at the
      start's ground point; for d == 0 they all do. */
  lemma TargetsDistinct(start: Vec3, d: real)
    ensures d != 0.0 ==>
      && (forall i, j :: 0 <= i < j < |Offsets| ==> Position(start, d, i) != Position(start, d, j))
      && (forall i :: 0 <= i < |Offsets| ==> Position(start, d, i) != Vec3(start.x, 0.0, start.z))
    ensures d == 0.0 ==> forall i :: 0 <= i < |Offsets| ==> Position(start, d, i) == Vec3(start.x, 0.0, start.z)
  {
    OffsetsShape();
    if d != 0.0 {
      forall i, j | 0 <= i < j < |Offsets|
        ensures Position(start, d, i) != Position(start, d, j)
      {
        StepsDiffer(Offsets[i], Offsets[j], d);
      }
      forall i | 0 <= i < |Offsets|
        ensures Position(start, d, i) != Vec3(start.x, 0.0, start.z)
      {
        StepsDiffer(Offsets[i], (0, 0), d);
      }
    }
  }

  /** Different steps times a nonzero d differ in some axis. */
  lemma StepsDiffer(u: (int, int), w: (int, int), d: real)
    requires d != 0.0 && u != w
    ensures u.0 as real * d != w.0 as real * d || u.1 as real * d != w.1 as real * d
  {
    if u.0 != w.0 {
      NonZeroStep(u.0 - w.0, d);
      assert u.0 as real * d - w.0 as real * d == (u.0 - w.0) as real * d;
    } else {
      NonZeroStep(u.1 - w.1, d);
      assert u.1 as real * d - w.1 as real * d == (u.1 - w.1) as real * d;
    }
  }

  lemma NonZeroStep(k: int, d: real)
    requires k != 0 && d != 0.0
    ensures k as real * d != 0.0
  {
  }
}

=== FILE: test_case.dfy ===
/** A ball launch and the three ways of building one: from a landing target
    and a peak height, from an initial velocity, or from a launch speed,
    deviation and angle. Also its two text forms: the configuration line and
    the test-list CSV row. */
module TestCases {
  import opened UnityMath
  import opened Vector3Extensions
  import opened Strings
  import opened Wrappers
  import CsvLine

  datatype TrialType = Practice | Trial | Robot
  datatype BuildType = Target | InitialVelocity | InitialParameters

  datatype TestCase = TestCase(
    buildType: BuildType,
    duration: real,
    testNumber: int,
    target: Vec3,
    height: real,
    initialVelocityVector: Vec3,
    launchSpeed: real,
    launchAngle: real,
    launchDeviation: real)

  /** Physics.gravity.y at the engine's default setting. */
  const Gravity: real := -9.81

  /** The flight time every constructor computes from the vertical speed:
      (vy + sqrt(vy^2 + 2 g)) / -g. */
  function FlightTime(m: Maths, vy: real): real {
    (vy + m.sqrt(vy * vy + 2.0 * Gravity)) / (-1.0 * Gravity)
  }

  /** The peak height the velocity and parameter constructors store. */
  function HeightOf(vy: real): real {
    vy * vy / 2.0 * Gravity + 1.0
  }

  /** The derived launch speed, signed deviation and elevation angle. */
  function WithLaunchAngles(m: Maths, c: TestCase): TestCase {
    var v := c.initialVelocityVector;
    c.(launchSpeed := Magnitude(m, v),
       launchDeviation := Sign(v.z) * m.angle(Right, XZ(v)),
       launchAngle := m.angle(Right, XY(v)))
  }

  /** The target constructor: the vertical speed reaching the peak height,
      the flight time from it, and the horizontal speeds covering the target
      in that time. Target and height are stored as given. */
  function FromTarget(m: Maths, target: Vec3, height: real, testNumber: int): (r: TestCase)
    ensures r.buildType == Target && r.testNumber == testNumber
    ensures r.target == target && r.height == height
    ensures r.duration == FlightTime(m, r.initialVelocityVector.y)
    ensures r.duration != 0.0 ==>
      r.initialVelocityVector.x * r.duration == target.x && r.initialVelocityVector.z * r.duration == target.z
    ensures r.launchSpeed == Magnitude(m, r.initialVelocityVector)
  {
    var vy := m.sqrt(-2.0 * (height - 1.0) * Gravity);
    var t := FlightTime(m, vy);
    var v := Vec3(Quot(m, target.x, t), vy, Quot(m, target.z, t));
    WithLaunchAngles(m, TestCase(Target, t, testNumber, target, height, v, 0.0, 0.0, 0.0))
  }

  /** The velocity constructor: the velocity is stored as given, and the
      target is where the horizontal velocity leads in the flight time. */
  function FromVelocity(m: Maths, velocity: Vec3, testNumber: int): (r: TestCase)
    ensures r.buildType == InitialVelocity && r.testNumber == testNumber
    ensures r.initialVelocityVector == velocity
    ensures r.duration == FlightTime(m, velocity.y)
    ensures r.target == Vec3(r.duration * velocity.x, 0.0, r.duration * velocity.z)
    ensures r.height == HeightOf(velocity.y)
    ensures r.launchSpeed == Magnitude(m, velocity)
  {
    var t := FlightTime(m, velocity.y);
    var target := Vec3(t * velocity.x, 0.0, t * velocity.z);
    WithLaunchAngles(m, TestCase(InitialVelocity, t, testNumber, target, HeightOf(velocity.y), velocity, 0.0, 0.0, 0.0))
  }

  /** The parameters constructor: the velocity is Euler(0, deviation, angle)
      applied to Vector3.right, times the speed. The target it computes is a
      local variable that hides the field, so the field keeps (0, 0, 0). */
  function FromParameters(m: Maths, launchSpeed: real, launchDeviation: real, launchAngle: real,
                          testNumber: int): (r: TestCase)
    ensures r.buildType == InitialParameters && r.testNumber == testNumber
    ensures r.launchSpeed == launchSpeed && r.launchAngle == launchAngle && r.launchDeviation == launchDeviation
    ensures r.target == Zero
    ensures r.initialVelocityVector == Scale(EulerRight(m, launchDeviation, launchAngle), launchSpeed)
    ensures r.duration == FlightTime(m, r.initialVelocityVector.y)
    ensures r.height == HeightOf(r.initialVelocityVector.y)
  {
    var v := Scale(EulerRight(m, launchDeviation, launchAngle), launchSpeed);
    var t := FlightTime(m, v.y);
    TestCase(InitialParameters, t, testNumber, Zero, HeightOf(v.y), v, launchSpeed, launchAngle, launchDeviation)
  }

  /** The parameter velocity rises at speed sin(angle) times the launch speed
      and its ground part has length |speed cos(angle)|, whatever the
      deviation. */
  lemma ParametersVelocity(m: Maths, speed: real, deviation: real, angle: real, n: int)
    requires TrigSound(m)
    ensures var v := FromParameters(m, speed, deviation, angle, n).initialVelocityVector;
      && v.y == speed * m.sinDeg(angle)
      && v.x * v.x + v.z * v.z == (speed * m.cosDeg(angle)) * (speed * m.cosDeg(angle))
  {
    EulerGround(m, deviation, angle);
    ScaledDirection(EulerRight(m, deviation, angle), m.cosDeg(angle), m.sinDeg(angle), speed);
  }

  /** A direction of height s and ground length |c|, scaled by k. */
  lemma ScaledDirection(e: Vec3, c: real, s: real, k: real)
    requires e.y == s && e.x * e.x + e.z * e.z == c * c
    ensures var v := Scale(e, k);
      v.y == k * s && v.x * v.x + v.z * v.z == (k * c) * (k * c)
  {
    ScaledGround(e.x, e.z, c, k);
  }

  /** Euler(0, yaw, roll) * right has height sin(roll) and a ground part of
      length |cos(roll)|. */
  lemma EulerGround(m: Maths, yaw: real, roll: real)
    requires TrigSound(m)
    ensures var e := EulerRight(m, yaw, roll);
      e.y == m.sinDeg(roll) && e.x * e.x + e.z * e.z == m.cosDeg(roll) * m.cosDeg(roll)
  {
    RotateYKeepsHorizontalLength(m, yaw, Vec3(m.cosDeg(roll), m.sinDeg(roll), 0.0));
  }

  lemma ScaledGround(x: real, z: real, c: real, k: real)
    requires x * x + z * z == c * c
    ensures (x * k) * (x * k) + (z * k) * (z * k) == (k * c) * (k * c)
  {
    calc {
      (x * k) * (x * k) + (z * k) * (z * k);
      (x * x + z * z) * (k * k);
      (c * c) * (k * k);
    }
  }

  /** Building a velocity case from a target case's velocity reproduces the
      target's ground coordinates and the flight time, because both compute
      the time from the same vertical speed. */
  lemma TargetVelocityRoundTrip(m: Maths, target: Vec3, height: real, n: int, n2: int)
    ensures var a := FromTarget(m, target, height, n);
      var b := FromVelocity(m, a.initialVelocityVector, n2);
      && b.duration == a.duration
      && (a.duration != 0.0 ==> b.target == XZ(target))
  {
    var a := FromTarget(m, target, height, n);
    var t := a.duration;
    var v := a.initialVelocityVector;
    if t != 0.0 {
      assert t * v.x == target.x && t * v.z == target.z;
    }
  }

  /** The velocity and parameter constructors store vy^2 g / 2 + 1 as the
      height, so a target case's velocity gives back 1 - (h - 1) g^2 rather
      than its peak height h. */
  lemma VelocityHeightAsWritten(m: Maths, target: Vec3, height: real, n: int, n2: int)
    requires SqrtSound(m) && height >= 1.0
    ensures var a := FromTarget(m, target, height, n);
      FromVelocity(m, a.initialVelocityVector, n2).height == 1.0 - (height - 1.0) * Gravity * Gravity
  {
    var s := -2.0 * (height - 1.0) * Gravity;
    assert s >= 0.0;
    var vy := m.sqrt(s);
    assert vy * vy == s;
  }

  /** The configuration markers: "@" before a test, "=" before its values,
      and one letter per build type. */
  const TestMarker: string := "@"
  const AssignMarker: string := "="

  function Marker(b: BuildType): (s: string)
    ensures |s| == 1 && '=' !in s && '@' !in s
  {
    match b
    case Target => "T"
    case InitialVelocity => "V"
    case InitialParameters => "P"
  }

  /** The three values a configuration line carries for each build type. */
  function ConfigValues(c: TestCase): (real, real, real) {
    match c.buildType
    case InitialParameters => (c.launchSpeed, c.launchAngle, c.launchDeviation)
    case InitialVelocity => (c.initialVelocityVector.x, c.initialVelocityVector.y, c.initialVelocityVector.z)
    case Target => (c.target.x, c.target.y, c.target.z)
  }

  /** ToConfigFormat: "@", the marker, "=", then the three values. Under a
      sound format the line splits at '=' into "@" with the marker and the
      values, which a vector parser reads as the rounded values, and as the
      values themselves when they print exactly. */
  function ToConfigFormat(f: Format, c: TestCase): (s: string)
    ensures var (a, b, d) := ConfigValues(c);
      SoundFormat(f) ==>
        && Split(s, '=') == [TestMarker + Marker(c.buildType), Triple(f, a, b, d)]
        && f.parseVec(Triple(f, a, b, d)) == Some(RoundedTriple(f, ConfigValues(c)))
        && (ExactTriple(f, ConfigValues(c)) ==> f.parseVec(Triple(f, a, b, d)) == Some(ConfigValues(c)))
  {
    var (a, b, d) := ConfigValues(c);
    ConfigLineSplits(f, Marker(c.buildType), a, b, d);
    SoundCommaFree(f);
    TestMarker + Marker(c.buildType) + AssignMarker + Triple(f, a, b, d)
  }

  lemma ConfigLineSplits(f: Format, marker: string, a: real, b: real, d: real)
    requires '=' !in marker
    ensures AssignFreeReals(f) ==>
      Split(TestMarker + marker + AssignMarker + Triple(f, a, b, d), '=') == [TestMarker + marker, Triple(f, a, b, d)]
  {
    if AssignFreeReals(f) {
      var content := Triple(f, a, b, d);
      TripleHasNoAssign(f, a, b, d);
      SplitAbsent(content, '=');
      assert TestMarker + marker + AssignMarker + content == (TestMarker + marker) + ['='] + content;
      assert '=' !in TestMarker + marker by {
        assert forall k :: 0 <= k < |TestMarker + marker| ==> (TestMarker + marker)[k] == '@' || (TestMarker + marker)[k] in marker;
      }
      SplitAtFirst(TestMarker + marker, content, '=');
    }
  }

  lemma TripleHasNoAssign(f: Format, a: real, b: real, d: real)
    requires AssignFreeReals(f)
    ensures '=' !in Triple(f, a, b, d)
  {
    var sa, sb, sd := f.showReal(a), f.showReal(b), f.showReal(d);
    assert '=' !in sa && '=' !in sb && '=' !in sd;
    assert Triple(f, a, b, d) == sa + [','] + sb + [','] + sd;
  }

  /** The test-list column names, in the order of the header line. */
  const TestListColumns: seq<string> :=
    ["No", "Speed", "Angle", "Deviation", "TargetX", "TargetZ", "MaxHeight", "VelocityX", "VelocityY", "VelocityZ"]

  /** The values of one test-list row: number, speed, angle, deviation,
      target x and z, height, and the three velocity components. */
  function CsvValues(f: Format, c: TestCase): (vals: seq<string>)
    ensures |vals| == |TestListColumns|
  {
    [f.showInt(c.testNumber),
     f.showReal(c.launchSpeed), f.showReal(c.launchAngle), f.showReal(c.launchDeviation),
     f.showReal(c.target.x), f.showReal(c.target.z), f.showReal(c.height),
     f.showReal(c.initialVelocityVector.x), f.showReal(c.initialVelocityVector.y), f.showReal(c.initialVelocityVector.z)]
  }

  /** ToCSVLine: one field per test-list column. When renderings hold no
      comma the row splits back into exactly its ten values; under a sound
      format the first parses to the test number and the fifth and sixth to
      the target's rounded ground coordinates, which are the coordinates
      themselves when they print exactly. */
  function ToCSVLine(f: Format, c: TestCase): (line: string)
    ensures |line| >= 2
    ensures CommaFreeReals(f) && CommaFreeInts(f) ==> Split(line[..|line| - 2], ',') == CsvValues(f, c)
    ensures SoundFormat(f) ==>
      var fields := Split(line[..|line| - 2], ',');
      && |fields| == |TestListColumns|
      && f.parseInt(fields[0]) == Some(c.testNumber)
      && f.parseReal(fields[4]) == Some(Rounded(f, c.target.x))
      && f.parseReal(fields[5]) == Some(Rounded(f, c.target.z))
      && (Exact(f, c.target.x) ==> f.parseReal(fields[4]) == Some(c.target.x))
      && (Exact(f, c.target.z) ==> f.parseReal(fields[5]) == Some(c.target.z))
  {
    var vals := CsvValues(f, c);
    RowReads(f, c);
    CsvLine.Line(vals)
  }

  /** With comma-free renderings a test-list row splits into its values, and
      a sound format is comma-free and reads the target's coordinates back
      rounded. */
  lemma RowReads(f: Format, c: TestCase)
    ensures CommaFreeReals(f) && CommaFreeInts(f) ==>
      Split(CsvLine.Line(CsvValues(f, c))[..|CsvLine.Line(CsvValues(f, c))| - 2], ',') == CsvValues(f, c)
    ensures SoundFormat(f) ==>
      && CommaFreeReals(f) && CommaFreeInts(f)
      && f.parseReal(f.showReal(c.target.x)) == Some(Rounded(f, c.target.x))
      && f.parseReal(f.showReal(c.target.z)) == Some(Rounded(f, c.target.z))
  {
    var vals := CsvValues(f, c);
    if CommaFreeReals(f) && CommaFreeInts(f) {
      assert forall k :: 0 <= k < |vals| ==> ',' !in vals[k];
      CsvLine.LineFields(vals);
    }
    SoundCommaFree(f);
    if SoundFormat(f) {
      RoundedParses(f, c.target.x);
      RoundedParses(f, c.target.z);
    }
  }
}

=== FILE: trial_runner.dfy ===
/** The manual trial runner: the schedule of test indexes, its two
    shuffles, and the runner loop that walks the schedule under Pause,
    Resume and Stop. The schedule is a sequence instead of an array; the
    random choices are nondeterministic. */
module TrialRunner {
  import opened TestCases
  import LastResult

  // ---------------------------------------------------------------------
  // The schedule fill

  /** The entry the fill leaves at position k. Test i writes positions
      i * trialRuns up to i * trialRuns + trialRuns + practiceRuns, so the
      copies of neighbouring tests overlap and later tests overwrite earlier
      ones: the first numTests * trialRuns positions hold k / trialRuns, the
      next practiceRuns hold the last test, and the rest keep 0. */
  function FillEntry(numTests: int, trialRuns: int, practiceRuns: int, k: int): int {
    if trialRuns > 0 && k < numTests * trialRuns then k / trialRuns
    else if k < numTests * trialRuns + practiceRuns then numTests - 1
    else 0
  }

  /** The schedule after the outer loop has run for tests 0 to i - 1. */
  function Partial(i: int, trialRuns: int, practiceRuns: int, k: int): int {
    if i == 0 then 0 else FillEntry(i, trialRuns, practiceRuns, k)
  }

  /** The fill of StartExperiment: (trialRuns + practiceRuns) * numTests
      entries, each written index in bounds, every entry a test index. */
  method Fill(numTests: int, trialRuns: int, practiceRuns: int) returns (a: seq<int>)
    requires numTests >= 0 && trialRuns >= 0 && practiceRuns >= 0
    ensures |a| == (trialRuns + practiceRuns) * numTests
    ensures forall k :: 0 <= k < |a| ==> a[k] == FillEntry(numTests, trialRuns, practiceRuns, k)
    ensures forall k :: 0 <= k < |a| ==> 0 <= a[k] < numTests
  {
    var len := (trialRuns + practiceRuns) * numTests;
    a := seq(len, _ => 0);
    var i := 0;
    while i < numTests
      invariant 0 <= i <= numTests && |a| == len
      invariant forall k :: 0 <= k < len ==> a[k] == Partial(i, trialRuns, practiceRuns, k)
    {
      var base := i * trialRuns;
      var j := 0;
      while j < trialRuns + practiceRuns
        invariant 0 <= j <= trialRuns + practiceRuns && |a| == len
        invariant forall k :: 0 <= k < len ==>
          a[k] == (if base <= k < base + j then i else Partial(i, trialRuns, practiceRuns, k))
      {
        WriteInBounds(numTests, trialRuns, practiceRuns, i, j);
        a := a[base + j := i];
        j := j + 1;
      }
      forall k | 0 <= k < len
        ensures a[k] == Partial(i + 1, trialRuns, practiceRuns, k)
      {
        PartialStep(trialRuns, practiceRuns, i, k);
      }
      i := i + 1;
    }
    forall k | 0 <= k < len
      ensures 0 <= a[k] < numTests
    {
      EntryIsTest(numTests, trialRuns, practiceRuns, k);
    }
  }

  /** Every position the fill writes lies inside the schedule. */
  lemma WriteInBounds(numTests: int, trialRuns: int, practiceRuns: int, i: int, j: int)
    requires trialRuns >= 0 && practiceRuns >= 0
    requires 0 <= i < numTests && 0 <= j < trialRuns + practiceRuns
    ensures 0 <= i * trialRuns + j < (trialRuns + practiceRuns) * numTests
  {
    assert i * trialRuns <= (numTests - 1) * trialRuns by {
      assert (numTests - 1 - i) * trialRuns >= 0;
    }
    assert practiceRuns <= numTests * practiceRuns by {
      assert (numTests - 1) * practiceRuns >= 0;
    }
    assert (trialRuns + practiceRuns) * numTests == numTests * trialRuns + numTests * practiceRuns;
    assert (numTests - 1) * trialRuns == numTests * trialRuns - trialRuns;
  }

  /** The quotient of k by d is i when k lies in the i-th block of d. */
  lemma QuotientInBlock(k: int, d: int, i: int)
    requires d > 0 && i * d <= k < i * d + d
    ensures k / d == i
  {
    var q, m := k / d, k % d;
    assert k == q * d + m && 0 <= m < d;
    var x := q - i;
    assert x * d == q * d - i * d;
    if x >= 1 {
      AtLeastOneBlock(x, d);
    } else if x <= -1 {
      AtLeastOneBlock(-x, d);
    }
  }

  lemma AtLeastOneBlock(x: int, d: int)
    requires x >= 1 && d > 0
    ensures x * d >= d
  {
    assert x * d == (x - 1) * d + d;
    assert (x - 1) * d >= 0;
  }

  /** One pass of the inner loop turns the state after test i - 1 into the
      state after test i. */
  lemma PartialStep(trialRuns: int, practiceRuns: int, i: int, k: int)
    requires trialRuns >= 0 && practiceRuns >= 0 && i >= 0 && k >= 0
    ensures (if i * trialRuns <= k < i * trialRuns + (trialRuns + practiceRuns) then i
             else Partial(i, trialRuns, practiceRuns, k)) == Partial(i + 1, trialRuns, practiceRuns, k)
  {
    var b := i * trialRuns;
    assert (i + 1) * trialRuns == b + trialRuns;
    if b <= k < b + trialRuns {
      QuotientInBlock(k, trialRuns, i);
    } else if k < b && i > 0 {
      assert trialRuns > 0;
    }
  }

  /** Every entry of the fill is a test index. */
  lemma EntryIsTest(numTests: int, trialRuns: int, practiceRuns: int, k: int)
    requires numTests >= 1 && trialRuns >= 0 && practiceRuns >= 0
    requires 0 <= k < (trialRuns + practiceRuns) * numTests
    ensures 0 <= FillEntry(numTests, trialRuns, practiceRuns, k) < numTests
  {
    if k < numTests * trialRuns {
      var q := k / trialRuns;
      assert q * trialRuns <= k;
    }
  }

  // ---------------------------------------------------------------------
  // Counting the copies

  /** n copies of the value x. */
  function Copies(x: int, n: nat): seq<int> {
    seq(n, _ => x)
  }

  /** The blocks of tests 0 to n - 1, each repeated d times. */
  function Blocks(n: nat, d: nat): (s: seq<int>)
    ensures |s| == n * d
  {
    if n == 0 then [] else Blocks(n - 1, d) + Copies(n - 1, d)
  }

  lemma {:induction false} BlocksEntry(n: nat, d: nat, k: int)
    requires 0 <= k < n * d
    ensures Blocks(n, d)[k] == k / d
  {
    assert n * d == (n - 1) * d + d;
    if k >= (n - 1) * d {
      QuotientInBlock(k, d, n - 1);
    } else {
      BlocksEntry(n - 1, d, k);
    }
  }

  lemma CopiesCount(x: int, n: nat, v: int)
    ensures multiset(Copies(x, n))[v] == if v == x then n else 0
  {
    if n > 0 {
      assert Copies(x, n) == Copies(x, n - 1) + [x];
      CopiesCount(x, n - 1, v);
    }
  }

  lemma {:induction false} BlocksCount(n: nat, d: nat, v: int)
    ensures multiset(Blocks(n, d))[v] == if 0 <= v < n then d else 0
  {
    if n > 0 {
      BlocksCount(n - 1, d, v);
      CopiesCount(n - 1, d, v);
    }
  }

  /** The fill as a value: the blocks of trialRuns copies, then
      practiceRuns copies of the last test, then zeros. */
  lemma FillShape(numTests: int, trialRuns: int, practiceRuns: int, a: seq<int>)
    requires numTests >= 1 && trialRuns >= 0 && practiceRuns >= 0
    requires |a| == (trialRuns + practiceRuns) * numTests
    requires forall k :: 0 <= k < |a| ==> a[k] == FillEntry(numTests, trialRuns, practiceRuns, k)
    ensures a == Blocks(numTests, trialRuns) + Copies(numTests - 1, practiceRuns)
                 + Copies(0, (numTests - 1) * practiceRuns)
  {
    var rhs := Blocks(numTests, trialRuns) + Copies(numTests - 1, practiceRuns) + Copies(0, (numTests - 1) * practiceRuns);
    var nt := numTests * trialRuns;
    assert (trialRuns + practiceRuns) * numTests == nt + practiceRuns + (numTests - 1) * practiceRuns;
    forall k | 0 <= k < |a|
      ensures a[k] == rhs[k]
    {
      if k < nt {
        BlocksEntry(numTests, trialRuns, k);
      }
    }
  }

  /** How often each test index appears in the fill: trialRuns times, plus
      practiceRuns for the last test, plus the unwritten tail for test 0. */
  lemma FillCounts(numTests: int, trialRuns: int, practiceRuns: int, a: seq<int>, v: int)
    requires numTests >= 1 && trialRuns >= 0 && practiceRuns >= 0
    requires |a| == (trialRuns + practiceRuns) * numTests
    requires forall k :: 0 <= k < |a| ==> a[k] == FillEntry(numTests, trialRuns, practiceRuns, k)
    ensures multiset(a)[v] ==
      (if 0 <= v < numTests then trialRuns else 0)
      + (if v == numTests - 1 then practiceRuns else 0)
      + (if v == 0 then (numTests - 1) * practiceRuns else 0)
  {
    FillShape(numTests, trialRuns, practiceRuns, a);
    BlocksCount(numTests, trialRuns, v);
    CopiesCount(numTests - 1, practiceRuns, v);
    CopiesCount(0, (numTests - 1) * practiceRuns, v);
  }

  // ---------------------------------------------------------------------
  // The shuffles

  /** The swap of positions i and j. */
  function Swap(a: seq<int>, i: int, j: int): (b: seq<int>)
    requires 0 <= i < |a| && 0 <= j < |a|
    ensures |b| == |a| && multiset(b) == multiset(a)
    ensures b[i] == a[j] && b[j] == a[i]
    ensures forall k :: 0 <= k < |a| && k != i && k != j ==> b[k] == a[k]
  {
    a[i := a[j]][j := a[i]]
  }

  /** The draw of System.Random.Next(0, i): below i, and 0 when i is not
      positive. */
  predicate Drawn(r: int, i: int) {
    0 <= r < (if i > 0 then i else 1)
  }

  /** The shuffle loop: from i = hi - 1 down to lo, swap position i with a
      position drawn below it. Positions from hi on are untouched and the
      entries are only permuted. */
  method ShuffleDown(a: seq<int>, lo: int, hi: int) returns (b: seq<int>)
    requires 0 <= lo && 0 <= hi <= |a|
    ensures |b| == |a| && multiset(b) == multiset(a)
    ensures forall k :: hi <= k < |a| ==> b[k] == a[k]
  {
    b := a;
    var i := hi - 1;
    while i >= lo
      invariant i < hi && |b| == |a| && multiset(b) == multiset(a)
      invariant forall k :: hi <= k < |a| ==> b[k] == a[k]
      decreases i
    {
      var r :| 0 <= r < (if i > 0 then i else 1);
      b := Swap(b, i, r);
      i := i - 1;
    }
  }

  /** The trial shuffle draws from the whole prefix, so a swap at a trial
      position can bring a trial entry into the practice part. */
  lemma TrialSwapReachesPractice(a: seq<int>, numPractices: int, i: int, r: int)
    requires 0 <= r < numPractices <= i < |a| && Drawn(r, i)
    ensures Swap(a, i, r)[r] == a[i]
  {
  }

  /** StartExperiment: the fill, the practice shuffle over the first
      numPractices entries, then the trial shuffle from the end down to
      numPractices. The schedule holds the fill's entries, each a test
      index. */
  method StartExperiment(numTests: int, trialRuns: int, practiceRuns: int)
    returns (schedule: seq<int>, numTrials: int, numPractices: int)
    requires numTests >= 0 && trialRuns >= 0 && practiceRuns >= 0
    ensures numTrials == trialRuns * numTests && numPractices == practiceRuns * numTests
    ensures |schedule| == numTrials + numPractices
    ensures forall k :: 0 <= k < |schedule| ==> 0 <= schedule[k] < numTests
    ensures numTests >= 1 ==> forall v :: (multiset(schedule)[v] ==
      (if 0 <= v < numTests then trialRuns else 0)
      + (if v == numTests - 1 then practiceRuns else 0)
      + (if v == 0 then (numTests - 1) * practiceRuns else 0))
  {
    numTrials := trialRuns * numTests;
    numPractices := practiceRuns * numTests;
    var filled := Fill(numTests, trialRuns, practiceRuns);
    schedule := ShuffleDown(filled, 0, numPractices);
    schedule := ShuffleDown(schedule, numPractices, |schedule|);
    InRangeKept(filled, schedule, numTests);
    if numTests >= 1 {
      forall v
        ensures multiset(schedule)[v] ==
          (if 0 <= v < numTests then trialRuns else 0)
          + (if v == numTests - 1 then practiceRuns else 0)
          + (if v == 0 then (numTests - 1) * practiceRuns else 0)
      {
        FillCounts(numTests, trialRuns, practiceRuns, filled, v);
      }
    }
  }

  /** A permutation of test indexes holds only test indexes. */
  lemma InRangeKept(a: seq<int>, b: seq<int>, n: int)
    requires multiset(b) == multiset(a)
    requires forall k :: 0 <= k < |a| ==> 0 <= a[k] < n
    ensures forall k :: 0 <= k < |b| ==> 0 <= b[k] < n
  {
    forall k | 0 <= k < |b|
      ensures 0 <= b[k] < n
    {
      assert b[k] in multiset(b);
      assert b[k] in multiset(a);
      var j :| 0 <= j < |a| && a[j] == b[k];
    }
  }

  // ---------------------------------------------------------------------
  // The runner

  datatype Status = Stopped | Paused | Running | Finished

  datatype Runner = Runner(status: Status, currentIndex: nat, pausing: bool, text: string, panel: LastResult.Panel)

  /** PauseButton: Running becomes Paused with the pausing flag raised,
      Paused becomes Running, and any other state is left alone. */
  function PauseButton(r: Runner): (s: Runner)
    ensures r.status == Running ==> s.status == Paused && s.pausing && s.text == "Pausing..."
    ensures r.status == Paused ==> s.status == Running && s.text == "Running"
    ensures r.status != Running && r.status != Paused ==> s == r
    ensures s.currentIndex == r.currentIndex && s.panel == r.panel
  {
    match r.status
    case Running => r.(status := Paused, pausing := true, text := "Pausing...")
    case Paused => r.(status := Running, text := "Running")
    case _ => r
  }

  /** StopButton: the status becomes Stopped whatever it was. */
  function StopButton(r: Runner): (s: Runner)
    ensures s.status == Stopped && s.text == "Stopping..." && s.currentIndex == r.currentIndex
  {
    r.(status := Stopped, text := "Stopping...")
  }

  /** The runner loop's condition. */
  predicate Continues(r: Runner, schedule: seq<int>) {
    (r.status == Running || r.status == Paused) && r.currentIndex < |schedule|
  }

  /** The kind of run at a schedule position: the first numPractices are
      practices. */
  function TypeAt(index: int, numPractices: int): (t: TrialType)
    ensures t == Practice <==> index < numPractices
    ensures t == Trial <==> index >= numPractices
  {
    if index < numPractices then Practice else Trial
  }

  /** One pass of the runner loop. Paused: lower the pausing flag (showing
      "Paused" the first time) and wait, without advancing. Otherwise run
      the scheduled test as its kind, record the outcome on the panel once
      the manager is back to Ready, and advance by one. */
  function Iteration(r: Runner, schedule: seq<int>, numPractices: int, caught: bool,
                     showInt: int -> string): (s: Runner)
    requires Continues(r, schedule)
    ensures r.status == Paused ==> s.currentIndex == r.currentIndex && !s.pausing && s.status == Paused
    ensures r.status == Running ==>
      && s.currentIndex == r.currentIndex + 1
      && s.status == Running
      && s.panel == LastResult.UpdateResult(r.panel, caught, TypeAt(r.currentIndex, numPractices))
  {
    if r.status == Paused then
      r.(pausing := false, text := if r.pausing then "Paused" else r.text)
    else
      r.(text := "Running test #" + showInt(schedule[r.currentIndex] + 1),
         panel := LastResult.UpdateResult(r.panel, caught, TypeAt(r.currentIndex, numPractices)),
         currentIndex := r.currentIndex + 1)
  }

  /** After the loop: Finished exactly when the whole schedule ran;
      otherwise the stop position is reported and the status kept. The
      panel shows the total and resets it. Then the highlight of the
      position before currentIndex is cleared: at currentIndex 0 (an empty
      schedule, or a stop before the first run) that index is -1, so an
      IndexOutOfRangeException escapes after the total is shown and the
      start button is never unlocked. The flag returned says whether it
      escapes. */
  function Finish(r: Runner, schedule: seq<int>, numTrials: int, showInt: int -> string): (e: (Runner, bool))
    ensures e.1 <==> r.currentIndex == 0
    ensures e.0.status == Finished <==> (r.currentIndex == |schedule| || r.status == Finished)
    ensures r.currentIndex == |schedule| ==> e.0.text == "Finished OK"
    ensures r.currentIndex != |schedule| ==> e.0.text == "Stopped at " + showInt(r.currentIndex + 1)
    ensures e.0.panel == LastResult.ShowTotal(r.panel, numTrials, showInt)
    ensures e.0.currentIndex == r.currentIndex
  {
    var shown := LastResult.ShowTotal(r.panel, numTrials, showInt);
    var s := if r.currentIndex == |schedule| then r.(status := Finished, text := "Finished OK", panel := shown)
             else r.(text := "Stopped at " + showInt(r.currentIndex + 1), panel := shown);
    (s, r.currentIndex - 1 < 0)
  }

  /** The results the runner has recorded after the first n runs. */
  function Recorded(outcomes: seq<bool>, numPractices: int, n: nat): (rs: seq<(bool, TrialType)>)
    requires n <= |outcomes|
    ensures |rs| == n
    ensures forall k :: 0 <= k < n ==> rs[k] == (outcomes[k], TypeAt(k, numPractices))
  {
    seq(n, k requires 0 <= k < n => (outcomes[k], TypeAt(k, numPractices)))
  }

  /** The runner with nobody pressing a button: from index 0 it runs the
      whole schedule, each run advancing by one, and finishes with the panel
      having counted exactly the caught Trials. An empty schedule ends with
      the index exception after the total is shown. */
  method Run(r0: Runner, schedule: seq<int>, numPractices: int, numTrials: int, outcomes: seq<bool>,
             showInt: int -> string) returns (r: Runner, shownTotal: nat, threw: bool)
    requires r0.status == Running && r0.panel.total == 0
    requires |outcomes| == |schedule|
    ensures r.status == Finished && r.currentIndex == |schedule| && r.text == "Finished OK"
    ensures threw <==> |schedule| == 0
    ensures shownTotal == LastResult.Catches(Recorded(outcomes, numPractices, |schedule|))
    ensures r.panel == LastResult.Panel(0, showInt(shownTotal) + "/" + showInt(numTrials))
  {
    r := r0.(currentIndex := 0);
    while Continues(r, schedule)
      invariant r.status == Running && r.currentIndex <= |schedule|
      invariant r.panel.total == LastResult.Catches(Recorded(outcomes, numPractices, r.currentIndex))
      decreases |schedule| - r.currentIndex
    {
      var n := r.currentIndex;
      assert Recorded(outcomes, numPractices, n + 1)[..n] == Recorded(outcomes, numPractices, n);
      r := Iteration(r, schedule, numPractices, outcomes[n], showInt);
    }
    shownTotal := r.panel.total;
    var e := Finish(r, schedule, numTrials, showInt);
    r, threw := e.0, e.1;
  }

  /** A pause press during a run, then a resume press, brings the runner
      back to Running at the same index with the same panel. */
  lemma PauseResume(r: Runner)
    requires r.status == Running
    ensures var s := PauseButton(PauseButton(r));
      s.status == Running && s.currentIndex == r.currentIndex && s.panel == r.panel
  {
  }

  /** While paused the runner loop spins without advancing, however many
      passes it makes. */
  lemma {:induction false} PausedStaysPut(r: Runner, schedule: seq<int>, numPractices: int, caught: bool,
                                          showInt: int -> string, n: nat)
    requires Continues(r, schedule) && r.status == Paused
    decreases n
    ensures var s := Spin(r, schedule, numPractices, caught, showInt, n);
      s.status == Paused && s.currentIndex == r.currentIndex && s.panel == r.panel
  {
    if n > 0 {
      var r1 := Iteration(r, schedule, numPractices, caught, showInt);
      PausedStaysPut(r1, schedule, numPractices, caught, showInt, n - 1);
    }
  }

  /** n passes of the runner loop with the same outcome. */
  function Spin(r: Runner, schedule: seq<int>, numPractices: int, caught: bool,
                showInt: int -> string, n: nat): Runner
    decreases n
  {
    if n == 0 || !Continues(r, schedule) then r
    else Spin(Iteration(r, schedule, numPractices, caught, showInt), schedule, numPractices, caught, showInt, n - 1)
  }
}

=== FILE: trials_manager.dfy ===
/** The trials manager: the Ready -> CountingDown -> TrialInProgress -> Ready
    life cycle of one trial. The catcher is any value of type C; placing it
    on the field, sending it home and moving it are supplied by the caller.
    The StartTrial coroutine is a step machine resumed once per engine wake
    up: first on entry, then after each 0.01 s wait. */
module TrialsManager {
  import opened UnityMath
  import opened Strings
  import opened Wrappers
  import opened TestCases
  import DataManager

  datatype Status = Ready | CountingDown | TrialInProgress

  datatype Manager<C> = Manager(
    status: Status,
    loaded: Option<TestCase>,
    testCases: Option<seq<TestCase>>,
    testsChanged: bool,
    lastResult: bool,
    startingTime: real,
    startingFrame: int,
    pauseBetweenTrials: real,
    catcherStartPosition: Vec3,
    baseballHomePosition: Vec3,
    catcher: C,
    ballPosition: Vec3,
    ballVelocity: Vec3,
    ballFrozen: bool,
    info: string,
    data: DataManager.DataManager,
    resultFile: string)

  /** FixedUpdate: the catcher moves only while a trial is in progress. */
  function FixedUpdate<C>(s: Manager<C>, move: C -> C): (r: Manager<C>)
    ensures r.(catcher := s.catcher) == s
    ensures r.catcher == (if s.status == TrialInProgress then move(s.catcher) else s.catcher)
  {
    if s.status == TrialInProgress then s.(catcher := move(s.catcher)) else s
  }

  /** The TestCases setter flags the change; ResetTests assigns null. */
  function SetTestCases<C>(s: Manager<C>, tests: Option<seq<TestCase>>): (r: Manager<C>)
    ensures r.testsChanged && r.testCases == tests
    ensures r.(testsChanged := s.testsChanged, testCases := s.testCases) == s
  {
    s.(testsChanged := true, testCases := tests)
  }

  function ResetTests<C>(s: Manager<C>): (r: Manager<C>)
    ensures r.testCases == None && r.testsChanged
  {
    SetTestCases(s, None)
  }

  function LoadTest<C>(s: Manager<C>, t: TestCase): (r: Manager<C>)
    ensures r.loaded == Some(t) && r.(loaded := s.loaded) == s
  {
    s.(loaded := Some(t))
  }

  function UnloadTest<C>(s: Manager<C>): (r: Manager<C>)
    ensures r.loaded == None && r.(loaded := s.loaded) == s
  {
    s.(loaded := None)
  }

  /** Loading then unloading leaves the manager as unloading alone does, and
      loading twice keeps only the second case. */
  lemma LoadUnload<C>(s: Manager<C>, t: TestCase, u: TestCase)
    ensures UnloadTest(LoadTest(s, t)) == UnloadTest(s)
    ensures LoadTest(LoadTest(s, t), u) == LoadTest(s, u)
    ensures s.loaded == None ==> UnloadTest(LoadTest(s, t)) == s
  {
  }

  /** Where the coroutine stands: not yet entered, waiting with the current
      countdown value, finished, or aborted by a missing test case. */
  datatype Pc = Entry | Waiting(countdown: real) | Done | Faulted

  const Tick: real := 0.01

  /** The line shown once per wait. showCount renders the countdown value. */
  function CountdownText(showCount: real -> string, c: real): string {
    "Starting in " + showCount(c) + "..."
  }

  /** The status line shown once the ball is released: nothing new for a
      robot run. */
  function RunningText(t: TrialType, previous: string): string {
    match t
    case Trial => "Trial running"
    case Practice => "Practice trial running"
    case Robot => previous
  }

  /** The code after the countdown: status TrialInProgress, the data writer
      started for the loaded case, the start time and frame recorded, and the
      ball released with the loaded velocity. A case unloaded during the
      countdown makes the writer call fail after the status update. */
  function Launch<C>(f: Format, s: Manager<C>, t: TrialType, now: real, frame: int, clock: string): (r: (Manager<C>, Pc))
    ensures r.0.status == TrialInProgress && r.0.info == RunningText(t, s.info)
    ensures s.loaded.Some? ==>
      && r.1 == Done
      && r.0.ballVelocity == s.loaded.value.initialVelocityVector && !r.0.ballFrozen
      && r.0.startingTime == now && r.0.startingFrame == frame
      && r.0.data == DataManager.StartNewTest(f, s.data, s.loaded.value.testNumber, t, frame, now, clock)
      && r.0.(status := s.status, info := s.info, data := s.data, startingTime := s.startingTime,
              startingFrame := s.startingFrame, ballFrozen := s.ballFrozen, ballVelocity := s.ballVelocity) == s
    ensures s.loaded.None? ==> r == (s.(status := TrialInProgress, info := RunningText(t, s.info)), Faulted)
  {
    var s1 := s.(status := TrialInProgress, info := RunningText(t, s.info));
    match s.loaded
    case None => (s1, Faulted)
    case Some(tc) =>
      (s1.(data := DataManager.StartNewTest(f, s.data, tc.testNumber, t, frame, now, clock),
           startingTime := now, startingFrame := frame,
           ballFrozen := false, ballVelocity := tc.initialVelocityVector), Done)
  }

  /** The loop test with countdown value c: wait with the countdown text
      while c > 0, otherwise launch. */
  function Continue<C>(f: Format, showCount: real -> string, s: Manager<C>, c: real, t: TrialType,
                       now: real, frame: int, clock: string): (Manager<C>, Pc)
  {
    if c > 0.0 then (s.(info := CountdownText(showCount, c)), Waiting(c))
    else Launch(f, s, t, now, frame, clock)
  }

  /** One resumption of StartTrial. On entry with no test loaded only the
      message changes; otherwise the status becomes CountingDown, the
      catcher is placed at its start and the countdown begins. After a wait
      the countdown drops by 0.01. */
  function Resume<C>(f: Format, showCount: real -> string, place: (C, Vec3) -> C,
                     s: Manager<C>, pc: Pc, t: TrialType, now: real, frame: int, clock: string): (r: (Manager<C>, Pc))
    ensures pc == Entry && s.loaded.None? ==> r == (s.(info := "No test loaded"), Done)
    ensures pc == Entry && s.loaded.Some? && s.pauseBetweenTrials > 0.0 ==>
      r == (Prepared(place, s).(info := CountdownText(showCount, s.pauseBetweenTrials)), Waiting(s.pauseBetweenTrials))
    ensures (pc.Done? || pc.Faulted?) ==> r == (s, pc)
    ensures pc.Waiting? && pc.countdown - Tick > 0.0 ==>
      r == (s.(info := CountdownText(showCount, pc.countdown - Tick)), Waiting(pc.countdown - Tick))
    ensures r.1.Waiting? ==> r.0.status == CountingDown || (pc.Waiting? && r.0.status == s.status)
  {
    match pc
    case Entry =>
      if s.loaded.None? then (s.(info := "No test loaded"), Done)
      else Continue(f, showCount, Prepared(place, s), s.pauseBetweenTrials, t, now, frame, clock)
    case Waiting(c) => Continue(f, showCount, s, c - Tick, t, now, frame, clock)
    case Done => (s, pc)
    case Faulted => (s, pc)
  }

  /** The state before the countdown: CountingDown, with the catcher placed
      at its start position. */
  function Prepared<C>(place: (C, Vec3) -> C, s: Manager<C>): (r: Manager<C>)
    ensures r.status == CountingDown && r.catcher == place(s.catcher, s.catcherStartPosition)
  {
    s.(status := CountingDown, catcher := place(s.catcher, s.catcherStartPosition))
  }

  /** The number of waits the countdown makes: the pause divided by 0.01
      rounded up, and none for a pause that is not positive. */
  function CountdownTicks(pause: real): nat {
    if pause <= 0.0 then 0 else Ceil(pause / Tick)
  }

  /** The least integer not below x, for positive x. */
  function Ceil(x: real): (n: nat)
    requires x > 0.0
    ensures n as real - 1.0 < x <= n as real
  {
    var k := -((-x).Floor);
    k
  }

  /** StartTrial run to completion, every resumption at the same time and
      frame: with no test loaded only the message changes; otherwise the
      coroutine waits CountdownTicks times, staying CountingDown, and then
      releases the ball with the loaded velocity. */
  method StartTrial<C>(f: Format, showCount: real -> string, place: (C, Vec3) -> C,
                       s: Manager<C>, t: TrialType, now: real, frame: int, clock: string)
    returns (r: Manager<C>, waits: nat)
    ensures s.loaded.None? ==> r == s.(info := "No test loaded") && waits == 0
    ensures s.loaded.Some? ==>
      && waits == CountdownTicks(s.pauseBetweenTrials)
      && r.status == TrialInProgress && r.loaded == s.loaded
      && r.catcher == place(s.catcher, s.catcherStartPosition)
      && r.ballVelocity == s.loaded.value.initialVelocityVector && !r.ballFrozen
      && r.startingTime == now && r.startingFrame == frame
      && r.data == DataManager.StartNewTest(f, s.data, s.loaded.value.testNumber, t, frame, now, clock)
  {
    var first := Resume(f, showCount, place, s, Entry, t, now, frame, clock);
    r := first.0;
    waits := 0;
    if s.loaded.None? {
      return;
    }
    var base := Prepared(place, s);
    EntryState(f, showCount, place, s, t, now, frame, clock);
    r, waits := Countdown(f, showCount, place, first.0, first.1, base, t, now, frame, clock, s.pauseBetweenTrials);
    LaunchedFields(f, r, base, t, now, frame, clock, s.pauseBetweenTrials, waits);
  }

  /** The countdown loop of StartTrial, from the state after entry to the
      launch. */
  method Countdown<C>(f: Format, showCount: real -> string, place: (C, Vec3) -> C, r0: Manager<C>, pc0: Pc,
                      base: Manager<C>, t: TrialType, now: real, frame: int, clock: string, p: real)
    returns (r: Manager<C>, waits: nat)
    requires base.loaded.Some?
    requires (pc0.Waiting? && Counting(r0, base, pc0, p, 0)) || (pc0.Done? && Launched(f, r0, base, t, now, frame, clock, p, 0))
    ensures Launched(f, r, base, t, now, frame, clock, p, waits)
    ensures waits == CountdownTicks(p)
  {
    var pc := pc0;
    r := r0;
    waits := 0;
    var ticks := CountdownTicks(p);
    if p > 0.0 {
      StillWaiting(p, 0);
    }
    while pc.Waiting?
      invariant pc.Waiting? ==> Counting(r, base, pc, p, waits)
      invariant pc.Waiting? ==> waits < ticks
      invariant pc.Done? ==> Launched(f, r, base, t, now, frame, clock, p, waits)
      invariant pc.Waiting? || pc.Done?
      decreases ticks - waits
    {
      CountdownStep(f, showCount, place, r, base, pc, t, now, frame, clock, p, waits);
      var step := Resume(f, showCount, place, r, pc, t, now, frame, clock);
      r, pc := step.0, step.1;
      waits := waits + 1;
      if pc.Waiting? {
        StillWaiting(p, waits);
      }
    }
    TicksExact(p, waits);
  }

  /** Entering StartTrial with a test loaded either starts the countdown
      or, for a pause that is not positive, launches at once. */
  lemma EntryState<C>(f: Format, showCount: real -> string, place: (C, Vec3) -> C,
                      s: Manager<C>, t: TrialType, now: real, frame: int, clock: string)
    requires s.loaded.Some?
    ensures var (r, pc) := Resume(f, showCount, place, s, Entry, t, now, frame, clock);
      var base := Prepared(place, s);
      || (pc.Waiting? && Counting(r, base, pc, s.pauseBetweenTrials, 0))
      || (pc.Done? && Launched(f, r, base, t, now, frame, clock, s.pauseBetweenTrials, 0))
  {
    var base := Prepared(place, s);
    if s.pauseBetweenTrials <= 0.0 {
      assert base.(info := base.info) == base;
    }
  }

  /** What a launch of the prepared manager sets. */
  lemma LaunchedFields<C>(f: Format, r: Manager<C>, base: Manager<C>, t: TrialType, now: real, frame: int,
                          clock: string, p: real, waits: nat)
    requires base.loaded.Some? && Launched(f, r, base, t, now, frame, clock, p, waits)
    ensures r.status == TrialInProgress && r.loaded == base.loaded && r.catcher == base.catcher
    ensures r.ballVelocity == base.loaded.value.initialVelocityVector && !r.ballFrozen
    ensures r.startingTime == now && r.startingFrame == frame
    ensures r.data == DataManager.StartNewTest(f, base.data, base.loaded.value.testNumber, t, frame, now, clock)
  {
    var b := base.(info := r.info);
    assert b.loaded == base.loaded && b.data == base.data && b.catcher == base.catcher;
  }

  /** The loop state while the countdown runs: waiting with the pause less
      the waits so far, still positive, and the manager as prepared but for
      its message. */
  ghost predicate Counting<C>(r: Manager<C>, base: Manager<C>, pc: Pc, p: real, waits: nat) {
    pc.Waiting? && pc.countdown == p - waits as real * Tick && pc.countdown > 0.0 && r.(info := base.info) == base
  }

  /** The loop state once the ball is released: the launch of the prepared
      manager, after exactly the waits that bring the pause to zero. */
  ghost predicate Launched<C>(f: Format, r: Manager<C>, base: Manager<C>, t: TrialType, now: real, frame: int,
                              clock: string, p: real, waits: nat) {
    && r == Launch(f, base.(info := r.info), t, now, frame, clock).0
    && p - waits as real * Tick <= 0.0
    && (waits == 0 ==> p <= 0.0)
    && (waits > 0 ==> p - (waits - 1) as real * Tick > 0.0)
  }

  /** One resumption during the countdown either keeps counting or
      launches. */
  lemma CountdownStep<C>(f: Format, showCount: real -> string, place: (C, Vec3) -> C, r: Manager<C>,
                         base: Manager<C>, pc: Pc, t: TrialType, now: real, frame: int, clock: string,
                         p: real, waits: nat)
    requires Counting(r, base, pc, p, waits) && base.loaded.Some?
    ensures var (r1, pc1) := Resume(f, showCount, place, r, pc, t, now, frame, clock);
      && (pc1.Waiting? || pc1.Done?)
      && (pc1.Waiting? ==> Counting(r1, base, pc1, p, waits + 1))
      && (pc1.Done? ==> Launched(f, r1, base, t, now, frame, clock, p, waits + 1))
  {
    var (r1, pc1) := Resume(f, showCount, place, r, pc, t, now, frame, clock);
    assert pc.countdown - Tick == p - (waits + 1) as real * Tick;
    if pc1.Done? {
      assert r == base.(info := r.info);
      assert r1 == Launch(f, r, t, now, frame, clock).0;
      assert Launch(f, r, t, now, frame, clock).0.info == RunningText(t, r.info);
    }
  }

  /** While the countdown is still positive after n waits, fewer than
      CountdownTicks waits have been made. */
  lemma StillWaiting(p: real, n: nat)
    requires p - n as real * Tick > 0.0
    ensures n < CountdownTicks(p)
  {
    assert p > 0.0;
    assert n as real < p / Tick;
  }

  /** The number of 0.01 steps after which a positive pause first stops
      being positive is CountdownTicks. */
  lemma TicksExact(p: real, n: nat)
    requires p - n as real * Tick <= 0.0
    requires n == 0 ==> p <= 0.0
    requires n > 0 ==> p - (n - 1) as real * Tick > 0.0
    ensures n == CountdownTicks(p)
  {
    if n > 0 {
      var k := Ceil(p / Tick);
      assert n as real - 1.0 < p / Tick <= n as real;
    }
  }

  /** While the coroutine waits, FixedUpdate leaves the catcher where
      StartTrial placed it. */
  lemma CountdownHoldsCatcher<C>(f: Format, showCount: real -> string, place: (C, Vec3) -> C,
                                 s: Manager<C>, t: TrialType, now: real, frame: int, clock: string, move: C -> C)
    requires s.loaded.Some?
    ensures var (r, pc) := Resume(f, showCount, place, s, Entry, t, now, frame, clock);
      pc.Waiting? ==> FixedUpdate(r, move) == r && r.catcher == place(s.catcher, s.catcherStartPosition)
  {
  }

  /** CompleteTrial: whatever the prior status, the manager ends Ready with
      the result recorded, no test loaded, the catcher sent home, the ball
      frozen at its home with no velocity, and the writer stopped. */
  function CompleteTrial<C>(f: Format, sendHome: C -> C, s: Manager<C>, caught: bool, now: real, frame: int): (r: Manager<C>)
    ensures r.status == Ready && r.lastResult == caught && r.loaded == None
    ensures r.catcher == sendHome(s.catcher)
    ensures r.ballPosition == s.baseballHomePosition && r.ballVelocity == Zero && r.ballFrozen
    ensures !DataManager.Running(r.data) && r.info == "Trial completed"
    ensures r.resultFile == DataManager.ResultColumns + DataManager.ResultRow(f, s.data, caught, now, frame)
    ensures r.testCases == s.testCases && r.testsChanged == s.testsChanged
  {
    var (d, file) := DataManager.CompleteTest(f, s.data, caught, now, frame);
    UnloadTest(s).(lastResult := caught, info := "Trial completed", catcher := sendHome(s.catcher),
                   ballVelocity := Zero, ballPosition := s.baseballHomePosition, status := Ready,
                   ballFrozen := true, data := d, resultFile := file)
  }

  /** A launched trial that completes leaves a Ready manager in which
      FixedUpdate no longer moves the catcher and a new StartTrial finds no
      test, whatever the format. */
  lemma TrialSettles<C>(f: Format, sendHome: C -> C, move: C -> C,
                        s: Manager<C>, t: TrialType, caught: bool, t0: real, f0: int, now: real, frame: int, clock: string)
    requires s.loaded.Some?
    ensures var launched := Launch(f, s, t, t0, f0, clock).0;
      var done := CompleteTrial(f, sendHome, launched, caught, now, frame);
      && FixedUpdate(done, move) == done
      && done.loaded.None?
  {
  }

  /** The result row of a launched trial that completes reads back, under a
      sound format, whether the ball was caught, the rounded time since the
      launch and the frames since it. */
  lemma TrialCycle<C>(f: Format, s: Manager<C>, t: TrialType, caught: bool, t0: real, f0: int, now: real, frame: int, clock: string)
    requires SoundFormat(f)
    requires s.loaded.Some?
    ensures var launched := Launch(f, s, t, t0, f0, clock).0;
      var row := DataManager.ResultRow(f, launched.data, caught, now, frame);
      var fields := Split(row[..|row| - 2], ',');
      && |fields| == 3
      && (f.parseInt(fields[0]) == Some(1) <==> caught)
      && f.parseReal(fields[1]) == Some(Rounded(f, now - t0))
      && f.parseInt(fields[2]) == Some(frame - f0)
  {
    var launched := Launch(f, s, t, t0, f0, clock).0;
    DataManager.ResultRowReads(f, launched.data, caught, now, frame);
  }
}

=== FILE: ui_config_manager.dfy ===
/** The older, UI-bound configuration manager: fourteen plain settings, a
    line loader that recognises each "$name" by hand, the CheckConfig
    validator, the three-number vector parser and the SaveConfig guard. */
module UIConfigurationManager {
  import opened Wrappers
  import opened UnityMath
  import opened Strings
  import opened TestCases
  import ConfigurationManager

  datatype Settings = Settings(
    numberOfTests: int,
    practiceRuns: int,
    trialRuns: int,
    maxSpeed: real,
    startingDistance: real,
    auto: bool,
    maxBallHeight: real,
    radius: real,
    targetsShape: int,
    ballPreset: int,
    ballMass: real,
    ballSize: real,
    ballFriction: real,
    pauseBetweenTrials: real)

  /** The field initialisers. */
  function Defaults(): Settings {
    Settings(8, 10, 30, 5.0, 30.0, true, 20.0, 8.0, 0, 1, 0.1, 0.14, 0.01, 3.0)
  }

  // ---------------------------------------------------------------------
  // CheckConfig

  /** The shared ranges: the counts and the physical values positive
      (practice runs may be zero), the friction strictly between 0 and 1. */
  predicate ValuesInRange(s: Settings) {
    && s.numberOfTests > 0 && s.practiceRuns >= 0 && s.trialRuns > 0
    && s.pauseBetweenTrials > 0.0 && s.maxSpeed > 0.0 && s.startingDistance > 0.0
    && s.ballSize > 0.0 && s.ballMass > 0.0 && 0.0 < s.ballFriction < 1.0
  }

  /** In auto mode the target layout is bounded. */
  predicate AutoInRange(s: Settings) {
    s.auto ==> 0.0 < s.maxBallHeight <= 100.0 && 0.0 < s.radius < 100.0 && (s.targetsShape == 0 || s.targetsShape == 1)
  }

  /** The ball preset lies in [1, 6]. */
  predicate PresetInRange(s: Settings) {
    1 <= s.ballPreset <= 6
  }

  /** The test list matches the mode: as long as the count in manual mode,
      empty in auto mode. */
  predicate TestsMatchMode(s: Settings, testCount: int) {
    (!s.auto ==> s.numberOfTests == testCount) && (s.auto ==> testCount <= 0)
  }

  /** The accepted configurations, stated positively. */
  predicate Acceptable(s: Settings, testCount: int) {
    ValuesInRange(s) && AutoInRange(s) && PresetInRange(s) && TestsMatchMode(s, testCount)
  }

  const ValuesMessage := "Values outside accepted ranges in config file."
  const AutoMessage := "Auto parameters outside accepted ranges in config file."
  const PresetMessage := "Ball preset outside accepted range in config file."
  const AutoTestsMessage := "Auto mode but found tests in config file."

  function CountMessage(f: Format, numberOfTests: int, testCount: int): string {
    "Number of tests (" + f.showInt(numberOfTests) + ") doesn't match the length of the test list ("
      + f.showInt(testCount) + ") in config file."
  }

  /** CheckConfig: the message of the first group of checks that fails,
      or none. */
  function CheckConfig(f: Format, s: Settings, testCount: int): (r: Option<string>)
    ensures r.None? <==> Acceptable(s, testCount)
    ensures s.ballPreset == 0 ==> r.Some?
    ensures (s.numberOfTests <= 0 || s.trialRuns <= 0 || s.ballFriction >= 1.0) ==> r == Some(ValuesMessage)
    ensures ValuesInRange(s) && !AutoInRange(s) ==> r == Some(AutoMessage)
    ensures ValuesInRange(s) && AutoInRange(s) && !PresetInRange(s) ==> r == Some(PresetMessage)
  {
    if s.numberOfTests <= 0 || s.practiceRuns < 0 || s.trialRuns <= 0 || s.pauseBetweenTrials <= 0.0
      || s.maxSpeed <= 0.0 || s.startingDistance <= 0.0 || s.ballSize <= 0.0 || s.ballMass <= 0.0
      || s.ballFriction <= 0.0 || s.ballFriction >= 1.0
    then Some(ValuesMessage)
    else if s.auto && (s.maxBallHeight <= 0.0 || s.maxBallHeight > 100.0 || s.radius <= 0.0 || s.radius >= 100.0
      || (s.targetsShape != 0 && s.targetsShape != 1))
    then Some(AutoMessage)
    else if s.ballPreset > 6 || s.ballPreset < 1 then Some(PresetMessage)
    else if !s.auto && s.numberOfTests != testCount then Some(CountMessage(f, s.numberOfTests, testCount))
    else if s.auto && testCount > 0 then Some(AutoTestsMessage)
    else None
  }

  /** The auto-only checks bind only in auto mode: a manual configuration
      passes whatever its height, radius and layout, once the shared checks
      and the test count pass. */
  lemma ManualIgnoresLayout(f: Format, s: Settings, testCount: int, height: real, radius: real, shape: int)
    requires !s.auto
    ensures CheckConfig(f, s, testCount).None? <==>
      CheckConfig(f, s.(maxBallHeight := height, radius := radius, targetsShape := shape), testCount).None?
  {
  }

  /** The initial settings pass in auto mode with no test list. */
  lemma DefaultsAccepted(f: Format)
    ensures CheckConfig(f, Defaults(), 0).None?
    ensures CheckConfig(f, Defaults(), 1) == Some(AutoTestsMessage)
  {
  }

  // ---------------------------------------------------------------------
  // The settings a "$" line may name

  datatype Key = NumberOfTests | PracticeRuns | TrialRuns | Auto | MaxBallHeight | Radius | TargetsShape
               | PauseBetweenTrials | MaxSpeed | StartingDistance | BallPreset | BallSize | BallMass | BallFriction

  function Name(k: Key): string {
    match k
    case NumberOfTests => "number_of_tests"
    case PracticeRuns => "practice_runs"
    case TrialRuns => "trial_runs"
    case Auto => "auto"
    case MaxBallHeight => "max_ball_height"
    case Radius => "radius"
    case TargetsShape => "targets_shape"
    case PauseBetweenTrials => "pause_between_trials"
    case MaxSpeed => "max_speed"
    case StartingDistance => "starting_distance"
    case BallPreset => "ball_preset"
    case BallSize => "ball_size"
    case BallMass => "ball_mass"
    case BallFriction => "ball_friction"
  }

  /** The keys in the order of the switch's cases. */
  function Keys(): seq<Key> {
    [NumberOfTests, PracticeRuns, TrialRuns, Auto, MaxBallHeight, Radius, TargetsShape,
     PauseBetweenTrials, MaxSpeed, StartingDistance, BallPreset, BallSize, BallMass, BallFriction]
  }

  /** The switch over the text before '=': the first case whose "$name"
      it is. */
  function KeyOf(token: string): (r: Option<Key>)
    ensures r.Some? ==> token == "$" + Name(r.value)
    ensures r.None? <==> forall k :: token != "$" + Name(k)
  {
    var r := FirstKey(token, Keys());
    if r.None? then UnnamedToken(token); r else r
  }

  lemma UnnamedToken(token: string)
    requires FirstKey(token, Keys()).None?
    ensures forall k :: token != "$" + Name(k)
  {
    forall k
      ensures token != "$" + Name(k)
    {
      var i := Position(k);
    }
  }

  function FirstKey(token: string, ks: seq<Key>): (r: Option<Key>)
    ensures r.Some? ==> token == "$" + Name(r.value) && r.value in ks
    ensures r.None? <==> forall j :: 0 <= j < |ks| ==> token != "$" + Name(ks[j])
  {
    if |ks| == 0 then None
    else if token == "$" + Name(ks[0]) then Some(ks[0])
    else FirstKey(token, ks[1..])
  }

  /** Where a key stands in the switch. */
  function Position(k: Key): (i: nat)
    ensures i < |Keys()| && Keys()[i] == k
  {
    match k
    case NumberOfTests => 0
    case PracticeRuns => 1
    case TrialRuns => 2
    case Auto => 3
    case MaxBallHeight => 4
    case Radius => 5
    case TargetsShape => 6
    case PauseBetweenTrials => 7
    case MaxSpeed => 8
    case StartingDistance => 9
    case BallPreset => 10
    case BallSize => 11
    case BallMass => 12
    case BallFriction => 13
  }

  /** Distinct keys have distinct names. */
  lemma NamesDistinct(j: Key, k: Key)
    requires j != k
    ensures "$" + Name(j) != "$" + Name(k)
  {
    var a, b := "$" + Name(j), "$" + Name(k);
    if |a| == |b| {
      assert a[1] != b[1] || a[6] != b[6];
    }
  }

  /** Every key is recognised by its own name, so the switch and the names
      are inverse. */
  lemma KeyOfName(k: Key)
    ensures KeyOf("$" + Name(k)) == Some(k)
  {
    var r := KeyOf("$" + Name(k));
    assert r.Some?;
    if r.value != k {
      NamesDistinct(r.value, k);
    }
  }

  /** A setting's value, of the type of its field. */
  datatype Field = IntField(i: int) | RealField(r: real) | BoolField(b: bool)

  datatype FieldType = IntType | RealType | BoolType

  /** The C# type of each field. */
  function TypeOf(k: Key): FieldType {
    match k
    case NumberOfTests | PracticeRuns | TrialRuns | TargetsShape | BallPreset => IntType
    case Auto => BoolType
    case _ => RealType
  }

  predicate Typed(k: Key, v: Field) {
    match TypeOf(k)
    case IntType => v.IntField?
    case BoolType => v.BoolField?
    case RealType => v.RealField?
  }

  function Get(s: Settings, k: Key): (v: Field)
    ensures Typed(k, v)
  {
    match k
    case NumberOfTests => IntField(s.numberOfTests)
    case PracticeRuns => IntField(s.practiceRuns)
    case TrialRuns => IntField(s.trialRuns)
    case Auto => BoolField(s.auto)
    case MaxBallHeight => RealField(s.maxBallHeight)
    case Radius => RealField(s.radius)
    case TargetsShape => IntField(s.targetsShape)
    case PauseBetweenTrials => RealField(s.pauseBetweenTrials)
    case MaxSpeed => RealField(s.maxSpeed)
    case StartingDistance => RealField(s.startingDistance)
    case BallPreset => IntField(s.ballPreset)
    case BallSize => RealField(s.ballSize)
    case BallMass => RealField(s.ballMass)
    case BallFriction => RealField(s.ballFriction)
  }

  /** Assignment to one field. */
  function Put(s: Settings, k: Key, v: Field): (r: Settings)
    requires Typed(k, v)
    ensures Get(r, k) == v
    ensures forall j :: j != k ==> Get(r, j) == Get(s, j)
  {
    match k
    case NumberOfTests => s.(numberOfTests := v.i)
    case PracticeRuns => s.(practiceRuns := v.i)
    case TrialRuns => s.(trialRuns := v.i)
    case Auto => s.(auto := v.b)
    case MaxBallHeight => s.(maxBallHeight := v.r)
    case Radius => s.(radius := v.r)
    case TargetsShape => s.(targetsShape := v.i)
    case PauseBetweenTrials => s.(pauseBetweenTrials := v.r)
    case MaxSpeed => s.(maxSpeed := v.r)
    case StartingDistance => s.(startingDistance := v.r)
    case BallPreset => s.(ballPreset := v.i)
    case BallSize => s.(ballSize := v.r)
    case BallMass => s.(ballMass := v.r)
    case BallFriction => s.(ballFriction := v.r)
  }

  /** int/float/bool.TryParse into the field: the parsed value and true, or
      the type's zero (what the out parameter holds after a failure) and
      false. */
  function Parse(f: Format, k: Key, text: string): (r: (Field, bool))
    ensures Typed(k, r.0)
  {
    match TypeOf(k)
    case IntType => (match f.parseInt(text) case Some(n) => (IntField(n), true) case None => (IntField(0), false))
    case RealType => (match f.parseReal(text) case Some(x) => (RealField(x), true) case None => (RealField(0.0), false))
    case BoolType => (match f.parseBool(text) case Some(b) => (BoolField(b), true) case None => (BoolField(false), false))
  }

  /** How a field is written out by ToString. */
  function Show(f: Format, v: Field): string {
    match v
    case IntField(n) => f.showInt(n)
    case RealField(x) => f.showReal(x)
    case BoolField(b) => f.showBool(b)
  }

  /** The value a field comes back as once rendered and parsed: a real
      field is rounded, the others are kept. */
  function RoundedField(f: Format, v: Field): (r: Field)
    ensures r.IntField? == v.IntField? && r.RealField? == v.RealField? && r.BoolField? == v.BoolField?
  {
    match v
    case RealField(x) => RealField(Rounded(f, x))
    case _ => v
  }

  /** The field survives its rendering: it is not a real, or a real that
      prints exactly. */
  predicate ExactField(f: Format, v: Field) {
    v.RealField? ==> Exact(f, v.r)
  }

  /** Under a sound format, parsing a field's rendering succeeds with its
      rounding, which is the field itself for integers, booleans and exactly
      printed reals. */
  lemma ParseShow(f: Format, k: Key, v: Field)
    requires SoundFormat(f) && Typed(k, v)
    ensures Parse(f, k, Show(f, v)) == (RoundedField(f, v), true)
    ensures ExactField(f, v) ==> Parse(f, k, Show(f, v)) == (v, true)
    ensures Plain(Show(f, v))
  {
    if v.RealField? {
      RoundedParses(f, v.r);
    }
  }

  // ---------------------------------------------------------------------
  // ParseVector

  /** ParseVector: exactly three comma-separated tokens, each a float. */
  function ParseVector(f: Format, input: string): (r: Option<Vec3>)
    ensures r.Some? <==> |Split(input, ',')| == 3 && forall k :: 0 <= k < 3 ==> f.parseReal(Split(input, ',')[k]).Some?
    ensures r.Some? ==> var t := Split(input, ',');
      r.value == Vec3(f.parseReal(t[0]).value, f.parseReal(t[1]).value, f.parseReal(t[2]).value)
  {
    var t := Split(input, ',');
    if |t| != 3 then None
    else match (f.parseReal(t[0]), f.parseReal(t[1]), f.parseReal(t[2]))
      case (Some(x), Some(y), Some(z)) => Some(Vec3(x, y, z))
      case _ => None
  }

  /** A vector written as three rendered reals parses back to its rounded
      components, and to itself when they print exactly. */
  lemma ParseVectorTriple(f: Format, a: real, b: real, c: real)
    requires SoundFormat(f)
    ensures ParseVector(f, Triple(f, a, b, c)) == Some(Vec3(Rounded(f, a), Rounded(f, b), Rounded(f, c)))
    ensures ExactTriple(f, (a, b, c)) ==> ParseVector(f, Triple(f, a, b, c)) == Some(Vec3(a, b, c))
  {
    SoundCommaFree(f);
    TripleSplits(f, a, b, c);
    RoundedParses(f, a);
    RoundedParses(f, b);
    RoundedParses(f, c);
  }

  // ---------------------------------------------------------------------
  // LoadConfig

  /** The cleaning of one file line: comment lines are dropped, spaces
      removed and the text from the first "//" cut. Unlike the newer
      manager, an empty remainder is kept. */
  function CleanLine(line: string): (r: Option<string>)
    ensures StartsWith(line, "//") ==> r.None?
    ensures r.Some? ==> ' ' !in r.value && !Contains(r.value, "//")
  {
    if StartsWith(line, "//") then None
    else
      var l := RemoveChar(line, ' ');
      var p := IndexOf(l, "//");
      ConfigurationManager.CutHasNoComment(l, p);
      Some(if p != -1 then l[..p] else l)
  }

  /** The cleaned lines of a file, in order: the kept lines, each
      cleaned. A file whose every line is its own cleaning comes back
      unchanged. */
  function CleanLines(raw: seq<string>): (r: seq<string>)
    ensures |r| <= |raw|
    ensures forall j :: 0 <= j < |r| ==> ' ' !in r[j] && !Contains(r[j], "//")
    ensures (forall j :: 0 <= j < |raw| ==> CleanLine(raw[j]) == Some(raw[j])) ==> r == raw
  {
    if |raw| == 0 then []
    else match CleanLine(raw[0])
      case None => CleanLines(raw[1..])
      case Some(l) => [l] + CleanLines(raw[1..])
  }

  /** A text without '/' holds no "//". */
  lemma NoSlashNoComment(s: string)
    requires '/' !in s
    ensures !Contains(s, "//")
  {
    forall j | 0 <= j && j + 2 <= |s|
      ensures !OccursAt(s, "//", j)
    {
      assert s[j] in s;
    }
  }

  /** A line without spaces and without '/' is kept as it is. */
  lemma CleanLineKeeps(line: string)
    requires ' ' !in line && '/' !in line
    ensures CleanLine(line) == Some(line)
  {
    NoSlashNoComment(line);
    if |line| > 0 {
      assert line[0] in line;
    }
  }

  datatype State = State(settings: Settings, tests: seq<TestCase>)

  /** What a line does: the load goes on, stops with a message (the fields
      already assigned, a zeroed one included, stay assigned), or throws
      because a test line has no value part. */
  datatype Step = Next(st: State) | Rejected(st: State, message: string) | Crashed(st: State)

  function TestKind(t: BuildType): string {
    match t
    case Target => "a target test"
    case InitialVelocity => "an initial velocity test"
    case InitialParameters => "a parameters test"
  }

  /** The build type a test identifier names. */
  function BuildOf(token: string): Option<BuildType> {
    if token == "@T" then Some(Target)
    else if token == "@V" then Some(InitialVelocity)
    else if token == "@P" then Some(InitialParameters)
    else None
  }

  /** The test a parsed vector describes, numbered one past the count. */
  function MakeTest(m: Maths, b: BuildType, v: Vec3, n: int): TestCase {
    match b
    case Target => FromTarget(m, Vec3(v.x, 0.0, v.y), v.z, n)
    case InitialVelocity => FromVelocity(m, v, n)
    case InitialParameters => FromParameters(m, v.x, v.y, v.z, n)
  }

  function VariableLine(f: Format, st: State, line: string, lineNo: int): (r: Step)
    requires StartsWith(line, "$")
    ensures !r.Crashed? && r.st.tests == st.tests
  {
    if '=' !in line then
      Rejected(st, "Line containing variable marker ($) without an assignment marker (=) (line:" + f.showInt(lineNo) + ")")
    else
      ConfigurationManager.AssignSplit(line);
      var tokens := Split(line, '=');
      match KeyOf(tokens[0])
      case None =>
        Rejected(st, "Config file contains undefined variable name \"" + tokens[1] + "\". (line:" + f.showInt(lineNo) + ")")
      case Some(k) =>
        var (v, ok) := Parse(f, k, tokens[1]);
        var st1 := st.(settings := Put(st.settings, k, v));
        if ok then Next(st1)
        else Rejected(st1, "Illegal value \"" + tokens[1] + "\" for " + Name(k) + " (line:" + f.showInt(lineNo) + ")")
  }

  function TestLine(f: Format, m: Maths, st: State, line: string, lineNo: int): (r: Step)
    requires StartsWith(line, "@")
    ensures r.st.settings == st.settings
    ensures r.Next? ==>
      && |r.st.tests| == |st.tests| + 1 && r.st.tests[..|st.tests|] == st.tests
      && r.st.tests[|st.tests|].testNumber == |st.tests| + 1
    ensures !r.Next? ==> r.st == st
  {
    var tokens := Split(line, '=');
    match BuildOf(tokens[0])
    case None => Rejected(st, "Unknown test identifier \"" + tokens[0] + "\". (line:" + f.showInt(lineNo) + ")")
    case Some(b) =>
      if |tokens| < 2 then Crashed(st)
      else match ParseVector(f, tokens[1])
        case None => Rejected(st, "Illegal values \"" + tokens[1] + "\" for " + TestKind(b) + ". (line:" + f.showInt(lineNo) + ")")
        case Some(v) => Next(st.(tests := st.tests + [MakeTest(m, b, v, |st.tests| + 1)]))
  }

  /** One line of LoadConfig: "$" lines assign a setting, "@" lines add a
      test, and every other line, the empty one included, is ignored. */
  function LoadLine(f: Format, m: Maths, st: State, line: string, lineNo: int): (r: Step)
    ensures !StartsWith(line, "$") && !StartsWith(line, "@") ==> r == Next(st)
    ensures StartsWith(line, "$") && '=' !in line ==> r.Rejected? && r.st == st
  {
    if StartsWith(line, "$") then VariableLine(f, st, line, lineNo)
    else if StartsWith(line, "@") then TestLine(f, m, st, line, lineNo)
    else Next(st)
  }

  /** The outcome of the whole load. */
  datatype Outcome = Loaded(st: State) | Failed(st: State, message: string) | Threw(st: State)

  /** LoadConfig over the cleaned lines from position i on, numbering lines
      from 1. */
  function LoadFrom(f: Format, m: Maths, st: State, lines: seq<string>, i: nat): Outcome
    requires i <= |lines|
    decreases |lines| - i
  {
    if i == |lines| then Loaded(st)
    else match LoadLine(f, m, st, lines[i], i + 1)
      case Next(st1) => LoadFrom(f, m, st1, lines, i + 1)
      case Rejected(st1, msg) => Failed(st1, msg)
      case Crashed(st1) => Threw(st1)
  }

  /** What reading the configuration file gives: its lines, a missing
      file, or another I/O error with its description. */
  datatype FileRead = Read(lines: seq<string>) | NotFound | ReadError(description: string)

  /** LoadConfig: a file that cannot be read fails with its status
      message and changes nothing; otherwise the cleaned lines are loaded
      in order, numbered from 1. */
  function LoadConfig(f: Format, m: Maths, st: State, file: FileRead): (r: Outcome)
    ensures file.NotFound? ==> r == Failed(st, "Config file not found.")
    ensures file.ReadError? ==> r == Failed(st, "Config file not loaded: " + file.description)
    ensures file.Read? && file.lines == [] ==> r == Loaded(st)
  {
    match file
    case NotFound => Failed(st, "Config file not found.")
    case ReadError(d) => Failed(st, "Config file not loaded: " + d)
    case Read(raw) => LoadFrom(f, m, st, CleanLines(raw), 0)
  }

  /** The tests are numbered by their position. */
  predicate Numbered(tests: seq<TestCase>) {
    forall k :: 0 <= k < |tests| ==> tests[k].testNumber == k + 1
  }

  /** Starting from a numbered list, every test the load adds is numbered
      one past those before it. */
  lemma {:induction false} LoadNumbersTests(f: Format, m: Maths, st: State, lines: seq<string>, i: nat)
    requires i <= |lines| && Numbered(st.tests)
    ensures Numbered(LoadFrom(f, m, st, lines, i).st.tests)
    ensures |LoadFrom(f, m, st, lines, i).st.tests| >= |st.tests|
    decreases |lines| - i
  {
    if i < |lines| {
      var step := LoadLine(f, m, st, lines[i], i + 1);
      LineNumbersTests(f, m, st, lines[i], i + 1);
      if step.Next? {
        LoadNumbersTests(f, m, step.st, lines, i + 1);
      }
    }
  }

  /** One line keeps the tests numbered by position and drops none. */
  lemma LineNumbersTests(f: Format, m: Maths, st: State, line: string, lineNo: int)
    requires Numbered(st.tests)
    ensures Numbered(LoadLine(f, m, st, line, lineNo).st.tests)
    ensures |LoadLine(f, m, st, line, lineNo).st.tests| >= |st.tests|
  {
    var step := LoadLine(f, m, st, line, lineNo);
    if StartsWith(line, "@") && !StartsWith(line, "$") {
      var t := TestLine(f, m, st, line, lineNo);
      assert step == t;
      if t.Next? {
        forall k | 0 <= k < |t.st.tests|
          ensures t.st.tests[k].testNumber == k + 1
        {
          if k < |st.tests| {
            assert t.st.tests[k] == t.st.tests[..|st.tests|][k];
          }
        }
      }
    }
  }

  /** A test's own configuration line adds the test that the newer manager
      rebuilds from it: both loaders read it the same way, from the rounded
      values. */
  lemma TestLineAgrees(f: Format, m: Maths, st: State, c: TestCase, lineNo: int)
    requires SoundFormat(f)
    ensures LoadLine(f, m, st, ToConfigFormat(f, c), lineNo)
      == Next(st.(tests := st.tests + [ConfigurationManager.Rebuilt(m, c, RoundedTriple(f, ConfigValues(c)), |st.tests| + 1)]))
  {
    var line := ToConfigFormat(f, c);
    var (a, b, d) := ConfigValues(c);
    var marker := Marker(c.buildType);
    var content := Triple(f, a, b, d);
    assert line == TestMarker + marker + AssignMarker + content;
    assert Split(line, '=') == [TestMarker + marker, content] by {
      ConfigurationManager.AssignSplit(line);
      SoundCommaFree(f);
      TripleHasNoAssign(f, a, b, d);
    }
    assert line[0] == '@' && StartsWith(line, "@") && !StartsWith(line, "$");
    ParseVectorTriple(f, a, b, d);
  }

  // ---------------------------------------------------------------------
  // SaveConfig

  /** The settings SaveConfig writes, in order: the shared six, the ball
      values unless the ball is custom, and the auto block. The test list
      branch needs manual mode, which the guard has already excluded. */
  function SavedKeys(s: Settings): seq<Key> {
    [StartingDistance, MaxSpeed, NumberOfTests, PracticeRuns, TrialRuns, PauseBetweenTrials]
    + (if s.ballPreset != 0 then [BallPreset, BallSize, BallMass, BallFriction] else [])
    + (if s.auto then [Auto, MaxBallHeight, Radius, TargetsShape] else [])
  }

  function SavedLine(f: Format, s: Settings, k: Key): string {
    "$" + Name(k) + "=" + Show(f, Get(s, k))
  }

  function SavedLines(f: Format, s: Settings, keys: seq<Key>): (r: seq<string>)
    ensures |r| == |keys|
    ensures forall j :: 0 <= j < |keys| ==> r[j] == SavedLine(f, s, keys[j])
  {
    if |keys| == 0 then [] else [SavedLine(f, s, keys[0])] + SavedLines(f, s, keys[1..])
  }

  /** SaveConfig: nothing is written unless the configuration loaded and is
      in auto mode; then the setting lines are written and never a test
      line. */
  function SaveConfig(f: Format, s: Settings, loadedOk: bool): (r: Option<seq<string>>)
    ensures r.Some? <==> loadedOk && s.auto
    ensures r.Some? ==> forall j :: 0 <= j < |r.value| ==> StartsWith(r.value[j], "$")
  {
    if !loadedOk || !s.auto then None
    else Some(SavedLines(f, s, SavedKeys(s)))
  }

  /** A saved line is a "$" line that splits at its one '=' into the
      marked name and the rendered value. */
  lemma SavedLineSplits(f: Format, s: Settings, k: Key)
    requires SoundFormat(f)
    ensures var line := SavedLine(f, s, k);
      && StartsWith(line, "$") && '=' in line
      && Split(line, '=') == ["$" + Name(k), Show(f, Get(s, k))]
  {
    var line := SavedLine(f, s, k);
    var text := Show(f, Get(s, k));
    ParseShow(f, k, Get(s, k));
    assert line == ("$" + Name(k)) + ['='] + text;
    NameIsPlain(k);
    SplitAtFirst("$" + Name(k), text, '=');
    SplitAbsent(text, '=');
    assert line[..1] == "$";
    assert line[|"$" + Name(k)|] == '=';
  }

  /** The characters a marked setting name is made of. */
  predicate NameChar(c: char) {
    'a' <= c <= 'z' || c == '_' || c == '$'
  }

  /** A text made of name characters holds no '=', no space and no '/'. */
  lemma NameCharsArePlain(n: string)
    requires forall i :: 0 <= i < |n| ==> NameChar(n[i])
    ensures '=' !in n && ' ' !in n && '/' !in n
  {
  }

  /** A marked setting name holds no '=', no space and no '/': it neither
      splits nor changes when a line is cleaned. */
  lemma NameIsPlain(k: Key)
    ensures var n := "$" + Name(k); '=' !in n && ' ' !in n && '/' !in n
  {
    if Position(k) < 4 {
      FirstNamesAreNameChars(k);
    } else if Position(k) < 7 {
      SecondNamesAreNameChars(k);
    } else if Position(k) < 11 {
      ThirdNamesAreNameChars(k);
    } else {
      FourthNamesAreNameChars(k);
    }
    NameCharsArePlain("$" + Name(k));
  }

  lemma FirstNamesAreNameChars(k: Key)
    requires Position(k) < 4
    ensures var n := "$" + Name(k); forall i :: 0 <= i < |n| ==> NameChar(n[i])
  {
  }

  lemma SecondNamesAreNameChars(k: Key)
    requires 4 <= Position(k) < 7
    ensures var n := "$" + Name(k); forall i :: 0 <= i < |n| ==> NameChar(n[i])
  {
  }

  lemma ThirdNamesAreNameChars(k: Key)
    requires 7 <= Position(k) < 11
    ensures var n := "$" + Name(k); forall i :: 0 <= i < |n| ==> NameChar(n[i])
  {
  }

  lemma FourthNamesAreNameChars(k: Key)
    requires Position(k) >= 11
    ensures var n := "$" + Name(k); forall i :: 0 <= i < |n| ==> NameChar(n[i])
  {
  }

  /** A saved line is its own cleaning: neither the marked name nor the
      rendered value holds a space or a '/'. */
  lemma SavedLineClean(f: Format, s: Settings, k: Key)
    requires SoundFormat(f)
    ensures CleanLine(SavedLine(f, s, k)) == Some(SavedLine(f, s, k))
  {
    var text := Show(f, Get(s, k));
    NameIsPlain(k);
    ParseShow(f, k, Get(s, k));
    var line := SavedLine(f, s, k);
    assert line == ("$" + Name(k)) + "=" + text;
    CleanLineKeeps(line);
  }

  /** Loading one saved line assigns exactly that setting, rounded. */
  lemma SavedLineLoads(f: Format, m: Maths, st: State, s: Settings, k: Key, lineNo: int)
    requires SoundFormat(f)
    ensures LoadLine(f, m, st, SavedLine(f, s, k), lineNo)
      == Next(st.(settings := Put(st.settings, k, RoundedField(f, Get(s, k)))))
  {
    var line := SavedLine(f, s, k);
    var v := Get(s, k);
    var text := Show(f, v);
    SavedLineSplits(f, s, k);
    KeyOfName(k);
    ParseShow(f, k, v);
    assert VariableLine(f, st, line, lineNo) == Next(st.(settings := Put(st.settings, k, RoundedField(f, v))));
  }

  /** One step of the load over saved lines. */
  lemma SavedLineStep(f: Format, m: Maths, st: State, s: Settings, keys: seq<Key>, i: nat)
    requires SoundFormat(f) && i < |keys|
    ensures LoadFrom(f, m, st, SavedLines(f, s, keys), i)
      == LoadFrom(f, m, st.(settings := Put(st.settings, keys[i], RoundedField(f, Get(s, keys[i])))), SavedLines(f, s, keys), i + 1)
  {
    SavedLineLoads(f, m, st, s, keys[i], i + 1);
  }

  /** Loading saved lines from position i on: the settings hold the rounded
      saved value of every key among those lines, and keep their own
      elsewhere; no test is added. */
  lemma {:induction false} SavedLinesLoad(f: Format, m: Maths, st: State, s: Settings, keys: seq<Key>, i: nat)
    requires SoundFormat(f) && i <= |keys|
    ensures var lines := SavedLines(f, s, keys);
      var r := LoadFrom(f, m, st, lines, i);
      && r.Loaded?
      && r.st.tests == st.tests
      && forall k :: Get(r.st.settings, k) == if k in keys[i..] then RoundedField(f, Get(s, k)) else Get(st.settings, k)
    decreases |keys| - i
  {
    var lines := SavedLines(f, s, keys);
    if i < |keys| {
      SavedLineStep(f, m, st, s, keys, i);
      var st1 := st.(settings := Put(st.settings, keys[i], RoundedField(f, Get(s, keys[i]))));
      SavedLinesLoad(f, m, st1, s, keys, i + 1);
      SettingsAfterStep(f, st.settings, s, keys, i, LoadFrom(f, m, st1, lines, i + 1).st.settings);
    }
  }

  /** The settings bookkeeping of one step: a key assigned at position i
      and then the keys after it. */
  lemma SettingsAfterStep(f: Format, before: Settings, s: Settings, keys: seq<Key>, i: nat, after: Settings)
    requires i < |keys|
    requires forall k ::
      Get(after, k) == if k in keys[i + 1..] then RoundedField(f, Get(s, k))
        else Get(Put(before, keys[i], RoundedField(f, Get(s, keys[i]))), k)
    ensures forall k :: Get(after, k) == if k in keys[i..] then RoundedField(f, Get(s, k)) else Get(before, k)
  {
    assert keys[i..] == [keys[i]] + keys[i + 1..];
  }

  /** SaveConfig then LoadConfig on the file it wrote: the cleaning keeps
      every line, every written setting comes back rounded, so integers,
      booleans and exactly printed reals come back with the value they were
      saved with, and the others keep their value. */
  lemma SaveLoadRoundTrip(f: Format, m: Maths, s: Settings, st: State)
    requires SoundFormat(f) && SaveConfig(f, s, true).Some?
    ensures CleanLines(SaveConfig(f, s, true).value) == SaveConfig(f, s, true).value
    ensures var r := LoadConfig(f, m, st, Read(SaveConfig(f, s, true).value));
      && r.Loaded?
      && r.st.tests == st.tests
      && (forall k :: k in SavedKeys(s) ==> Get(r.st.settings, k) == RoundedField(f, Get(s, k)))
      && (forall k :: k in SavedKeys(s) && ExactField(f, Get(s, k)) ==> Get(r.st.settings, k) == Get(s, k))
      && (forall k :: k !in SavedKeys(s) ==> Get(r.st.settings, k) == Get(st.settings, k))
  {
    var lines := SaveConfig(f, s, true).value;
    forall j | 0 <= j < |lines|
      ensures CleanLine(lines[j]) == Some(lines[j])
    {
      SavedLineClean(f, s, SavedKeys(s)[j]);
    }
    SavedLinesLoad(f, m, st, s, SavedKeys(s), 0);
    assert SavedKeys(s)[0..] == SavedKeys(s);
  }
}

=== FILE: unity_math.dfy ===
/** The engine's vector type and the few numeric primitives the scripts call.
    Floats are modelled as reals. The engine's transcendental functions are not
    computed: they are fields of a `Maths` value, and `SoundMaths` states the only
    facts the proofs rely on. */
module UnityMath {

  /** Vector3: a plain triple of components. */
  datatype Vec3 = Vec3(x: real, y: real, z: real)

  const Zero: Vec3 := Vec3(0.0, 0.0, 0.0)
  /** Vector3.right */
  const Right: Vec3 := Vec3(1.0, 0.0, 0.0)
  /** Vector3.kEpsilon, below which `normalized` gives the zero vector. */
  const Epsilon: real := 0.00001

  function Add(a: Vec3, b: Vec3): Vec3 { Vec3(a.x + b.x, a.y + b.y, a.z + b.z) }
  function Sub(a: Vec3, b: Vec3): Vec3 { Vec3(a.x - b.x, a.y - b.y, a.z - b.z) }
  function Scale(a: Vec3, k: real): Vec3 { Vec3(a.x * k, a.y * k, a.z * k) }
  function SqrNorm(v: Vec3): real { v.x * v.x + v.y * v.y + v.z * v.z }

  /** The engine primitives: square root, power, cosine and sine of an angle in
      degrees, Vector3.Angle, and the (non-finite) value of `a / 0`. */
  datatype Maths = Maths(
    sqrt: real -> real,
    pow: (real, real) -> real,
    cosDeg: real -> real,
    sinDeg: real -> real,
    angle: (Vec3, Vec3) -> real,
    divZero: real -> real)

  /** The facts the proofs may use about `sqrt`. On a negative argument it is
      unconstrained: it stands for NaN. */
  ghost predicate SqrtSound(m: Maths) {
    forall a :: a >= 0.0 ==> m.sqrt(a) >= 0.0 && m.sqrt(a) * m.sqrt(a) == a
  }

  /** The facts about `pow`: a base in [0, 1] with a nonnegative exponent stays
      in [0, 1], and a base of 1 gives 1. */
  ghost predicate PowSound(m: Maths) {
    && (forall b, e :: 0.0 <= b <= 1.0 && e >= 0.0 ==> 0.0 <= m.pow(b, e) <= 1.0)
    && (forall e :: m.pow(1.0, e) == 1.0)
  }

  /** The Pythagorean identity at one angle. */
  ghost predicate UnitAt(m: Maths, d: real) {
    m.cosDeg(d) * m.cosDeg(d) + m.sinDeg(d) * m.sinDeg(d) == 1.0
  }

  /** Cosine is even and sine is odd at one angle. */
  ghost predicate ParityAt(m: Maths, d: real) {
    m.cosDeg(-d) == m.cosDeg(d) && m.sinDeg(-d) == -m.sinDeg(d)
  }

  /** The facts about cosine and sine: the Pythagorean identity and parity at
      every angle. Each is stated through a predicate so that a proof uses it
      only at the angles it names. */
  ghost predicate TrigSound(m: Maths) {
    forall d :: UnitAt(m, d) && ParityAt(m, d)
  }

  /** All the axioms the proofs are allowed to use. `divZero` is unconstrained. */
  ghost predicate SoundMaths(m: Maths) {
    SqrtSound(m) && PowSound(m) && TrigSound(m)
  }

  /** Float division: the quotient when the divisor is nonzero, otherwise the
      value standing for the infinity or NaN the engine would produce. */
  function Quot(m: Maths, a: real, b: real): (r: real)
    ensures b != 0.0 ==> r * b == a
  {
    if b != 0.0 then a / b else m.divZero(a)
  }

  /** A product with a positive factor has the sign of the other factor. */
  lemma FactorSign(a: real, b: real)
    requires b > 0.0
    ensures a * b >= 0.0 ==> a >= 0.0
    ensures a * b > 0.0 ==> a > 0.0
    ensures a * b == 0.0 ==> a == 0.0
  {
  }

  function Abs(a: real): (r: real)
    ensures r >= 0.0 && (r == a || r == -a)
  {
    if a < 0.0 then -a else a
  }

  /** Mathf.Sign: 1 for zero and positive values, -1 otherwise. */
  function Sign(a: real): (r: real)
    ensures (r == 1.0 <==> a >= 0.0) && (r == -1.0 <==> a < 0.0)
  {
    if a >= 0.0 then 1.0 else -1.0
  }

  /** Mathf.Clamp: tests the lower bound first. */
  function Clamp(v: real, lo: real, hi: real): (r: real)
    ensures lo <= hi ==> lo <= r <= hi
    ensures lo <= v <= hi ==> r == v
  {
    if v < lo then lo else if v > hi then hi else v
  }

  function Clamp01(v: real): (r: real)
    ensures 0.0 <= r <= 1.0
    ensures 0.0 <= v <= 1.0 ==> r == v
  {
    Clamp(v, 0.0, 1.0)
  }

  /** Vector3.magnitude */
  function Magnitude(m: Maths, v: Vec3): real {
    m.sqrt(SqrNorm(v))
  }

  /** Vector3.normalized: `v / |v|`, or zero when `|v|` is at most kEpsilon. */
  function Normalized(m: Maths, v: Vec3): Vec3 {
    var mag := Magnitude(m, v);
    if mag > Epsilon then Scale(v, 1.0 / mag) else Zero
  }

  /** Vector3.Distance */
  function Distance(m: Maths, a: Vec3, b: Vec3): real {
    Magnitude(m, Sub(a, b))
  }

  /** Quaternion.Euler(0, deg, 0) * v: a rotation about the vertical axis. */
  function RotateY(m: Maths, deg: real, v: Vec3): (r: Vec3)
    ensures r.y == v.y
  {
    var c := m.cosDeg(deg);
    var s := m.sinDeg(deg);
    Vec3(v.x * c + v.z * s, v.y, -v.x * s + v.z * c)
  }

  /** Quaternion.Euler(0, yaw, roll) * Vector3.right: the roll about z is
      applied first, then the yaw about y. */
  function EulerRight(m: Maths, yaw: real, roll: real): Vec3 {
    var ca := m.cosDeg(roll);
    var sa := m.sinDeg(roll);
    RotateY(m, yaw, Vec3(ca, sa, 0.0))
  }

  lemma SqrtOf(m: Maths, a: real, b: real)
    requires SqrtSound(m)
    requires b >= 0.0 && b * b == a
    ensures m.sqrt(a) == b
  {
    var s := m.sqrt(a);
    assert s >= 0.0 && s * s == a;
    assert (s - b) * (s + b) == 0.0;
    if s + b == 0.0 {
      assert s == 0.0 && b == 0.0;
    } else {
      ZeroProduct(s - b, s + b);
    }
  }

  lemma ZeroProduct(u: real, w: real)
    requires u * w == 0.0 && w != 0.0
    ensures u == 0.0
  {
    assert u == (u * w) / w;
  }

  lemma MagnitudeNonNegative(m: Maths, v: Vec3)
    requires SqrtSound(m)
    ensures Magnitude(m, v) >= 0.0
    ensures Magnitude(m, v) * Magnitude(m, v) == SqrNorm(v)
  {
    assert SqrNorm(v) >= 0.0;
  }

  lemma MagnitudeOfScale(m: Maths, v: Vec3, k: real)
    requires SqrtSound(m)
    requires k >= 0.0
    ensures Magnitude(m, Scale(v, k)) == k * Magnitude(m, v)
  {
    MagnitudeNonNegative(m, v);
    var n := Magnitude(m, v);
    SqrNormOfScale(v, k);
    ScaledSquare(k, n, SqrNorm(v), SqrNorm(Scale(v, k)));
    SqrtOf(m, SqrNorm(Scale(v, k)), k * n);
  }

  lemma SqrNormOfScale(v: Vec3, k: real)
    ensures SqrNorm(Scale(v, k)) == k * k * SqrNorm(v)
  {
    SquareOfProduct(k, v.x);
    SquareOfProduct(k, v.y);
    SquareOfProduct(k, v.z);
  }

  lemma SquareOfProduct(k: real, x: real)
    ensures (k * x) * (k * x) == k * k * (x * x)
  {
  }

  /** With n the square root of s and k nonnegative, k n is the square root of
      s2 = k k s. */
  lemma ScaledSquare(k: real, n: real, s: real, s2: real)
    requires k >= 0.0 && n >= 0.0 && n * n == s && s2 == k * k * s
    ensures k * n >= 0.0
    ensures (k * n) * (k * n) == s2
  {
    SquareOfProduct(k, n);
  }

  /** A vector longer than kEpsilon normalises to unit length. */
  lemma NormalizedIsUnit(m: Maths, v: Vec3)
    requires SqrtSound(m)
    requires Magnitude(m, v) > Epsilon
    ensures Magnitude(m, Normalized(m, v)) == 1.0
  {
    var n := Magnitude(m, v);
    MagnitudeOfScale(m, v, 1.0 / n);
    assert (1.0 / n) * n == 1.0;
  }

  /** Rotating by `-deg` undoes a rotation by `deg`. */
  lemma {:induction false} RotateYInverse(m: Maths, deg: real, v: Vec3)
    requires TrigSound(m)
    ensures RotateY(m, -deg, RotateY(m, deg, v)) == v
  {
    var c := m.cosDeg(deg);
    var s := m.sinDeg(deg);
    assert UnitAt(m, deg) && ParityAt(m, deg);
    var w := RotateY(m, deg, v);
    calc {
      w.x * c + w.z * (-s);
      (v.x * c + v.z * s) * c - (-v.x * s + v.z * c) * s;
      v.x * (c * c + s * s);
      v.x;
    }
    calc {
      -w.x * (-s) + w.z * c;
      (v.x * c + v.z * s) * s + (-v.x * s + v.z * c) * c;
      v.z * (c * c + s * s);
      v.z;
    }
  }

  /** Rotation about y keeps the horizontal length. */
  lemma RotateYKeepsHorizontalLength(m: Maths, deg: real, v: Vec3)
    requires TrigSound(m)
    ensures var w := RotateY(m, deg, v); w.x * w.x + w.z * w.z == v.x * v.x + v.z * v.z
  {
    var c := m.cosDeg(deg);
    var s := m.sinDeg(deg);
    assert UnitAt(m, deg);
    var w := RotateY(m, deg, v);
    calc {
      w.x * w.x + w.z * w.z;
      (v.x * c + v.z * s) * (v.x * c + v.z * s) + (-v.x * s + v.z * c) * (-v.x * s + v.z * c);
      (v.x * v.x + v.z * v.z) * (c * c + s * s);
    }
  }
}

=== FILE: variable.dfy ===
/** Variable<T>: one configuration setting with its default, its range and
    a Default / Unchecked / Checked state. Comparison, parsing and rendering
    of T are parameters; the UI container is the text it holds, and a
    missing container is None. */
module Variable {
  import opened Wrappers
  import opened UnityMath
  import CVector

  datatype RangeType = Closed | Open | LeftOpen | RightOpen

  /** Default: never set. Unchecked: set but not range-checked.
      Checked: set and found in range. */
  datatype Kind = Default | Unchecked | Checked

  datatype Variable<T> = Variable(
    name: string,
    kind: Kind,
    value: T,
    defaultValue: T,
    rangeFrom: T,
    rangeTo: T,
    rangeType: RangeType,
    container: string)

  /** The outcome of the type converter on a string: a value, the
      NotSupportedException that TryParse catches, or any other exception,
      which it lets through. */
  datatype Conversion<T> = Converted(v: T) | NotSupported | Thrown(message: string)

  /** CheckRange: x lies between a and b, each end closed or open as the
      range type says, as judged by the comparison cmp. */
  function CheckRange<T>(cmp: (T, T) -> int, x: T, a: T, b: T, t: RangeType): bool {
    var cmpAX := cmp(a, x);
    var cmpXB := cmp(x, b);
    match t
    case Closed => cmpAX <= 0 && cmpXB <= 0
    case Open => cmpAX < 0 && cmpXB < 0
    case LeftOpen => cmpAX < 0 && cmpXB <= 0
    case RightOpen => cmpAX <= 0 && cmpXB < 0
  }

  /** The CompareTo of int and float: the sign of the difference. */
  function CompareNumbers(a: real, b: real): int {
    if a < b then -1 else if a == b then 0 else 1
  }

  /** The CompareTo of bool: false before true. */
  function CompareBools(a: bool, b: bool): int {
    if a == b then 0 else if !a then -1 else 1
  }

  /** For numbers the four range types are the four intervals. */
  lemma NumberRanges(x: real, a: real, b: real)
    ensures CheckRange(CompareNumbers, x, a, b, Closed) <==> a <= x <= b
    ensures CheckRange(CompareNumbers, x, a, b, Open) <==> a < x < b
    ensures CheckRange(CompareNumbers, x, a, b, LeftOpen) <==> a < x <= b
    ensures CheckRange(CompareNumbers, x, a, b, RightOpen) <==> a <= x < b
  {
  }

  /** For vectors compared with CompareTo(CVector), a closed range is the
      box between the ends, and an open range the box minus its two
      corners. */
  lemma VectorRanges(x: CVector.CVector, a: CVector.CVector, b: CVector.CVector)
    ensures CheckRange(CVector.CompareTo, x, a, b, Closed) <==>
      CVector.Below(a.value, x.value) && CVector.Below(x.value, b.value)
    ensures CheckRange(CVector.CompareTo, x, a, b, Open) <==>
      CVector.Below(a.value, x.value) && CVector.Below(x.value, b.value) && a != x && x != b
  {
  }

  /** The constructor: the default must be in range and the container
      present, checked in that order. A new variable is Default. */
  function New<T>(cmp: (T, T) -> int, name: string, defaultValue: T, container: Option<string>,
                  rangeFrom: T, rangeTo: T, rangeType: RangeType, zero: T): (r: Result<Variable<T>>)
    ensures r.Ok? <==> CheckRange(cmp, defaultValue, rangeFrom, rangeTo, rangeType) && container.Some?
    ensures !CheckRange(cmp, defaultValue, rangeFrom, rangeTo, rangeType) ==>
      r == Err("The default value given is outside the range specified. (" + name + ")")
    ensures CheckRange(cmp, defaultValue, rangeFrom, rangeTo, rangeType) && container.None? ==>
      r == Err("Null container reference. (" + name + ")")
    ensures r.Ok? ==> r.value.kind == Default && r.value.name == name && r.value.defaultValue == defaultValue
  {
    if !CheckRange(cmp, defaultValue, rangeFrom, rangeTo, rangeType) then
      Err("The default value given is outside the range specified. (" + name + ")")
    else if container.None? then
      Err("Null container reference. (" + name + ")")
    else
      Ok(Variable(name, Default, zero, defaultValue, rangeFrom, rangeTo, rangeType, container.value))
  }

  /** ForceSet: the value is stored unchecked. */
  function ForceSet<T>(v: Variable<T>, x: T): (r: Variable<T>)
    ensures r.value == x && r.kind == Unchecked
    ensures r.(value := v.value, kind := v.kind) == v
  {
    v.(value := x, kind := Unchecked)
  }

  /** TryParse: a converted value is stored unchecked and reported; a
      NotSupportedException reports failure and changes nothing; any other
      exception escapes. */
  function TryParse<T>(v: Variable<T>, convert: string -> Conversion<T>, input: string): (r: Result<(Variable<T>, bool)>)
    ensures convert(input).Converted? ==> r == Ok((v.(value := convert(input).v, kind := Unchecked), true))
    ensures convert(input).NotSupported? ==> r == Ok((v, false))
    ensures r.Err? <==> convert(input).Thrown?
    ensures convert(input).Thrown? ==> r == Err(convert(input).message)
  {
    match convert(input)
    case Converted(t) => Ok((v.(value := t, kind := Unchecked), true))
    case NotSupported => Ok((v, false))
    case Thrown(e) => Err(e)
  }

  /** Pull: the container's text is parsed. A conversion stores it
      unchecked and reports true, a NotSupportedException reports false and
      leaves the variable as it was, and any other exception escapes. Nothing
      but the value and the state changes. */
  function Pull<T>(v: Variable<T>, convert: string -> Conversion<T>): (r: Result<(Variable<T>, bool)>)
    ensures convert(v.container).Converted? ==>
      && r.Ok? && r.value.1
      && r.value.0.value == convert(v.container).v && r.value.0.kind == Unchecked
      && r.value.0.(value := v.value, kind := v.kind) == v
    ensures convert(v.container).NotSupported? ==> r == Ok((v, false))
    ensures convert(v.container).Thrown? ==> r == Err(convert(v.container).message)
  {
    TryParse(v, convert, v.container)
  }

  /** Check: a Default variable passes unchanged; otherwise the answer is
      CheckRange of the value, and a pass marks the variable Checked. */
  function Check<T>(cmp: (T, T) -> int, v: Variable<T>): (r: (Variable<T>, bool))
    ensures v.kind == Default ==> r == (v, true)
    ensures v.kind != Default ==> r.1 == CheckRange(cmp, v.value, v.rangeFrom, v.rangeTo, v.rangeType)
    ensures v.kind != Default && r.1 ==> r.0 == v.(kind := Checked)
    ensures v.kind != Default && !r.1 ==> r.0 == v
  {
    if v.kind == Default then (v, true)
    else
      var c := CheckRange(cmp, v.value, v.rangeFrom, v.rangeTo, v.rangeType);
      (if c then v.(kind := Checked) else v, c)
  }

  /** The value Push hands on: the default while Default, the value once
      Checked, and none while Unchecked. */
  function Pushed<T>(v: Variable<T>): Option<T> {
    match v.kind
    case Default => Some(v.defaultValue)
    case Checked => Some(v.value)
    case Unchecked => None
  }

  /** Push: the value handed to the manager's cell, with the container
      showing it; an Unchecked variable throws. */
  function Push<T>(v: Variable<T>, show: T -> string): (r: Result<(T, Variable<T>)>)
    ensures r.Ok? <==> v.kind != Unchecked
    ensures r.Ok? ==> Some(r.value.0) == Pushed(v) && r.value.1 == v.(container := show(r.value.0))
    ensures r.Err? ==> r.error == "Attempted to assign unchecked varaible to manager. (" + v.name + ")"
  {
    match v.kind
    case Default => Ok((v.defaultValue, v.(container := show(v.defaultValue))))
    case Checked => Ok((v.value, v.(container := show(v.value))))
    case Unchecked => Err("Attempted to assign unchecked varaible to manager. (" + v.name + ")")
  }

  /** ToString: the name, "=", and the default while Default, else the
      value. */
  function ToString<T>(v: Variable<T>, show: T -> string): (s: string)
    ensures s == v.name + "=" + show(if v.kind == Default then v.defaultValue else v.value)
  {
    if v.kind == Default then v.name + "=" + show(v.defaultValue) else v.name + "=" + show(v.value)
  }

  /** A new variable pushes its default. */
  lemma NewPushesDefault<T>(cmp: (T, T) -> int, name: string, defaultValue: T, container: Option<string>,
                            rangeFrom: T, rangeTo: T, rangeType: RangeType, zero: T, show: T -> string)
    requires New(cmp, name, defaultValue, container, rangeFrom, rangeTo, rangeType, zero).Ok?
    ensures var v := New(cmp, name, defaultValue, container, rangeFrom, rangeTo, rangeType, zero).value;
      && Push(v, show).Ok? && Push(v, show).value.0 == defaultValue
      && Check(cmp, v) == (v, true)
  {
  }

  /** ForceSet leaves the variable Unchecked, so a Push right after it
      throws. */
  lemma ForceSetBlocksPush<T>(v: Variable<T>, x: T, show: T -> string)
    ensures Push(ForceSet(v, x), show).Err?
  {
  }

  /** After a Check that passes, Push succeeds and hands on a value in
      range (or the default); after one that fails, Push throws. */
  lemma CheckGuardsPush<T>(cmp: (T, T) -> int, v: Variable<T>, show: T -> string)
    requires v.kind != Checked || CheckRange(cmp, v.value, v.rangeFrom, v.rangeTo, v.rangeType)
    ensures var (w, ok) := Check(cmp, v);
      && (ok ==> Push(w, show).Ok?)
      && (ok && w.kind == Checked ==> CheckRange(cmp, Push(w, show).value.0, v.rangeFrom, v.rangeTo, v.rangeType))
      && (!ok ==> Push(w, show).Err?)
  {
  }

  /** A parsed value passes Check exactly when it is in range, and is then
      what Push hands on. */
  lemma ParseCheckPush<T>(cmp: (T, T) -> int, v: Variable<T>, convert: string -> Conversion<T>,
                          input: string, show: T -> string)
    requires convert(input).Converted?
    ensures var w := TryParse(v, convert, input).value.0;
      var x := convert(input).v;
      var (u, ok) := Check(cmp, w);
      && (ok <==> CheckRange(cmp, x, v.rangeFrom, v.rangeTo, v.rangeType))
      && (ok ==> Push(u, show) == Ok((x, u.(container := show(x)))))
      && ToString(w, show) == v.name + "=" + show(x)
  {
  }
}

=== FILE: vector3_extensions.dfy ===
/** Extension methods on Vector3: plane projections and CSV rendering. */
module Vector3Extensions {
  import opened UnityMath
  import opened Strings
  import opened Wrappers

  /** Projection into the ground (XZ) plane. */
  function XZ(v: Vec3): Vec3 { Vec3(v.x, 0.0, v.z) }

  /** Projection into the XY plane. */
  function XY(v: Vec3): Vec3 { Vec3(v.x, v.y, 0.0) }

  /** Projection into the YZ plane. */
  function YZ(v: Vec3): Vec3 { Vec3(0.0, v.y, v.z) }

  /** The three coordinates separated by commas. When rendered numbers hold no
      comma, the line splits back into exactly the three rendered coordinates;
      a vector parser reads it back as the rounded coordinates, and as the
      vector itself when its coordinates print exactly. */
  function ToCSVFormat(f: Format, v: Vec3): (s: string)
    ensures CommaFreeReals(f) ==> Split(s, ',') == [f.showReal(v.x), f.showReal(v.y), f.showReal(v.z)]
    ensures SoundFormat(f) ==> f.parseVec(s) == Some((Rounded(f, v.x), Rounded(f, v.y), Rounded(f, v.z)))
    ensures SoundFormat(f) && ExactTriple(f, (v.x, v.y, v.z)) ==> f.parseVec(s) == Some((v.x, v.y, v.z))
  {
    TripleReads(f, v.x, v.y, v.z);
    Triple(f, v.x, v.y, v.z)
  }

  /** Each projection zeroes exactly one coordinate and keeps the other two. */
  lemma ProjectionsKeepTwoCoordinates(v: Vec3)
    ensures Add(XZ(v), Vec3(0.0, v.y, 0.0)) == v
    ensures Add(XY(v), Vec3(0.0, 0.0, v.z)) == v
    ensures Add(YZ(v), Vec3(v.x, 0.0, 0.0)) == v
    ensures XZ(v).y == 0.0 && XY(v).z == 0.0 && YZ(v).x == 0.0
  {
  }

  /** Projecting twice is projecting once. */
  lemma ProjectionsIdempotent(v: Vec3)
    ensures XZ(XZ(v)) == XZ(v) && XY(XY(v)) == XY(v) && YZ(YZ(v)) == YZ(v)
  {
  }

  /** XZ and XY commute, and both orders leave only the x axis. */
  lemma ProjectionsCommute(v: Vec3)
    ensures XZ(XY(v)) == XY(XZ(v)) == Vec3(v.x, 0.0, 0.0)
  {
  }

  /** Two vectors have the same ground projection iff they agree on x and z. */
  lemma XZDeterminedByGround(v: Vec3, w: Vec3)
    ensures XZ(v) == XZ(w) <==> (v.x == w.x && v.z == w.z)
  {
  }
}

=== FILE: wrappers.dfy ===
/** Failure-compatible wrappers: `Option` stands for a C# null reference,
    `Result` for a call that either returns or throws an exception. */
module Wrappers {

  datatype Option<+T> = None | Some(value: T) {
    predicate IsFailure() { None? }

    function PropagateFailure<U>(): Option<U>
      requires None?
    {
      None
    }

    function Extract(): T
      requires Some?
    {
      value
    }
  }

  /** `Err` carries the message of the exception the source throws. */
  datatype Result<+R> = Ok(value: R) | Err(error: string) {
    predicate IsFailure() { Err? }

    function PropagateFailure<U>(): Result<U>
      requires Err?
    {
      Err(error)
    }

    function Extract(): R
      requires Ok?
    {
      value
    }
  }
}
